=== FILE: README.md ===
# kfyty container decisions and source generators, in Dafny

This project models the decision logic at the core of the kfyty application
framework, with Java reflection replaced by explicit metadata:

- `@ConditionalOnBean` admission (`OnBeanCondition`);
- the factory-bean definition rewrite (`FactoryBeanBeanFactoryPostProcessor`);
- field and method injection planning (`AutowiredAnnotationBeanPostProcessor`);
- the import of `@BootstrapConfiguration` beans from a secondary context (`BeanFactoryBootstrap`);
- controller exception-handler registration, lookup and dispatch (`ControllerExceptionAdviceInterceptorProxy`);
- method-validation proxying (`MethodValidationBeanPostProcessor`);
- `@PostConstruct` invocation (`PostConstructProcessor`);
- typed property lookup: maps, indexed collections and nested objects (`DefaultGenericPropertiesContext`).

It also models the code-generation helpers:

- the two `GenerateSources` drivers, from `database-utils` and `mybatis-demo`;
- the MyBatis mapper-interface template (`GenerateMapperInterfaceTemplate`).

## How it is modelled

- **Classes as data.** Classes, methods, fields, parameters and annotations are values (`Beans`).
- **Subtyping as a parameter.** The subtype relation is the parameter `assignable(to, from)`, which stands for `to.isAssignableFrom(from)`.
- **Maps as ordered lists.** A `LinkedHashMap` is an association list with `put` semantics (`Common.Put`). Where Java iterates a `HashMap`, the order is a parameter, except inside the per-key groups of collection binding, which keep insertion order (see "## Left out").
- **Side effects as data.** Methods that act on the world return what they would do instead: the injection plan, the handler invocation, the events written to files.
- **Uninterpreted helpers as parameters.** `convert2Hump`, `factoryBeanDefinition`, `getBeanName`, `findTableInfo` and `CommonUtil.split` are function parameters.
- **Opaque results as values.** `convert` and `newInstance` plus `bindConfigurationProperties` become the symbolic values `Converted(raw, type)` and `Bound(type, prefix)`.

One module per source file, plus `Common` (wrappers, string helpers, ordered maps) and `Beans` (metadata).

The exception-handler fallback search takes the first registered handler whose class is a supertype of the thrown class, in insertion order. It does not take the nearest supertype. `ExceptionAdvice.FirstNotNearest` exhibits this.

## Model

| member | source | states |
|---|---|---|
| OnBeanCondition.IsMatch | kfyty-core/src/main/java/com/kfyty/core/autoconfig/condition/OnBeanCondition.java:18-31 | answers true exactly when every named bean has a definition and every required type has at least one definition assignable to it; any missing name gives false; an empty condition admits |
| OnBeanCondition.AdmitsMonotone | kfyty-core/src/main/java/com/kfyty/core/autoconfig/condition/OnBeanCondition.java:18-31 | registering more definitions (keeping the existing ones) never withdraws an admission |
| OnBeanCondition.SiblingVisibility | kfyty-core/src/main/java/com/kfyty/core/autoconfig/condition/OnBeanCondition.java:20-24 | a condition on a bean name fails before that name is registered and holds after |
| OnBeanCondition.TypeVisibility | kfyty-core/src/main/java/com/kfyty/core/autoconfig/condition/OnBeanCondition.java:25-29 | a condition on a type holds once any definition whose type is assignable to it is registered |
| FactoryBeanPostProcessor.AddPostProcessed | kfyty-boot/src/main/java/com/kfyty/boot/processor/factory/FactoryBeanBeanFactoryPostProcessor.java:56-65 | answers whether the name had already been recorded (a null set counts as empty) and records it |
| FactoryBeanPostProcessor.OnRefreshed | kfyty-boot/src/main/java/com/kfyty/boot/processor/factory/FactoryBeanBeanFactoryPostProcessor.java:38-43 | after the refreshed event no name counts as processed |
| FactoryBeanPostProcessor.PostProcessBeanDefinition | kfyty-boot/src/main/java/com/kfyty/boot/processor/factory/FactoryBeanBeanFactoryPostProcessor.java:45-54 | a new autowire-candidate factory bean is replaced by its derived definition, which is registered; a repeated one is returned unchanged with the registry untouched; a candidate's name is recorded either way |
| FactoryBeanPostProcessor.AddTwice | kfyty-boot/src/main/java/com/kfyty/boot/processor/factory/FactoryBeanBeanFactoryPostProcessor.java:56-65 | the first add of a name answers false, the second true |
| FactoryBeanPostProcessor.SecondPassIsNoOp | kfyty-boot/src/main/java/com/kfyty/boot/processor/factory/FactoryBeanBeanFactoryPostProcessor.java:45-54 | processing the same candidate twice returns it unchanged the second time and leaves the registry as the first pass left it |
| FactoryBeanPostProcessor.RefreshReprocesses | kfyty-boot/src/main/java/com/kfyty/boot/processor/factory/FactoryBeanBeanFactoryPostProcessor.java:38-54 | after the refreshed event a processed candidate is derived and registered again |
| FactoryBeanPostProcessor.StepKeepsBookkeeping | kfyty-boot/src/main/java/com/kfyty/boot/processor/factory/FactoryBeanBeanFactoryPostProcessor.java:32-34 | one loop step adds the visited candidate to the processed names and only derived names to the registry |
| FactoryBeanPostProcessor.PostProcessBeanFactory | kfyty-boot/src/main/java/com/kfyty/boot/processor/factory/FactoryBeanBeanFactoryPostProcessor.java:30-35 | over a snapshot of the registry: every candidate name ends up processed; the registry gains exactly the derived names of new candidates; every other definition is unchanged; each derived name holds the derived definition of some new candidate deriving that name, and a new candidate whose derived name no other new candidate shares has its own derived definition registered under it |
| Autowired.Select | kfyty-boot/src/main/java/com/kfyty/boot/processor/AutowiredAnnotationBeanPostProcessor.java:71-75 | the kept fields are exactly the fields satisfying the filter |
| Autowired.SelectPartition | kfyty-boot/src/main/java/com/kfyty/boot/processor/AutowiredAnnotationBeanPostProcessor.java:77-81 | splitting the described fields into deferred and eager loses and duplicates nothing |
| Autowired.AutowiredBeanField | kfyty-boot/src/main/java/com/kfyty/boot/processor/AutowiredAnnotationBeanPostProcessor.java:68-86 | the wired fields are the eager fields in declaration order followed by the deferred ones (a field some `@Bean` method's return type satisfies) in declaration order: a permutation of the described fields with every eager field before every deferred one |
| Autowired.SelectSplit | kfyty-boot/src/main/java/com/kfyty/boot/processor/AutowiredAnnotationBeanPostProcessor.java:81-85 | the eager list followed by the deferred list is ordered eager-before-deferred, and filtering it gives back each part |
| Autowired.AutowiredBeanMethod | kfyty-boot/src/main/java/com/kfyty/boot/processor/AutowiredAnnotationBeanPostProcessor.java:88-96 | the injected methods are exactly the class's methods carrying an injection annotation |
| Autowired.Assemble | kfyty-boot/src/main/java/com/kfyty/boot/processor/AutowiredAnnotationBeanPostProcessor.java:61-65 | the plan is the fields, then the methods, each marked lazy by its own `@Lazy`, then the property copy when asked |
| Autowired.AssemblePlan | kfyty-boot/src/main/java/com/kfyty/boot/processor/AutowiredAnnotationBeanPostProcessor.java:61-65 | the plan keeps every field injection in front, injects only annotated methods of the target, and copies properties last exactly for a configuration class |
| Autowired.AutowiredBean | kfyty-boot/src/main/java/com/kfyty/boot/processor/AutowiredAnnotationBeanPostProcessor.java:54-66 | a named lazy proxy is not wired at all; otherwise the plan starts with one injection per described field, in the eager-then-deferred field order, followed by one injection per annotated method of the target in declaration order, every member marked lazy exactly when it has `@Lazy`, and ends with the property copy exactly for a `@Configuration` target |
| Bootstrap.Refresh | kfyty-cloud-bootstrap/src/main/java/com/kfyty/cloud/bootstrap/BeanFactoryBootstrap.java:42 | every definition of the refreshed secondary context has a live singleton |
| Bootstrap.CopyOne | kfyty-cloud-bootstrap/src/main/java/com/kfyty/cloud/bootstrap/BeanFactoryBootstrap.java:69-76 | one registration copies the definition and the slot into the target (an existing target name taken to be overwritten), leaves the sentinel in the source slot, appends the post-processor and aware callbacks, and touches no other slot |
| Bootstrap.Replay | kfyty-cloud-bootstrap/src/main/java/com/kfyty/cloud/bootstrap/BeanFactoryBootstrap.java:68-86 | registering names in order keeps the source definitions and records exactly those names |
| Bootstrap.ReplaySlot | kfyty-cloud-bootstrap/src/main/java/com/kfyty/cloud/bootstrap/BeanFactoryBootstrap.java:72 | after a replay a source slot holds the sentinel exactly when its name was registered |
| Bootstrap.BeanMethodNames | kfyty-cloud-bootstrap/src/main/java/com/kfyty/cloud/bootstrap/BeanFactoryBootstrap.java:77-80 | the names listed are exactly the bean names of the `@Bean` methods of the definition's type |
| Bootstrap.Visit | kfyty-cloud-bootstrap/src/main/java/com/kfyty/cloud/bootstrap/BeanFactoryBootstrap.java:68-86 | the guarded registration order only extends what was registered, never adds unknown names, and never grows the set still to register |
| Bootstrap.VisitNested | kfyty-cloud-bootstrap/src/main/java/com/kfyty/cloud/bootstrap/BeanFactoryBootstrap.java:77-85 | the loop over `@Bean` methods only extends the order and stays within the definitions |
| Bootstrap.VisitAll | kfyty-cloud-bootstrap/src/main/java/com/kfyty/cloud/bootstrap/BeanFactoryBootstrap.java:53-57 | the loop over the marked definitions only extends the order and stays within the definitions |
| Bootstrap.VisitFacts | kfyty-cloud-bootstrap/src/main/java/com/kfyty/cloud/bootstrap/BeanFactoryBootstrap.java:68-86 | one registration registers its name, registers nothing twice, and every newly registered name has all its produced beans registered |
| Bootstrap.VisitNestedFacts | kfyty-cloud-bootstrap/src/main/java/com/kfyty/cloud/bootstrap/BeanFactoryBootstrap.java:77-85 | the nested loop registers every produced bean that has a definition, with no duplicates |
| Bootstrap.VisitAllFacts | kfyty-cloud-bootstrap/src/main/java/com/kfyty/cloud/bootstrap/BeanFactoryBootstrap.java:53-57 | every marked definition is registered, nothing twice, and produced beans are closed under registration |
| Bootstrap.ImportOrder | kfyty-cloud-bootstrap/src/main/java/com/kfyty/cloud/bootstrap/BeanFactoryBootstrap.java:53-86 | the guarded registration order covers the marked names, is duplicate-free, stays within the definitions, includes the products of every name in it, and holds nothing else: every name in it is marked or produced by a `@Bean` method of a name in the order |
| Bootstrap.ReplayShape | kfyty-cloud-bootstrap/src/main/java/com/kfyty/cloud/bootstrap/BeanFactoryBootstrap.java:69-76 | replaying distinct names puts their definitions and instances over the target's and appends their post-processors and aware callbacks in order |
| Bootstrap.ImportSecondary | kfyty-cloud-bootstrap/src/main/java/com/kfyty/cloud/bootstrap/BeanFactoryBootstrap.java:41-44 | the secondary slots of registered names hold the sentinel, so closing the secondary context destroys only instances that were not copied |
| Bootstrap.BootstrapContext | kfyty-cloud-bootstrap/src/main/java/com/kfyty/cloud/bootstrap/BeanFactoryBootstrap.java:37-45 | the corrected bootstrap, whose registration skips names already registered: the bootstrap application itself is left alone; otherwise the secondary context is refreshed, copied from and closed, with its definitions untouched |
| Bootstrap.BootstrapImports | kfyty-cloud-bootstrap/src/main/java/com/kfyty/cloud/bootstrap/BeanFactoryBootstrap.java:37-86 | the whole guarded (corrected) import: every marked definition and every bean a registered bean's `@Bean` methods produce is registered exactly once, and nothing else is; the target gets their definitions, instances, post-processors and aware callbacks; the secondary context destroys only what was not copied |
| Bootstrap.VisitAsWritten | kfyty-cloud-bootstrap/src/main/java/com/kfyty/cloud/bootstrap/BeanFactoryBootstrap.java:68-86 | the unguarded registration order, within a recursion bound, starts with the name and extends the order |
| Bootstrap.BootstrapAsWritten | kfyty-cloud-bootstrap/src/main/java/com/kfyty/cloud/bootstrap/BeanFactoryBootstrap.java:37-86 | the unguarded import leaves the bootstrap application alone, and whenever it reaches no name twice its result is the guarded import's |
| Bootstrap.VisitAllAgrees | kfyty-cloud-bootstrap/src/main/java/com/kfyty/cloud/bootstrap/BeanFactoryBootstrap.java:53-86 | when the unguarded loop finishes within its bound without registering a name twice, its order is the guarded loop's |
| Bootstrap.VisitAllMinimal | kfyty-cloud-bootstrap/src/main/java/com/kfyty/cloud/bootstrap/BeanFactoryBootstrap.java:53-86 | every name the guarded loop newly registers is marked or produced by a `@Bean` method of a name in its order |
| Bootstrap.ExampleOrderAsWritten | kfyty-cloud-bootstrap/src/main/java/com/kfyty/cloud/bootstrap/BeanFactoryBootstrap.java:54-55 | as written, a marked `b` produced by marked `a` is registered twice |
| Bootstrap.SecondCopyTakesSentinel | kfyty-cloud-bootstrap/src/main/java/com/kfyty/cloud/bootstrap/BeanFactoryBootstrap.java:69-72 | as written, the second registration of `b` copies `EMPTY_BEAN` into the target, where registration overwrites an existing name |
| Bootstrap.GuardedKeepsInstance | kfyty-cloud-bootstrap/src/main/java/com/kfyty/cloud/bootstrap/BeanFactoryBootstrap.java:68-86 | with the guard, `b` is registered once and the target keeps its instance |
| ExceptionAdvice.HandlerKeys | kfyty-mvc/src/main/java/com/kfyty/mvc/proxy/ControllerExceptionAdviceInterceptorProxy.java:48 | the annotation's classes when there are any, the method's parameter types otherwise |
| ExceptionAdvice.KeyEntries | kfyty-mvc/src/main/java/com/kfyty/mvc/proxy/ControllerExceptionAdviceInterceptorProxy.java:49-53 | one entry per declared class that is throwable, all for the same handler |
| ExceptionAdvice.Registrations | kfyty-mvc/src/main/java/com/kfyty/mvc/proxy/ControllerExceptionAdviceInterceptorProxy.java:44-56 | the registrations are exactly the entries some handler method of some advice bean declares |
| ExceptionAdvice.InitExceptionHandler | kfyty-mvc/src/main/java/com/kfyty/mvc/proxy/ControllerExceptionAdviceInterceptorProxy.java:43-57 | the handler map holds each declared throwable class once, in the order of its first registration, and each class maps to the last handler registered for it |
| ExceptionAdvice.LaterRegistrationWins | kfyty-mvc/src/main/java/com/kfyty/mvc/proxy/ControllerExceptionAdviceInterceptorProxy.java:44-56 | a class maps to the handler of its last registration, whatever registrations of it came earlier |
| ExceptionAdvice.FindControllerExceptionAdvice | kfyty-mvc/src/main/java/com/kfyty/mvc/proxy/ControllerExceptionAdviceInterceptorProxy.java:77-98 | a handler is found exactly when the thrown class has one registered or some registered class is its supertype; the exact class's handler wins, otherwise the first entry whose class is a supertype; the argument array has one slot per parameter and holds the failure exactly at the parameters that accept it |
| ExceptionAdvice.FirstNotNearest | kfyty-mvc/src/main/java/com/kfyty/mvc/proxy/ControllerExceptionAdviceInterceptorProxy.java:79-86 | with `Exception` registered before `IOException`, a `FileNotFoundException` goes to the `Exception` handler |
| ExceptionAdvice.FirstSupporting | kfyty-mvc/src/main/java/com/kfyty/mvc/proxy/ControllerExceptionAdviceInterceptorProxy.java:102-108 | the first return-value processor that supports the invocation, or none when none does |
| ExceptionAdvice.Proceed | kfyty-mvc/src/main/java/com/kfyty/mvc/proxy/ControllerExceptionAdviceInterceptorProxy.java:60-75 | a method without a request mapping is delegated to with nothing caught; a success passes through; a failure of a mapped method invokes a handler exactly when one is registered for its class or a supertype, the one `FindControllerExceptionAdvice` picks; the invocation is processed exactly when some processor supports it, by the first that does, and yields null; otherwise the failure is rethrown unchanged |
| MethodValidation.AnyParamValidatable | kfyty-boot/src/main/java/com/kfyty/boot/processor/MethodValidationBeanPostProcessor.java:44 | true exactly when some parameter carries `@Valid` or a constraint annotation |
| MethodValidation.CanValidate | kfyty-boot/src/main/java/com/kfyty/boot/processor/MethodValidationBeanPostProcessor.java:39-49 | true exactly when some method asks for validation on itself or on a parameter |
| MethodValidation.PostProcessAfterInstantiation | kfyty-boot/src/main/java/com/kfyty/boot/processor/MethodValidationBeanPostProcessor.java:32-37 | a validation proxy around the bean exactly when its source class can validate, null otherwise |
| PostConstruct.PostProcessBeforeInitialization | loveqq-boot/src/main/java/com/kfyty/loveqq/framework/boot/processor/PostConstructProcessor.java:25-37 | invokes the first `@PostConstruct` method of the target class, once, and nothing when there is none; the receiver is the unwrapped target exactly when the bean is a JDK proxy and the method is declared elsewhere; the bean is never replaced |
| Properties.SearchMapProperties | kfyty-boot/src/main/java/com/kfyty/boot/context/env/DefaultGenericPropertiesContext.java:78-80 | exactly the entries whose key starts with the prefix, with their values |
| Properties.ParseIndexed | kfyty-boot/src/main/java/com/kfyty/boot/context/env/DefaultGenericPropertiesContext.java:92-103 | a key is kept exactly when it is the prefix, `[digits]` and anything; it is then grouped under its `[n]` text and stored under the whole key when it ends at `]`, else under what follows `].` |
| Properties.Kept | kfyty-boot/src/main/java/com/kfyty/boot/context/env/DefaultGenericPropertiesContext.java:91-94 | the kept entries are exactly the matching properties, with their index text and stored key |
| Properties.InsertGroup | kfyty-boot/src/main/java/com/kfyty/boot/context/env/DefaultGenericPropertiesContext.java:98-103 | `computeIfAbsent` then `put` on a `TreeMap`: the groups stay sorted, gain the index, and only that group changes |
| Properties.GroupAllFacts | kfyty-boot/src/main/java/com/kfyty/boot/context/env/DefaultGenericPropertiesContext.java:90-105 | grouping every kept entry gives sorted groups, one per index text, each holding its members put in order |
| Properties.SearchCollectionProperties | kfyty-boot/src/main/java/com/kfyty/boot/context/env/DefaultGenericPropertiesContext.java:88-106 | groups are ordered by string comparison of the index text, there is one for each index some matching key carries, and within a group a key maps to the value of the last entry stored under it |
| Properties.IndexTenBeforeTwo | kfyty-boot/src/main/java/com/kfyty/boot/context/env/DefaultGenericPropertiesContext.java:90 | with keys `items[2]` and `items[10]`, the group `[10]` comes before `[2]` |
| Properties.ConvertAll | kfyty-boot/src/main/java/com/kfyty/boot/context/env/DefaultGenericPropertiesContext.java:167 | every value of a group is converted, in order |
| Properties.ConvertAndBindCollection | kfyty-boot/src/main/java/com/kfyty/boot/context/env/DefaultGenericPropertiesContext.java:162-176 | for a base element type, every value of every group is converted, group after group in the groups' order and each group's values in order, and nothing else appears; otherwise one instance per group, in the groups' order, bound under the prefix plus the index text |
| Properties.Stripped | kfyty-boot/src/main/java/com/kfyty/boot/context/env/DefaultGenericPropertiesContext.java:193 | each entry's key loses every occurrence of `prefix.`, and its value is converted |
| Properties.BindBaseValues | kfyty-boot/src/main/java/com/kfyty/boot/context/env/DefaultGenericPropertiesContext.java:191-194 | base-type map binding: the keys are the stripped keys, each once, and each maps to the converted value of its last entry |
| Properties.StripPrefix | kfyty-boot/src/main/java/com/kfyty/boot/context/env/DefaultGenericPropertiesContext.java:193 | stripping `prefix.` from `prefix.rest` gives `rest` when `rest` does not repeat it |
| Properties.Segment | kfyty-boot/src/main/java/com/kfyty/boot/context/env/DefaultGenericPropertiesContext.java:196 | the map key of an object entry is the dot-free text between `prefix.` and the next dot; there is none exactly when no dot follows |
| Properties.BindObjectValues | kfyty-boot/src/main/java/com/kfyty/boot/context/env/DefaultGenericPropertiesContext.java:191-205 | object map binding fails (index out of bounds) exactly when some entry has no further dot; otherwise one instance per distinct segment, bound under `prefix.segment` |
| Properties.ConvertAndBindMap | kfyty-boot/src/main/java/com/kfyty/boot/context/env/DefaultGenericPropertiesContext.java:186-206 | base value types bind converted values; object value types fail exactly when a matching key has no further dot, and otherwise bind one instance per segment |
| Properties.MapValueType | kfyty-boot/src/main/java/com/kfyty/boot/context/env/DefaultGenericPropertiesContext.java:117 | the map's value type when the generic has two arguments, else the resolved class; a cast failure when that is not a class |
| Properties.SimpleLookup | kfyty-boot/src/main/java/com/kfyty/boot/context/env/DefaultGenericPropertiesContext.java:58 | a value exactly when the key is set, converted to the class |
| Properties.IndexedKeysGroups | kfyty-boot/src/main/java/com/kfyty/boot/context/env/DefaultGenericPropertiesContext.java:135-136 | the group search is non-empty exactly when some key has the form `key[n]...` |
| Properties.CollectedElements | kfyty-boot/src/main/java/com/kfyty/boot/context/env/DefaultGenericPropertiesContext.java:129-139 | the split and converted value when the key itself is set, else the bound groups, else null exactly when neither exists |
| Properties.BindCollectionProperties | kfyty-boot/src/main/java/com/kfyty/boot/context/env/DefaultGenericPropertiesContext.java:128-152 | null when nothing is found; the elements for a `Collection` raw type; an array copy for an array raw type; unsupported-bind exactly for any other raw type with elements |
| Properties.GetProperty | kfyty-boot/src/main/java/com/kfyty/boot/context/env/DefaultGenericPropertiesContext.java:56-70 | a non-map class is looked up directly; a map generic fails with a cast error when its value type is not a class, and otherwise gives exactly what `ConvertAndBindMap` promises (converted values, the index failure when a key lacks a segment, or one instance per segment); a simple generic binds a collection; anything else is refused |
| Common.IndexOf | kfyty-boot/src/main/java/com/kfyty/boot/context/env/DefaultGenericPropertiesContext.java:95-96 | the first position at or after `from` holding the character, or -1 when there is none |
| Common.ReplaceChar | database-utils/src/main/java/com/kfyty/generate/GenerateSources.java:54 | the string with every occurrence of one character replaced by another, and nothing else changed |
| Common.Put | kfyty-mvc/src/main/java/com/kfyty/mvc/proxy/ControllerExceptionAdviceInterceptorProxy.java:51 | `LinkedHashMap.put`: the key maps to the new value, others are unchanged, an existing key keeps its position and a new one goes last |
| Common.PutAllLookup | kfyty-mvc/src/main/java/com/kfyty/mvc/proxy/ControllerExceptionAdviceInterceptorProxy.java:44-56 | after putting entries in order, a key maps to the value of its last entry |
| Common.PutAllOrder | kfyty-mvc/src/main/java/com/kfyty/mvc/proxy/ControllerExceptionAdviceInterceptorProxy.java:44-56 | putting entries into a map keeps its keys in place and appends the new keys in the order of their first entry |
| Common.PutAllKeys | kfyty-mvc/src/main/java/com/kfyty/mvc/proxy/ControllerExceptionAdviceInterceptorProxy.java:44-56 | putting entries adds exactly their keys and keeps keys distinct |
| Common.LexLessTransitive | kfyty-boot/src/main/java/com/kfyty/boot/context/env/DefaultGenericPropertiesContext.java:90 | `String.compareTo` order is transitive (with `LexLessIrreflexive` and `LexLessTotal`, a strict total order for the `TreeMap`) |
| GenerateSources.PackageDirChar | database-utils/src/main/java/com/kfyty/generate/GenerateSources.java:54 | with a one-character separator the package directory is the package with every dot replaced by it |
| GenerateSources.SavePath | database-utils/src/main/java/com/kfyty/generate/GenerateSources.java:52-55 | the save directory is the parent path, exactly one separator, and the package directory |
| GenerateSources.SavePathTrailingSeparator | database-utils/src/main/java/com/kfyty/generate/GenerateSources.java:53-55 | a parent given with or without its trailing separator yields the same directory |
| GenerateSources.FileName | database-utils/src/main/java/com/kfyty/generate/GenerateSources.java:57-59 | upper-camel table name, then exactly the template's suffix (default empty), then the type suffix (default `.java`) |
| GenerateSources.InitDirectory | database-utils/src/main/java/com/kfyty/generate/GenerateSources.java:51-60 | the full path is inside the save directory and ends with the file name |
| GenerateSources.Matching | database-utils/src/main/java/com/kfyty/generate/GenerateSources.java:87 | exactly the infos whose table is named, in order |
| GenerateSources.MatchingIdempotent | database-utils/src/main/java/com/kfyty/generate/GenerateSources.java:87 | filtering an already filtered list changes nothing |
| GenerateSources.FilterTables | database-utils/src/main/java/com/kfyty/generate/GenerateSources.java:87-88 | a null or empty table set keeps every info; otherwise the matching infos, unless none match, in which case every info |
| GenerateSources.FilterTablesFacts | database-utils/src/main/java/com/kfyty/generate/GenerateSources.java:87-88 | the filter never empties a non-empty list, and applying it twice is applying it once |
| GenerateSources.TablesAsWritten | database-utils/src/main/java/com/kfyty/generate/GenerateSources.java:79-84 | as written, the table set read by the filter is null when none was configured, whatever the query returned |
| GenerateSources.SelectedTables | database-utils/src/main/java/com/kfyty/generate/GenerateSources.java:79-84 | the selected names are the configured ones plus the queried ones when the query runs |
| GenerateSources.Retained | database-utils/src/main/java/com/kfyty/generate/GenerateSources.java:79-88 | the corrected selection: the infos of the selected tables (configured plus queried), in order, when any match, and otherwise every info of the database |
| GenerateSources.RetainedAsWrittenAgrees | database-utils/src/main/java/com/kfyty/generate/GenerateSources.java:79-88 | with a configured table set the written and corrected selections agree |
| GenerateSources.QueriedTablesIgnored | database-utils/src/main/java/com/kfyty/generate/GenerateSources.java:79-88 | as written, with no configured set a queried `user` table is ignored and every table is kept |
| GenerateSources.FillAll | database-utils/src/main/java/com/kfyty/generate/GenerateSources.java:89-91 | every info gets the table infos of its own database and table, keeping names and order |
| GenerateSources.InitDataBaseInfo | database-utils/src/main/java/com/kfyty/generate/GenerateSources.java:75-95 | on the corrected selection (`Retained`): one filled info per retained info, in order and under the same table name, never empty when the database has tables |
| GenerateSources.StepAsWritten | database-utils/src/main/java/com/kfyty/generate/GenerateSources.java:113-117 | one table of the loop as written fails exactly when a file-sharing template writes through a closed writer |
| GenerateSources.StepFacts | database-utils/src/main/java/com/kfyty/generate/GenerateSources.java:113-117 | one step writes exactly that table through an open writer, on a new file for non-sharing templates and on the current file for sharing ones |
| GenerateSources.FinishFacts | database-utils/src/main/java/com/kfyty/generate/GenerateSources.java:121-123 | the writer is closed after a non-sharing template and left alone after a sharing one |
| GenerateSources.InfosFacts | database-utils/src/main/java/com/kfyty/generate/GenerateSources.java:112-120 | the inner loop writes every table in order through open writers |
| GenerateSources.TemplatesFacts | database-utils/src/main/java/com/kfyty/generate/GenerateSources.java:110-124 | the outer loop writes, for each template in turn, every table in turn |
| GenerateSources.Generate | database-utils/src/main/java/com/kfyty/generate/GenerateSources.java:107-125 | the corrected loop, which reopens a closed shared file for appending, over the tables it is given (in `generate`, those `InitDataBaseInfo` fills from the corrected selection): every template writes every table, templates in order and tables in order, and every write goes through an open writer |
| GenerateSources.GenerateAsWritten | database-utils/src/main/java/com/kfyty/generate/GenerateSources.java:107-125 | when the written loop succeeds it writes exactly what `Generate` writes |
| GenerateSources.SharedFileAfterClose | database-utils/src/main/java/com/kfyty/generate/GenerateSources.java:113-123 | as written, a file-sharing template after a non-sharing one writes through the writer the first one closed |
| MybatisGenerate.Text | mybatis-demo/src/main/java/com/kfyty/generate/GenerateSources.java:56-57 | a null suffix is concatenated as the text `null` |
| MybatisGenerate.FileName | mybatis-demo/src/main/java/com/kfyty/generate/GenerateSources.java:56-57 | upper-camel table name, then exactly the suffix, then the type suffix, with no defaults (a null part reads `null`) |
| MybatisGenerate.InitDirectory | mybatis-demo/src/main/java/com/kfyty/generate/GenerateSources.java:50-58 | the full path is inside the save directory and ends with the file name |
| MybatisGenerate.Write | mybatis-demo/src/main/java/com/kfyty/generate/GenerateSources.java:71-79 | a new file when there is none or files are not shared; then a new writer, appending exactly when files are shared, through which the table is written |
| MybatisGenerate.HandleDataBaseInfo | mybatis-demo/src/main/java/com/kfyty/generate/GenerateSources.java:81-91 | as written: with no configured table set every info is kept, whatever the query returned; with one, the infos of the configured plus queried tables when any match, else every info |
| MybatisGenerate.SelectTables | mybatis-demo/src/main/java/com/kfyty/generate/GenerateSources.java:81-91 | the corrected selection: the infos of the configured plus queried tables when any match, else every info; never empty when the database has tables |
| MybatisGenerate.HandleIgnoresQueriedTables | mybatis-demo/src/main/java/com/kfyty/generate/GenerateSources.java:82-90 | with no configured set and a query returning `user`, the written selection keeps `user` and `order` and the corrected one keeps only `user` |
| MybatisGenerate.WrittenStep | mybatis-demo/src/main/java/com/kfyty/generate/GenerateSources.java:107-110 | one more table extends the trace by the opening of its writer on its target file and the write |
| MybatisGenerate.GenerateStep | mybatis-demo/src/main/java/com/kfyty/generate/GenerateSources.java:107-110 | one table of the loop keeps the trace valid and extends the writes by that table |
| MybatisGenerate.Generate | mybatis-demo/src/main/java/com/kfyty/generate/GenerateSources.java:103-111 | on the corrected selection (`SelectTables`): every selected table, in order, is filled and written through its own writer, opened just before on its target file with append equal to `sameFile`; the writes are exactly the filled tables |
| MapperTemplate.MapperFileName | kfyty-database/src/main/java/com/kfyty/generate/template/mapper/GenerateMapperInterfaceTemplate.java:20-22 | a mapper file is named `<UpperCamelTable>Mapper.java` |
| MapperTemplate.AnnotationImported | kfyty-database/src/main/java/com/kfyty/generate/template/mapper/GenerateMapperInterfaceTemplate.java:25-40 | the class annotation is a class the import section brings in |
| MapperTemplate.GenerateClassDefinition | kfyty-database/src/main/java/com/kfyty/generate/template/mapper/GenerateMapperInterfaceTemplate.java:33-35 | `public interface` followed by the class name in its only hole |
| MapperTemplate.EntityClassName | kfyty-database/src/main/java/com/kfyty/generate/template/mapper/GenerateMapperInterfaceTemplate.java:54-56 | starts with the upper-camel table name and ends with the entity suffix |
| MapperTemplate.EntityVarName | kfyty-database/src/main/java/com/kfyty/generate/template/mapper/GenerateMapperInterfaceTemplate.java:53-55 | starts with the lower-camel table name and ends with the entity suffix |
| MapperTemplate.ReturnHoles | kfyty-database/src/main/java/com/kfyty/generate/template/mapper/GenerateMapperInterfaceTemplate.java:58-70 | a result format holds one hole when it names the entity, none for `void` |
| MapperTemplate.ParamHoles | kfyty-database/src/main/java/com/kfyty/generate/template/mapper/GenerateMapperInterfaceTemplate.java:58-70 | a parameter list holds three holes when it takes the entity, none otherwise |
| MapperTemplate.DeclarationOf | kfyty-database/src/main/java/com/kfyty/generate/template/mapper/GenerateMapperInterfaceTemplate.java:58-70 | each declaration gets exactly one argument per hole: the class name for the finders, variable, class and variable for insert and updateById, none for deleteById |
| MapperTemplate.Declarations | kfyty-database/src/main/java/com/kfyty/generate/template/mapper/GenerateMapperInterfaceTemplate.java:58-70 | seven declarations in the order findById, findBy, findLike, findAll, insert, updateById, deleteById, every one well formed, with only the entity's class and variable names as arguments |
| MapperTemplate.ImportsMatchUses | kfyty-database/src/main/java/com/kfyty/generate/template/mapper/GenerateMapperInterfaceTemplate.java:25-70 | every class the import section brings in is used by the annotation or a declaration, and every class they use is imported except `List`, which the mapper template's own sections do not import |
| MapperTemplate.GenerateMapperInterfaces | kfyty-database/src/main/java/com/kfyty/generate/template/mapper/GenerateMapperInterfaceTemplate.java:52-71 | the seven declarations for the table's entity, whose class and variable names are the only arguments |

## Left out

- **File-system I/O:** creating, deleting and `mkdirs` of files, and the failure paths of `initFile`. Files are the events of a trace; a failed delete or create is not modelled.
- **`getAbsolutePath`:** `File.getAbsolutePath` is the layout's `parent` string, taken as given.
- **Writers, logs and placeholders:** `flush`, log output and the writer left open at the end of `generate` are left out. So is the writer's `{}` placeholder substitution: a format is a list of text and holes, with its arguments beside it.
- **Concurrency:** the volatile field and the synchronized double-checked creation of the processed-name set in `addPostProcessed` are a plain optional set.
- **Reflection and framework helpers** are parameters or symbolic values, since their code is not part of this model:
  - `convert`;
  - `convert2Hump`;
  - `newInstance` and `bindConfigurationProperties`;
  - `CommonUtil.split`;
  - `ReflectUtil.isBaseDataType`;
  - `factoryBeanDefinition`;
  - `BeanUtil.getBeanName`;
  - `buildBeanTypes`;
  - `AopUtil.getTarget` and `getTargetClass`;
  - `createProxy`;
  - `copyToArray`.
- **Handler side effects:** the handler call and `handleReturnValue` are modelled as data. Exceptions thrown by them are not.
- **The base pojo template:** `GeneratePojoTemplate.importEntity` is one opaque import entry, and the order in which the base template calls the sections is not part of this model.
- **Database mapper:** `findTableList`, `findDataBaseInfo`, `findTableInfo` and the annotation rewrite are parameters. `CommonUtil.empty` is read as "null or empty".
- **Java `HashMap` order:** the iteration order of `HashMap` and of `Collectors.toMap` is the order of the given lists, except the per-key groups of collection binding (see `Properties.ConvertAndBindCollection` below).
- **Refresh:** a secondary context's refresh is abstracted to "every definition gets a live singleton".
- Bootstrap.BootstrapAsWritten: the unguarded recursion of `registerBootstrapBean` can loop forever on a cycle of `@Bean` products. The as-written model takes a recursion bound (`fuel`) and answers `None` when it is exhausted, so unbounded recursion and the resulting stack overflow are not modelled.
- Properties.Matches: the prefix is taken literally. The source escapes only `.` and `[` before building the regular expression, so a prefix holding other regex metacharacters is not modelled.
- Properties.ParseIndexed: inherits the literal-prefix reading of `Properties.Matches`.
- Properties.ConvertAndBindCollection: within each group the values are laid out in the order they were put. The source keeps each group in a `HashMap` and iterates its `values()` in hash order, which is not modelled, so the within-group order `LaidOut` states is insertion order; `Gathers` (every value appears converted, and nothing else) does not depend on that order.
- FactoryBeanPostProcessor.PostProcessBeanFactory: assumes bean names are the registry keys (`WellNamed`), as the bean factory keeps them. `beanFactory.registerBeanDefinition` is taken to overwrite an existing name; the bean factory's code is not part of this model, so how it handles a duplicate name is not modelled. Under that assumption, when two new candidates derive the same bean name, the later registration overwrites the earlier one; the contract says the slot holds the derived definition of one of them, and names which only when the derived name is not shared.
- FactoryBeanPostProcessor.PostProcessBeanDefinition: `beanFactory.registerBeanDefinition` is taken to replace a definition already registered under the derived name; how the bean factory handles a duplicate name is not modelled.
- Bootstrap.CopyOne: `registerBeanDefinition` and `replaceBean` are taken to overwrite an existing name; the bean factory's code is not part of this model, so how it handles a duplicate name is not modelled.
- MybatisGenerate.Generate: the unboxing of a null `getSameFile()` is not modelled; `sameFile` is a plain boolean.
- Bootstrap.Close: closing is abstracted to marking the context closed and destroying the instances still live in its slots; destroy callbacks, their order and `try`-with-resources failure handling are not modelled.
- **Imports of the mapper template:** the base template's `importEntity` is not part of this model, so whether it brings in `java.util.List` is not known; `MapperTemplate.ImportsMatchUses` states what the mapper template's own sections import.
- **Startup context:** `setApplicationContext` (wiring the processor itself) is `Autowired.AutowiredBean` with no bean name; creating the `AutowiredProcessor` is left out.

## Findings

| source | as written | input that shows it | evidently intended | confidence | as-written member | corrected member |
|---|---|---|---|---|---|---|
| kfyty-cloud-bootstrap/src/main/java/com/kfyty/cloud/bootstrap/BeanFactoryBootstrap.java:68-86 | `registerBootstrapBean` has no "already registered" check, so a name reached twice is copied twice; the second copy reads the `EMPTY_BEAN` the first one left in the secondary context | marked configurations `a` and `b` where `a` has a `@Bean` method producing `b`: `b` is registered from `a`, then again from the marked loop, and, if registration overwrites an existing name, the primary context ends up holding `EMPTY_BEAN` under `b`; otherwise the second registration fails | each bootstrap bean is registered once and the primary context keeps its instance | not executed | Bootstrap.SecondCopyTakesSentinel | Bootstrap.GuardedKeepsInstance |
| database-utils/src/main/java/com/kfyty/generate/GenerateSources.java:79-88 | when `getTables()` is null the queried table names are added to a throw-away set, and the filter re-reads `getTables()`, so the table query has no effect | no configured tables, query SQL `show tables` returning `user`, database tables `user` and `order`: both tables are kept | the filter uses the configured names plus the queried ones, keeping only `user` | not executed | GenerateSources.QueriedTablesIgnored | GenerateSources.Retained |
| mybatis-demo/src/main/java/com/kfyty/generate/GenerateSources.java:81-91 | when `getTables()` is null the queried table names are added to a throw-away set, and the filter re-reads `getTables()`, so the table query has no effect | no configured tables, query SQL `show tables` returning `user`, database tables `user` and `order`: both tables are kept | the filter uses the configured names plus the queried ones, keeping only `user` | not executed | MybatisGenerate.HandleIgnoresQueriedTables | MybatisGenerate.SelectTables |
| database-utils/src/main/java/com/kfyty/generate/GenerateSources.java:113-123 | a file-sharing template following a non-sharing one finds `file` set and skips opening, then writes through the `out` the previous template closed | template 0 not sharing files, then template 1 sharing files, one table: the second template writes through a closed writer ("Stream closed") | the shared file is reopened for appending | not executed | GenerateSources.SharedFileAfterClose | GenerateSources.Generate |

=== FILE: autowired.dfy ===
/** Field and method injection of `AutowiredAnnotationBeanPostProcessor`, as the
    ordered plan of injections it performs. A field whose type one of the
    class's own `@Bean` methods can produce is deferred until every other field
    is wired. */
module Autowired {
  import opened Common
  import opened Beans

  /** One injection the processor asks the autowiring engine to perform, with
      the laziness flag it marks the description with; `CopyProperties` copies
      the unwrapped target's properties back onto the bean. */
  datatype Injection =
    | InjectField(field: FieldMeta, lazy: bool)
    | InjectMethod(setter: MethodMeta, lazy: bool)
    | CopyProperties

  /** The field carries an injection annotation. */
  predicate Described(f: FieldMeta) {
    Autowired in f.annotations
  }

  /** Some `@Bean` method of the class returns a type the field accepts. */
  predicate Deferred(cls: ClassMeta, f: FieldMeta, assignable: Assignability) {
    exists m :: m in cls.methods && Bean in m.annotations && assignable(f.actualType, m.returnType)
  }

  predicate Eager(cls: ClassMeta, f: FieldMeta, assignable: Assignability) {
    Described(f) && !Deferred(cls, f, assignable)
  }

  predicate Late(cls: ClassMeta, f: FieldMeta, assignable: Assignability) {
    Described(f) && Deferred(cls, f, assignable)
  }

  /** The fields of `fs` satisfying `keep`, in their order. */
  function Select(fs: seq<FieldMeta>, keep: FieldMeta -> bool): (r: seq<FieldMeta>)
    ensures forall f :: f in r ==> f in fs && keep(f)
    ensures forall f :: f in fs && keep(f) ==> f in r
  {
    if |fs| == 0 then []
    else (if keep(fs[0]) then [fs[0]] else []) + Select(fs[1..], keep)
  }

  lemma {:induction false} SelectAppend(fs: seq<FieldMeta>, f: FieldMeta, keep: FieldMeta -> bool)
    ensures Select(fs + [f], keep) == Select(fs, keep) + (if keep(f) then [f] else [])
    decreases |fs|
  {
    if |fs| > 0 {
      var rest := fs + [f];
      assert rest[0] == fs[0];
      assert rest[1..] == fs[1..] + [f];
      SelectAppend(fs[1..], f, keep);
      assert Select(rest, keep) == (if keep(fs[0]) then [fs[0]] else []) + Select(fs[1..] + [f], keep);
    } else {
      assert fs + [f] == [f];
    }
  }

  /** Splitting by a predicate and joining the two parts loses and adds nothing. */
  lemma {:induction false} SelectPartition(fs: seq<FieldMeta>, keep: FieldMeta -> bool, a: FieldMeta -> bool, b: FieldMeta -> bool)
    requires forall f :: keep(f) <==> (a(f) || b(f))
    requires forall f :: !(a(f) && b(f))
    ensures multiset(Select(fs, a)) + multiset(Select(fs, b)) == multiset(Select(fs, keep))
  {
    if |fs| > 0 {
      SelectPartition(fs[1..], keep, a, b);
    }
  }

  /** The eager described fields of `cls`, then the deferred ones, each group
      in discovery order. */
  function FieldOrder(cls: ClassMeta, assignable: Assignability): seq<FieldMeta> {
    Select(cls.fields, f => Eager(cls, f, assignable)) + Select(cls.fields, f => Late(cls, f, assignable))
  }

  /** `autowiredBeanField`: the fields of `cls` in the order they are wired.
      Fields without a description are skipped; every eager field comes first,
      then the deferred ones, each group in discovery order, and every described
      field is wired exactly once. */
  method AutowiredBeanField(cls: ClassMeta, assignable: Assignability) returns (wired: seq<FieldMeta>)
    ensures forall f :: f in wired ==> Described(f)
    ensures multiset(wired) == multiset(Select(cls.fields, Described))
    ensures forall i, j :: 0 <= i < j < |wired| && Deferred(cls, wired[i], assignable) ==> Deferred(cls, wired[j], assignable)
    ensures Select(wired, f => Deferred(cls, f, assignable)) == Select(cls.fields, f => Late(cls, f, assignable))
    ensures Select(wired, f => !Deferred(cls, f, assignable)) == Select(cls.fields, f => Eager(cls, f, assignable))
    ensures wired == FieldOrder(cls, assignable)
  {
    var eager: seq<FieldMeta> := [];
    var lazied: seq<FieldMeta> := [];
    for i := 0 to |cls.fields|
      invariant eager == Select(cls.fields[..i], f => Eager(cls, f, assignable))
      invariant lazied == Select(cls.fields[..i], f => Late(cls, f, assignable))
    {
      var f := cls.fields[i];
      TakeSnoc(cls.fields, i);
      SelectAppend(cls.fields[..i], f, g => Eager(cls, g, assignable));
      SelectAppend(cls.fields[..i], f, g => Late(cls, g, assignable));
      if !Described(f) {
        continue;
      }
      if Deferred(cls, f, assignable) {
        lazied := lazied + [f];
        continue;
      }
      eager := eager + [f];
    }
    assert cls.fields[..|cls.fields|] == cls.fields;
    wired := eager + lazied;
    SelectPartition(cls.fields, Described, f => Eager(cls, f, assignable), f => Late(cls, f, assignable));
    SelectSplit(eager, lazied, cls, assignable);
  }

  /** Selecting the deferred, or the eager, fields of "eager part + deferred
      part" gives back that part. */
  lemma SelectSplit(eager: seq<FieldMeta>, lazied: seq<FieldMeta>, cls: ClassMeta, assignable: Assignability)
    requires forall f :: f in eager ==> !Deferred(cls, f, assignable)
    requires forall f :: f in lazied ==> Deferred(cls, f, assignable)
    ensures Select(eager + lazied, f => Deferred(cls, f, assignable)) == lazied
    ensures Select(eager + lazied, f => !Deferred(cls, f, assignable)) == eager
    ensures forall i, j :: 0 <= i < j < |eager + lazied| && Deferred(cls, (eager + lazied)[i], assignable) ==>
              Deferred(cls, (eager + lazied)[j], assignable)
  {
    var w := eager + lazied;
    forall i | 0 <= i < |eager|
      ensures !Deferred(cls, w[i], assignable)
    {
      assert w[i] == eager[i] && eager[i] in eager;
    }
    forall j | |eager| <= j < |w|
      ensures Deferred(cls, w[j], assignable)
    {
      assert w[j] == lazied[j - |eager|] && lazied[j - |eager|] in lazied;
    }
    SelectConcat(eager, lazied, f => Deferred(cls, f, assignable));
    SelectConcat(eager, lazied, f => !Deferred(cls, f, assignable));
    SelectAll(lazied, f => Deferred(cls, f, assignable));
    SelectNone(eager, f => Deferred(cls, f, assignable));
    SelectAll(eager, f => !Deferred(cls, f, assignable));
    SelectNone(lazied, f => !Deferred(cls, f, assignable));
  }

  lemma SelectConcat(a: seq<FieldMeta>, b: seq<FieldMeta>, keep: FieldMeta -> bool)
    ensures Select(a + b, keep) == Select(a, keep) + Select(b, keep)
  {
    if |a| > 0 {
      assert (a + b)[0] == a[0];
      assert (a + b)[1..] == a[1..] + b;
      SelectConcat(a[1..], b, keep);
    } else {
      assert a + b == b;
    }
  }

  lemma SelectAll(a: seq<FieldMeta>, keep: FieldMeta -> bool)
    requires forall f :: f in a ==> keep(f)
    ensures Select(a, keep) == a
  {
  }

  lemma SelectNone(a: seq<FieldMeta>, keep: FieldMeta -> bool)
    requires forall f :: f in a ==> !keep(f)
    ensures Select(a, keep) == []
  {
  }

  /** `autowiredBeanMethod`: the methods carrying an injection annotation, in
      method-list order. */
  function AutowiredBeanMethod(cls: ClassMeta): (r: seq<MethodMeta>)
    ensures forall m :: m in r <==> m in cls.methods && Autowired in m.annotations
    ensures |r| <= |cls.methods|
  {
    MethodsWith(cls.methods)
  }

  function MethodsWith(ms: seq<MethodMeta>): (r: seq<MethodMeta>)
    ensures forall m :: m in r <==> m in ms && Autowired in m.annotations
    ensures |r| <= |ms|
  {
    if |ms| == 0 then []
    else (if Autowired in ms[0].annotations then [ms[0]] else []) + MethodsWith(ms[1..])
  }

  /** The definition under `name` is a lazy proxy. */
  predicate LazyProxyName(reg: Registry, name: string) {
    name in reg && reg[name].lazyProxy
  }

  /** The plan: the fields, then the methods, then the property copy. */
  function Assemble(fields: seq<FieldMeta>, methods: seq<MethodMeta>, configuration: bool): (plan: seq<Injection>)
    ensures |plan| == |fields| + |methods| + (if configuration then 1 else 0)
    ensures forall i :: 0 <= i < |fields| ==> plan[i] == InjectField(fields[i], Lazy in fields[i].annotations)
    ensures forall i :: |fields| <= i < |fields| + |methods| ==>
              plan[i] == InjectMethod(methods[i - |fields|], Lazy in methods[i - |fields|].annotations)
    ensures configuration ==> plan[|plan| - 1] == CopyProperties
  {
    seq(|fields|, i requires 0 <= i < |fields| => InjectField(fields[i], Lazy in fields[i].annotations))
    + seq(|methods|, i requires 0 <= i < |methods| => InjectMethod(methods[i], Lazy in methods[i].annotations))
    + (if configuration then [CopyProperties] else [])
  }

  /** A plan assembled from described fields and injection methods of `target`
      marks every member with its own `@Lazy`, keeps the fields in front, and
      copies properties last exactly when asked to. */
  lemma AssemblePlan(fields: seq<FieldMeta>, methods: seq<MethodMeta>, configuration: bool, target: ClassMeta)
    requires forall f :: f in fields ==> Described(f)
    requires forall m :: m in methods ==> m in target.methods && Autowired in m.annotations
    ensures var plan := Assemble(fields, methods, configuration);
            && (forall i :: 0 <= i < |fields| ==> plan[i].InjectField? && Described(plan[i].field))
            && (forall i :: |fields| <= i < |plan| ==> !plan[i].InjectField?)
            && (forall i :: 0 <= i < |plan| && plan[i].InjectMethod? ==>
                  plan[i].setter in target.methods && Autowired in plan[i].setter.annotations)
            && (forall i :: 0 <= i < |plan| ==> LazyFromAnnotation(plan[i]))
            && (configuration <==> CopyProperties in plan)
            && (CopyProperties in plan ==> plan[|plan| - 1] == CopyProperties)
  {
    var plan := Assemble(fields, methods, configuration);
    var nf, nm := |fields|, |methods|;
    forall i | 0 <= i < |plan|
      ensures LazyFromAnnotation(plan[i])
      ensures plan[i].InjectMethod? ==> plan[i].setter in target.methods && Autowired in plan[i].setter.annotations
      ensures plan[i] == CopyProperties ==> i == |plan| - 1 && configuration
    {
      if i < nf {
        assert fields[i] in fields;
      } else if i < nf + nm {
        assert methods[i - nf] in methods;
      }
    }
    if configuration {
      assert plan[|plan| - 1] == CopyProperties;
    }
  }

  /** The method section of a plan, counted from its start. */
  lemma AssembleMethods(fields: seq<FieldMeta>, methods: seq<MethodMeta>, configuration: bool)
    ensures var plan := Assemble(fields, methods, configuration);
            forall i :: 0 <= i < |methods| ==>
              plan[|fields| + i] == InjectMethod(methods[i], Lazy in methods[i].annotations)
  {
    var plan := Assemble(fields, methods, configuration);
    forall i | 0 <= i < |methods|
      ensures plan[|fields| + i] == InjectMethod(methods[i], Lazy in methods[i].annotations)
    {
      assert |fields| + i - |fields| == i;
    }
  }

  /** The laziness an injection is marked with is the member's `@Lazy`. */
  predicate LazyFromAnnotation(inj: Injection) {
    match inj
    case InjectField(f, lazy) => lazy == (Lazy in f.annotations)
    case InjectMethod(m, lazy) => lazy == (Lazy in m.annotations)
    case CopyProperties => true
  }

  /** `autowiredBean`. `beanName` is `None` for the processor's own wiring;
      `target` is the class of the bean with any proxy unwrapped. A named lazy
      proxy is not wired at all. Otherwise the plan starts with one injection per
      described field, followed by one per described method, each marked lazy
      exactly when the member has `@Lazy`, and a `@Configuration` class ends with
      copying the target's properties back onto the bean. */
  method AutowiredBean(beanName: Option<string>, reg: Registry, target: ClassMeta, assignable: Assignability)
    returns (plan: seq<Injection>)
    ensures beanName.Some? && LazyProxyName(reg, beanName.value) ==> plan == []
    ensures !(beanName.Some? && LazyProxyName(reg, beanName.value)) ==>
              var nf := |Select(target.fields, Described)|;
              && |plan| == nf + |AutowiredBeanMethod(target)| + (if Configuration in target.annotations then 1 else 0)
              && (forall i :: 0 <= i < nf ==> plan[i].InjectField? && Described(plan[i].field))
              && (forall i :: nf <= i < |plan| ==> !plan[i].InjectField?)
    ensures forall i :: 0 <= i < |plan| && plan[i].InjectMethod? ==>
              plan[i].setter in target.methods && Autowired in plan[i].setter.annotations
    ensures forall i :: 0 <= i < |plan| ==> LazyFromAnnotation(plan[i])
    ensures !(beanName.Some? && LazyProxyName(reg, beanName.value)) ==>
              (Configuration in target.annotations <==> CopyProperties in plan)
    ensures CopyProperties in plan ==> plan[|plan| - 1] == CopyProperties
    ensures !(beanName.Some? && LazyProxyName(reg, beanName.value)) ==>
              var fields := FieldOrder(target, assignable);
              var methods := AutowiredBeanMethod(target);
              && |fields| == |Select(target.fields, Described)|
              && (forall i :: 0 <= i < |fields| ==> plan[i] == InjectField(fields[i], Lazy in fields[i].annotations))
              && (forall i :: 0 <= i < |methods| ==>
                    plan[|fields| + i] == InjectMethod(methods[i], Lazy in methods[i].annotations))
  {
    if beanName.Some? && LazyProxyName(reg, beanName.value) {
      return [];
    }
    var fields := AutowiredBeanField(target, assignable);
    assert |fields| == |Select(target.fields, Described)| by {
      assert |multiset(fields)| == |multiset(Select(target.fields, Described))|;
    }
    var methods := AutowiredBeanMethod(target);
    plan := Assemble(fields, methods, Configuration in target.annotations);
    AssemblePlan(fields, methods, Configuration in target.annotations, target);
    AssembleMethods(fields, methods, Configuration in target.annotations);
  }
}

=== FILE: beans.dfy ===
/** The reflective metadata the container reads, made explicit: annotations as
    flags on fields, methods and parameters, classes as records of their fields
    and methods, and the definition registry as a map from bean name to
    definition. */
module Beans {
  import opened Common

  /** The annotations (or meta-annotations) the core tests for.
      `Autowired` stands for "an autowired description can be built", i.e. the
      member carries one of the injection annotations; `Constraint` stands for
      "carries an annotation that is itself annotated with `@Constraint`". */
  datatype Annotation =
    | Bean | Lazy | Autowired | Configuration
    | Valid | Constraint | PostConstruct | RequestMapping

  datatype Param = Param(paramType: TypeId, annotations: set<Annotation>)

  /** A method as reflection shows it. `exceptionHandler` is the `value()` of its
      `@ExceptionHandler` annotation when it has one. */
  datatype MethodMeta = MethodMeta(
    name: string,
    declaringClass: TypeId,
    returnType: TypeId,
    params: seq<Param>,
    annotations: set<Annotation>,
    exceptionHandler: Option<seq<TypeId>>)

  /** A field; `actualType` is the simple actual type of its generic shape
      (the element type of a `List<Foo>` field, the field type otherwise). */
  datatype FieldMeta = FieldMeta(name: string, actualType: TypeId, annotations: set<Annotation>)

  datatype ClassMeta = ClassMeta(
    name: TypeId,
    fields: seq<FieldMeta>,
    methods: seq<MethodMeta>,
    annotations: set<Annotation>)

  /** A bean definition with the attributes the core consults. */
  datatype BeanDefinition = BeanDefinition(
    beanName: string,
    beanType: TypeId,
    autowireCandidate: bool,
    factoryBean: bool,
    lazyProxy: bool,
    bootstrapConfiguration: bool)

  /** The definition registry of one bean factory. */
  type Registry = map<string, BeanDefinition>

  /** Every definition is registered under its own bean name. */
  predicate WellNamed(reg: Registry) {
    forall n :: n in reg ==> reg[n].beanName == n
  }

  /** `getBeanDefinitionNames(type)`: the names whose bean type is assignable to `t`. */
  function NamesOfType(reg: Registry, t: TypeId, assignable: Assignability): set<string> {
    set n | n in reg && assignable(t, reg[n].beanType)
  }
}

=== FILE: bootstrap.dfy ===
/** `BeanFactoryBootstrap`: runs a secondary context to completion, copies the
    definitions marked `@BootstrapConfiguration` (and, recursively, the beans
    their `@Bean` methods produce) with their instances into the primary
    context, and leaves the sentinel `EMPTY_BEAN` in the secondary context's
    slots so that closing it destroys none of the copied instances. */
module Bootstrap {
  import opened Common
  import opened Beans

  /** The primary source of the secondary application. */
  const BOOTSTRAP_APPLICATION: TypeId := "com.kfyty.cloud.bootstrap.internal.empty.BeanFactoryBootstrapApplication"

  /** A bean instance, with the capability interfaces it implements. */
  datatype Instance = Instance(
    id: nat,
    postProcessor: bool,
    beanFactoryAware: bool,
    applicationContextAware: bool,
    configurableContextAware: bool)

  /** A singleton slot: a live instance, or the inert sentinel `EMPTY_BEAN`. */
  datatype Slot = Live(instance: Instance) | EmptyBean

  datatype Callback = SetBeanFactory | SetApplicationContext | SetConfigurableApplicationContext

  /** One aware callback: `instance` was handed the context with id `context`. */
  datatype AwareCall = AwareCall(instance: Instance, callback: Callback, context: nat)

  datatype Phase = Created | Refreshed | Closed

  /** An application context as far as bootstrapping touches it; `destroyed`
      collects the instances its close tore down. */
  datatype Context = Context(
    id: nat,
    primarySource: TypeId,
    phase: Phase,
    definitions: Registry,
    beans: map<string, Slot>,
    postProcessors: seq<string>,
    awareCalls: seq<AwareCall>,
    destroyed: set<Instance>)

  /** What reflection answers: the methods of a type, and the bean name a
      `@Bean` method's product is registered under. */
  datatype Reflection = Reflection(methodsOf: TypeId -> seq<MethodMeta>, beanNameOf: MethodMeta -> string)

  /** A context's own refresh, as far as the importer relies on it: every
      definition ends up with a live singleton. */
  function Refresh(ctx: Context, instantiate: BeanDefinition -> Instance): (r: Context)
    ensures r.definitions == ctx.definitions && r.phase == Refreshed
    ensures forall n :: n in r.definitions ==> n in r.beans && r.beans[n] == Live(instantiate(r.definitions[n]))
  {
    ctx.(phase := Refreshed, beans := map n | n in ctx.definitions :: Live(instantiate(ctx.definitions[n])))
  }

  /** Closing a context destroys exactly the instances still live in its slots. */
  function Close(ctx: Context): (r: Context)
    ensures r.phase == Closed && r.beans == ctx.beans
    ensures forall x :: x in r.destroyed <==> exists n :: n in ctx.beans && ctx.beans[n] == Live(x)
  {
    ctx.(phase := Closed, destroyed := set n | n in ctx.beans && ctx.beans[n].Live? :: ctx.beans[n].instance)
  }

  /** `invokeAware`: the callbacks a copied bean receives, in order. */
  function AwareCalls(slot: Slot, target: nat): seq<AwareCall> {
    if slot.EmptyBean? then []
    else
      var x := slot.instance;
      (if x.beanFactoryAware then [AwareCall(x, SetBeanFactory, target)] else [])
      + (if x.applicationContextAware then [AwareCall(x, SetApplicationContext, target)] else [])
      + (if x.configurableContextAware then [AwareCall(x, SetConfigurableApplicationContext, target)] else [])
  }

  /** The names of the beans the `@Bean` methods of `methods` produce, in order. */
  function BeanMethodNames(refl: Reflection, methods: seq<MethodMeta>): (r: seq<string>)
    ensures forall m :: m in methods && Bean in m.annotations ==> refl.beanNameOf(m) in r
    ensures forall n :: n in r ==> exists m :: m in methods && Bean in m.annotations && refl.beanNameOf(m) == n
  {
    if |methods| == 0 then []
    else
      var rest := BeanMethodNames(refl, methods[1..]);
      assert forall m :: m in methods[1..] ==> m in methods;
      assert methods[0] in methods;
      (if Bean in methods[0].annotations then [refl.beanNameOf(methods[0])] else []) + rest
  }

  function NestedNames(refl: Reflection, d: BeanDefinition): seq<string> {
    BeanMethodNames(refl, refl.methodsOf(d.beanType))
  }

  // ---------------------------------------------------------------------------
  // Registering one name

  /** The state of an import in progress: both contexts and the names
      registered so far, in order. */
  datatype Copy = Copy(boot: Context, app: Context, copied: seq<string>)

  /** The body of `registerBootstrapBean` up to its recursion: register the
      definition and whatever the secondary slot holds in the target, leave the
      sentinel behind, register a post-processor as one, and run the aware
      callbacks with the target context. A slot already holding the sentinel is
      copied like any other value: the sentinel implements no interface. The
      target's `registerBeanDefinition` and `replaceBean` are taken to overwrite
      a name already there. */
  function CopyOne(c: Copy, name: string): (r: Copy)
    requires name in c.boot.definitions && name in c.boot.beans
    ensures r.boot.definitions == c.boot.definitions && r.boot.beans.Keys == c.boot.beans.Keys
    ensures r.boot.beans[name] == EmptyBean
    ensures forall n :: n in c.boot.beans && n != name ==> r.boot.beans[n] == c.boot.beans[n]
    ensures r.app.id == c.app.id && r.copied == c.copied + [name]
    ensures r.app.definitions == c.app.definitions[name := c.boot.definitions[name]]
    ensures r.app.beans == c.app.beans[name := c.boot.beans[name]]
    ensures r.app.postProcessors == c.app.postProcessors
              + (if c.boot.beans[name].Live? && c.boot.beans[name].instance.postProcessor then [name] else [])
    ensures r.app.awareCalls == c.app.awareCalls + AwareCalls(c.boot.beans[name], c.app.id)
  {
    var slot := c.boot.beans[name];
    var app1 := c.app.(definitions := c.app.definitions[name := c.boot.definitions[name]],
                       beans := c.app.beans[name := slot]);
    var app2 := if slot.Live? && slot.instance.postProcessor
                then app1.(postProcessors := app1.postProcessors + [name]) else app1;
    var app3 := app2.(awareCalls := app2.awareCalls + AwareCalls(slot, app2.id));
    Copy(c.boot.(beans := c.boot.beans[name := EmptyBean]), app3, c.copied + [name])
  }

  /** The state after registering `names`, one after the other, from `start`.
      Each registration touches only its own name's slot in the secondary
      context and appends to the target, so the source's interleaving of
      registrations and recursion is this replay of its registration order. */
  function Replay(start: Copy, names: seq<string>): (r: Copy)
    requires forall n :: n in names ==> n in start.boot.definitions && n in start.boot.beans
    ensures r.boot.definitions == start.boot.definitions && r.boot.beans.Keys == start.boot.beans.Keys
    ensures r.app.id == start.app.id
    ensures r.copied == start.copied + names
    decreases |names|
  {
    if |names| == 0 then start
    else
      var prev := Replay(start, names[..|names| - 1]);
      assert prev.copied + [names[|names| - 1]] == start.copied + names;
      CopyOne(prev, names[|names| - 1])
  }

  /** After a replay the secondary context holds the sentinel exactly in the
      slots of the registered names. With every slot live to begin with, "the
      slot holds the sentinel" and "the name was registered" are the same test. */
  lemma {:induction false} ReplaySlot(start: Copy, names: seq<string>, n: string)
    requires forall m :: m in names ==> m in start.boot.definitions && m in start.boot.beans
    requires n in start.boot.beans
    ensures Replay(start, names).boot.beans[n] == if n in names then EmptyBean else start.boot.beans[n]
    decreases |names|
  {
    if |names| > 0 {
      var init := names[..|names| - 1];
      assert names == init + [names[|names| - 1]];
      ReplaySlot(start, init, n);
    }
  }

  // ---------------------------------------------------------------------------
  // The registration order

  /** The names of `defs` not registered yet. */
  function Remaining(defs: Registry, copied: seq<string>): set<string> {
    set n | n in defs && n !in copied
  }

  predicate Within(defs: Registry, names: seq<string>) {
    forall n :: n in names ==> n in defs
  }

  /** The order `registerBootstrapBean(name)` registers names in, after
      `copied`, with a guard the source lacks: a name already registered (whose
      secondary slot therefore holds the sentinel, by `ReplaySlot`) is skipped.
      Every registration takes one name out of `Remaining`, which is what makes
      the recursion terminate. */
  function Visit(refl: Reflection, defs: Registry, name: string, copied: seq<string>): (r: seq<string>)
    requires name in defs
    ensures |copied| <= |r| && r[..|copied|] == copied
    ensures Remaining(defs, r) <= Remaining(defs, copied)
    ensures Within(defs, copied) ==> Within(defs, r)
    decreases Remaining(defs, copied), 0, 0
  {
    if name in copied then copied
    else
      assert name in Remaining(defs, copied) - Remaining(defs, copied + [name]);
      var r := VisitNested(refl, defs, NestedNames(refl, defs[name]), 0, copied + [name]);
      assert r[..|copied|] == r[..|copied| + 1][..|copied|];
      r
  }

  /** The loop of `registerBootstrapBean` over the `@Bean` methods of the
      definition's type: a derived name the secondary context does not define is
      skipped. */
  function VisitNested(refl: Reflection, defs: Registry, names: seq<string>, i: nat, copied: seq<string>): (r: seq<string>)
    requires i <= |names|
    ensures |copied| <= |r| && r[..|copied|] == copied
    ensures Remaining(defs, r) <= Remaining(defs, copied)
    ensures Within(defs, copied) ==> Within(defs, r)
    decreases Remaining(defs, copied), 1, |names| - i
  {
    if i == |names| then copied
    else if names[i] in defs then
      var c2 := Visit(refl, defs, names[i], copied);
      var r := VisitNested(refl, defs, names, i + 1, c2);
      assert r[..|copied|] == r[..|c2|][..|copied|];
      r
    else VisitNested(refl, defs, names, i + 1, copied)
  }

  /** `copyBeanFactory`: every marked definition, in the order `marked`. */
  function VisitAll(refl: Reflection, defs: Registry, marked: seq<string>, i: nat, copied: seq<string>): (r: seq<string>)
    requires i <= |marked| && Within(defs, marked)
    ensures |copied| <= |r| && r[..|copied|] == copied
    ensures Within(defs, copied) ==> Within(defs, r)
    decreases |marked| - i
  {
    if i == |marked| then copied
    else
      var c2 := Visit(refl, defs, marked[i], copied);
      var r := VisitAll(refl, defs, marked, i + 1, c2);
      assert r[..|copied|] == r[..|c2|][..|copied|];
      r
  }

  predicate Distinct(s: seq<string>) {
    forall i, j :: 0 <= i < j < |s| ==> s[i] != s[j]
  }

  /** `n` is defined and every derived name of its `@Bean` methods that `defs`
      defines is among `copied`. */
  predicate ProductsCopied(refl: Reflection, defs: Registry, n: string, copied: seq<string>) {
    && n in defs
    && forall m :: m in NestedNames(refl, defs[n]) && m in defs ==> m in copied
  }

  /** The names registered after the first `from` entries of `r` have their
      products registered. */
  predicate NewClosed(refl: Reflection, defs: Registry, from: nat, r: seq<string>) {
    forall k :: from <= k < |r| ==> ProductsCopied(refl, defs, r[k], r)
  }

  lemma DistinctAppend(s: seq<string>, x: string)
    requires Distinct(s) && x !in s
    ensures Distinct(s + [x])
  {
    forall i, j | 0 <= i < j < |s + [x]| ensures (s + [x])[i] != (s + [x])[j] {
      if j == |s| {
        assert (s + [x])[i] in s;
      }
    }
  }

  /** Two traversal steps in a row: what the first registered keeps its
      products registered. */
  lemma ChainClosed(refl: Reflection, defs: Registry, a: seq<string>, b: seq<string>, r: seq<string>)
    requires |a| <= |b| <= |r| && r[..|b|] == b
    requires NewClosed(refl, defs, |a|, b) && NewClosed(refl, defs, |b|, r)
    ensures forall n :: n in b ==> n in r
    ensures NewClosed(refl, defs, |a|, r)
  {
    forall n | n in b ensures n in r {
      var x :| 0 <= x < |b| && b[x] == n;
      assert r[x] == n;
    }
    forall k | |a| <= k < |b|
      ensures ProductsCopied(refl, defs, r[k], r)
    {
      assert r[k] == b[k];
      assert ProductsCopied(refl, defs, b[k], b);
    }
  }

  /** The guarded traversal registers `name`, registers nothing twice, and
      every name it registers has its products registered. */
  lemma {:induction false} VisitFacts(refl: Reflection, defs: Registry, name: string, copied: seq<string>)
    requires name in defs && Distinct(copied)
    ensures var r := Visit(refl, defs, name, copied);
            name in r && Distinct(r) && NewClosed(refl, defs, |copied|, r)
    decreases Remaining(defs, copied), 0, 0
  {
    if name !in copied {
      var c1 := copied + [name];
      DistinctAppend(copied, name);
      assert name in Remaining(defs, copied) - Remaining(defs, c1);
      var names := NestedNames(refl, defs[name]);
      VisitNestedFacts(refl, defs, names, 0, c1);
      var r := VisitNested(refl, defs, names, 0, c1);
      assert r[|copied|] == c1[|copied|] by {
        assert r[..|c1|] == c1;
      }
      assert ProductsCopied(refl, defs, name, r);
    }
  }

  lemma {:induction false} VisitNestedFacts(refl: Reflection, defs: Registry, names: seq<string>, i: nat, copied: seq<string>)
    requires i <= |names| && Distinct(copied)
    ensures var r := VisitNested(refl, defs, names, i, copied);
            && Distinct(r) && NewClosed(refl, defs, |copied|, r)
            && forall j :: i <= j < |names| && names[j] in defs ==> names[j] in r
    decreases Remaining(defs, copied), 1, |names| - i
  {
    if i < |names| {
      var c2 := if names[i] in defs then Visit(refl, defs, names[i], copied) else copied;
      if names[i] in defs {
        VisitFacts(refl, defs, names[i], copied);
      }
      VisitNestedFacts(refl, defs, names, i + 1, c2);
      var r := VisitNested(refl, defs, names, i + 1, c2);
      ChainClosed(refl, defs, copied, c2, r);
      forall j | i <= j < |names| && names[j] in defs ensures names[j] in r {
        if j == i {
          assert names[i] in c2;
        }
      }
    }
  }

  lemma {:induction false} VisitAllFacts(refl: Reflection, defs: Registry, marked: seq<string>, i: nat, copied: seq<string>)
    requires i <= |marked| && Within(defs, marked) && Distinct(copied)
    ensures var r := VisitAll(refl, defs, marked, i, copied);
            && Distinct(r) && NewClosed(refl, defs, |copied|, r)
            && forall j :: i <= j < |marked| ==> marked[j] in r
    decreases |marked| - i
  {
    if i < |marked| {
      var c2 := Visit(refl, defs, marked[i], copied);
      VisitFacts(refl, defs, marked[i], copied);
      VisitAllFacts(refl, defs, marked, i + 1, c2);
      var r := VisitAll(refl, defs, marked, i + 1, c2);
      ChainClosed(refl, defs, copied, c2, r);
      forall j | i <= j < |marked| ensures marked[j] in r {
        if j == i {
          assert marked[i] in c2;
        }
      }
    }
  }

  /** Every name of `r` registered after `copied` is one of `seeds` or the
      product of a `@Bean` method of a name in `r`. */
  predicate Justified(refl: Reflection, defs: Registry, r: seq<string>, seeds: set<string>, copied: seq<string>) {
    forall n :: n in r && n !in copied ==>
      n in seeds || exists m :: m in r && m in defs && n in NestedNames(refl, defs[m])
  }

  /** What registering `name` adds is `name` and products. */
  lemma {:induction false} VisitMinimal(refl: Reflection, defs: Registry, name: string, copied: seq<string>)
    requires name in defs
    ensures Justified(refl, defs, Visit(refl, defs, name, copied), {name}, copied)
    decreases Remaining(defs, copied), 0, 0
  {
    if name !in copied {
      assert name in Remaining(defs, copied) - Remaining(defs, copied + [name]);
      var c1 := copied + [name];
      var names := NestedNames(refl, defs[name]);
      var r := VisitNested(refl, defs, names, 0, c1);
      VisitNestedMinimal(refl, defs, names, 0, c1);
      assert name in r by {
        assert r[..|c1|] == c1;
        assert c1[|copied|] == name;
      }
      forall n | n in r && n !in copied
        ensures n in {name} || exists m :: m in r && m in defs && n in NestedNames(refl, defs[m])
      {
        if n != name {
          assert n !in c1;
        }
      }
    }
  }

  lemma {:induction false} VisitNestedMinimal(refl: Reflection, defs: Registry, names: seq<string>, i: nat, copied: seq<string>)
    requires i <= |names|
    ensures Justified(refl, defs, VisitNested(refl, defs, names, i, copied), set j | i <= j < |names| :: names[j], copied)
    decreases Remaining(defs, copied), 1, |names| - i
  {
    if i < |names| {
      if names[i] in defs {
        var c2 := Visit(refl, defs, names[i], copied);
        var r := VisitNested(refl, defs, names, i + 1, c2);
        VisitMinimal(refl, defs, names[i], copied);
        VisitNestedMinimal(refl, defs, names, i + 1, c2);
        forall n | n in c2 ensures n in r {
          assert r[..|c2|] == c2;
        }
      } else {
        VisitNestedMinimal(refl, defs, names, i + 1, copied);
      }
    }
  }

  lemma {:induction false} VisitAllMinimal(refl: Reflection, defs: Registry, marked: seq<string>, i: nat, copied: seq<string>)
    requires i <= |marked| && Within(defs, marked)
    ensures Justified(refl, defs, VisitAll(refl, defs, marked, i, copied), set j | i <= j < |marked| :: marked[j], copied)
    decreases |marked| - i
  {
    if i < |marked| {
      var c2 := Visit(refl, defs, marked[i], copied);
      var r := VisitAll(refl, defs, marked, i + 1, c2);
      VisitMinimal(refl, defs, marked[i], copied);
      VisitAllMinimal(refl, defs, marked, i + 1, c2);
      forall n | n in c2 ensures n in r {
        assert r[..|c2|] == c2;
      }
    }
  }

  // ---------------------------------------------------------------------------
  // The whole bootstrap

  /** The result of `bootstrap`: the primary context after the import, the
      closed secondary context (`None` when nothing ran) and the names
      registered, in order. */
  datatype Outcome = Outcome(app: Context, secondary: Option<Context>, copied: seq<string>)

  /** `bootstrap`. `initial` is the secondary context as the factory creates it,
      `instantiate` what its refresh builds for each definition, and `marked`
      the iteration order of its `@BootstrapConfiguration` definitions. A
      context whose primary source is the bootstrap application itself is left
      alone. */
  function BootstrapContext(app: Context, initial: Context, refl: Reflection,
                            instantiate: BeanDefinition -> Instance, marked: seq<string>): (r: Outcome)
    requires Within(initial.definitions, marked)
    ensures app.primarySource == BOOTSTRAP_APPLICATION ==> r == Outcome(app, None, [])
    ensures app.primarySource != BOOTSTRAP_APPLICATION ==>
              r.secondary.Some? && r.secondary.value.phase == Closed
              && r.secondary.value.definitions == initial.definitions && r.app.id == app.id
  {
    if app.primarySource == BOOTSTRAP_APPLICATION then Outcome(app, None, [])
    else
      var boot := Refresh(initial, instantiate);
      var order := VisitAll(refl, boot.definitions, marked, 0, []);
      var c := Replay(Copy(boot, app, []), order);
      Outcome(c.app, Some(Close(c.boot)), order)
  }

  /** `base` with the entries of `src` under `names` put over it. */
  function Overlay<V>(base: map<string, V>, src: map<string, V>, names: seq<string>): (r: map<string, V>)
    ensures r.Keys == base.Keys + (set n | n in names && n in src)
  {
    base + map n | n in names && n in src :: src[n]
  }

  lemma OverlayStep<V>(base: map<string, V>, src: map<string, V>, names: seq<string>, name: string)
    requires name in src
    ensures Overlay(base, src, names)[name := src[name]] == Overlay(base, src, names + [name])
  {
    var l := Overlay(base, src, names)[name := src[name]];
    var r := Overlay(base, src, names + [name]);
    assert l.Keys == r.Keys;
    forall k | k in l.Keys ensures l[k] == r[k] {
      if k != name && k !in names {
        assert k !in (set n | n in names + [name] && n in src);
      }
    }
  }

  /** The post-processors among the slots of `names`, in order. */
  function Registered(slots: map<string, Slot>, names: seq<string>): seq<string>
    requires forall n :: n in names ==> n in slots
  {
    if |names| == 0 then []
    else
      var n := names[|names| - 1];
      Registered(slots, names[..|names| - 1])
      + (if slots[n].Live? && slots[n].instance.postProcessor then [n] else [])
  }

  /** The aware callbacks the slots of `names` receive, in order. */
  function Callbacks(slots: map<string, Slot>, names: seq<string>, target: nat): seq<AwareCall>
    requires forall n :: n in names ==> n in slots
  {
    if |names| == 0 then []
    else
      Callbacks(slots, names[..|names| - 1], target) + AwareCalls(slots[names[|names| - 1]], target)
  }

  lemma ConcatAssoc<T>(a: seq<T>, b: seq<T>, c: seq<T>)
    ensures (a + b) + c == a + (b + c)
  {
  }

  /** Replaying distinct names into `app0` puts their definitions and slots
      over the target's own and appends their post-processors and aware
      callbacks in order. */
  lemma {:induction false} ReplayShape(orig: Context, app0: Context, names: seq<string>)
    requires forall n :: n in names ==> n in orig.definitions && n in orig.beans
    requires Distinct(names)
    ensures var r := Replay(Copy(orig, app0, []), names);
            && r.app.definitions == Overlay(app0.definitions, orig.definitions, names)
            && r.app.beans == Overlay(app0.beans, orig.beans, names)
            && r.app.postProcessors == app0.postProcessors + Registered(orig.beans, names)
            && r.app.awareCalls == app0.awareCalls + Callbacks(orig.beans, names, app0.id)
    decreases |names|
  {
    var start := Copy(orig, app0, []);
    if |names| == 0 {
      assert Overlay(app0.definitions, orig.definitions, names) == app0.definitions;
      assert Overlay(app0.beans, orig.beans, names) == app0.beans;
    } else {
      var init, name := names[..|names| - 1], names[|names| - 1];
      assert names == init + [name];
      assert Distinct(init);
      ReplayShape(orig, app0, init);
      var prev := Replay(start, init);
      var r := Replay(start, names);
      assert r == CopyOne(prev, name);
      assert prev.boot.beans[name] == orig.beans[name] by {
        assert name !in init;
        ReplaySlot(start, init, name);
      }
      assert r.app.definitions == Overlay(app0.definitions, orig.definitions, names) by {
        OverlayStep(app0.definitions, orig.definitions, init, name);
      }
      assert r.app.beans == Overlay(app0.beans, orig.beans, names) by {
        OverlayStep(app0.beans, orig.beans, init, name);
      }
      assert r.app.postProcessors == app0.postProcessors + Registered(orig.beans, names) by {
        var x := if orig.beans[name].Live? && orig.beans[name].instance.postProcessor then [name] else [];
        assert Registered(orig.beans, names) == Registered(orig.beans, init) + x;
        assert r.app.postProcessors == prev.app.postProcessors + x;
        ConcatAssoc(app0.postProcessors, Registered(orig.beans, init), x);
      }
      assert r.app.awareCalls == app0.awareCalls + Callbacks(orig.beans, names, app0.id) by {
        ConcatAssoc(app0.awareCalls, Callbacks(orig.beans, init, app0.id), AwareCalls(orig.beans[name], app0.id));
      }
    }
  }

  /** The import as a whole. Every marked definition, and every definition a
      registered bean's `@Bean` method produces, is registered, each exactly
      once, and nothing else is. The target ends up as it was with the secondary context's
      definitions and instances put over it under the registered names, their
      post-processors registered and their aware callbacks run with the
      target's id, in registration order. The secondary context's slots for the
      registered names hold the sentinel, so its close destroys only instances
      that were not copied. */
  lemma BootstrapImports(app: Context, initial: Context, refl: Reflection,
                         instantiate: BeanDefinition -> Instance, marked: seq<string>)
    requires app.primarySource != BOOTSTRAP_APPLICATION
    requires forall n :: n in marked <==> n in initial.definitions && initial.definitions[n].bootstrapConfiguration
    ensures var r := BootstrapContext(app, initial, refl, instantiate, marked);
            var orig := Refresh(initial, instantiate);
            && (forall n :: n in initial.definitions && initial.definitions[n].bootstrapConfiguration ==> n in r.copied)
            && Distinct(r.copied)
            && (forall n :: n in r.copied ==> ProductsCopied(refl, initial.definitions, n, r.copied))
            && (forall n :: n in r.copied ==>
                  n in marked || exists m :: m in r.copied && m in initial.definitions
                                             && n in NestedNames(refl, initial.definitions[m]))
            && r.secondary.Some?
            && (forall n :: n in initial.definitions ==>
                  r.secondary.value.beans[n] == if n in r.copied then EmptyBean else orig.beans[n])
            && r.app.definitions == Overlay(app.definitions, initial.definitions, r.copied)
            && r.app.beans == Overlay(app.beans, orig.beans, r.copied)
            && r.app.postProcessors == app.postProcessors + Registered(orig.beans, r.copied)
            && r.app.awareCalls == app.awareCalls + Callbacks(orig.beans, r.copied, app.id)
            && (forall x :: x in r.secondary.value.destroyed ==>
                  exists n :: n in initial.definitions && n !in r.copied && x == instantiate(initial.definitions[n]))
  {
    var orig := Refresh(initial, instantiate);
    var defs := orig.definitions;
    ImportOrder(refl, defs, marked);
    var order := VisitAll(refl, defs, marked, 0, []);
    ReplayShape(orig, app, order);
    ImportSecondary(orig, app, order);
  }

  /** The guarded traversal from the marked names registers each of them and
      the products of everything it registers, nothing twice. */
  lemma ImportOrder(refl: Reflection, defs: Registry, marked: seq<string>)
    requires Within(defs, marked)
    ensures var order := VisitAll(refl, defs, marked, 0, []);
            && (forall n :: n in marked ==> n in order)
            && Distinct(order) && Within(defs, order)
            && (forall n :: n in order ==> ProductsCopied(refl, defs, n, order))
            && (forall n :: n in order ==>
                  n in marked || exists m :: m in order && m in defs && n in NestedNames(refl, defs[m]))
  {
    VisitAllFacts(refl, defs, marked, 0, []);
    VisitAllMinimal(refl, defs, marked, 0, []);
    assert (set j | 0 <= j < |marked| :: marked[j]) == set n | n in marked;
    var order := VisitAll(refl, defs, marked, 0, []);
    forall n | n in marked ensures n in order {
      var j :| 0 <= j < |marked| && marked[j] == n;
    }
    forall n | n in order ensures ProductsCopied(refl, defs, n, order) {
      var k :| 0 <= k < |order| && order[k] == n;
    }
  }

  /** After replaying `order` the secondary context holds the sentinel exactly
      under the registered names, so closing it destroys only instances of
      names that were not registered. */
  lemma ImportSecondary(orig: Context, app: Context, order: seq<string>)
    requires forall n :: n in order ==> n in orig.definitions && n in orig.beans
    requires orig.beans.Keys == orig.definitions.Keys
    ensures var c := Replay(Copy(orig, app, []), order);
            && (forall n :: n in orig.definitions ==>
                  c.boot.beans[n] == if n in order then EmptyBean else orig.beans[n])
            && (forall x :: x in Close(c.boot).destroyed ==>
                  exists n :: n in orig.definitions && n !in order && Live(x) == orig.beans[n])
  {
    var start := Copy(orig, app, []);
    var c := Replay(start, order);
    forall n | n in orig.definitions
      ensures c.boot.beans[n] == if n in order then EmptyBean else orig.beans[n]
    {
      ReplaySlot(start, order, n);
    }
    var closed := Close(c.boot);
    forall x | x in closed.destroyed
      ensures exists n :: n in orig.definitions && n !in order && Live(x) == orig.beans[n]
    {
      var n :| n in c.boot.beans && c.boot.beans[n] == Live(x);
      assert n !in order;
    }
  }

  // ---------------------------------------------------------------------------
  // The recursion as written

  /** The registration order of `registerBootstrapBean` as written: no guard,
      so a name reached twice is registered twice. Termination is not
      guaranteed by the source (a `@Bean` method deriving its own
      configuration's name recurses until the stack overflows), so the depth is
      bounded by `fuel` and exhaustion gives `None`. */
  function VisitAsWritten(refl: Reflection, defs: Registry, fuel: nat, name: string, order: seq<string>): (r: Option<seq<string>>)
    requires name in defs
    ensures r.Some? ==> |order| < |r.value| && r.value[..|order|] == order && r.value[|order|] == name
    ensures r.Some? && Within(defs, order) ==> Within(defs, r.value)
    decreases fuel, 0, 0
  {
    if fuel == 0 then None
    else
      var r := VisitNestedAsWritten(refl, defs, fuel - 1, NestedNames(refl, defs[name]), 0, order + [name]);
      if r.Some? then
        assert r.value[..|order|] == r.value[..|order| + 1][..|order|];
        assert r.value[|order|] == (order + [name])[|order|];
        r
      else r
  }

  function VisitNestedAsWritten(refl: Reflection, defs: Registry, fuel: nat, names: seq<string>, i: nat,
                                order: seq<string>): (r: Option<seq<string>>)
    requires i <= |names|
    ensures r.Some? ==> |order| <= |r.value| && r.value[..|order|] == order
    ensures r.Some? && Within(defs, order) ==> Within(defs, r.value)
    decreases fuel, 1, |names| - i
  {
    if i == |names| then Some(order)
    else if names[i] in defs then
      match VisitAsWritten(refl, defs, fuel, names[i], order)
      case None => None
      case Some(o2) =>
        var r := VisitNestedAsWritten(refl, defs, fuel, names, i + 1, o2);
        if r.Some? then
          assert r.value[..|order|] == r.value[..|o2|][..|order|];
          r
        else r
    else VisitNestedAsWritten(refl, defs, fuel, names, i + 1, order)
  }

  function VisitAllAsWritten(refl: Reflection, defs: Registry, fuel: nat, marked: seq<string>, i: nat,
                             order: seq<string>): (r: Option<seq<string>>)
    requires i <= |marked| && Within(defs, marked)
    ensures r.Some? && Within(defs, order) ==> Within(defs, r.value)
    decreases |marked| - i
  {
    if i == |marked| then Some(order)
    else
      match VisitAsWritten(refl, defs, fuel, marked[i], order)
      case None => None
      case Some(o2) => VisitAllAsWritten(refl, defs, fuel, marked, i + 1, o2)
  }

  /** `bootstrap` as written, with the recursion depth bounded by `fuel`. When
      no name is reached twice it is the guarded import. */
  function BootstrapAsWritten(app: Context, initial: Context, refl: Reflection,
                              instantiate: BeanDefinition -> Instance, marked: seq<string>, fuel: nat): (r: Option<Outcome>)
    requires Within(initial.definitions, marked)
    ensures app.primarySource == BOOTSTRAP_APPLICATION ==> r == Some(Outcome(app, None, []))
    ensures r.Some? && Distinct(r.value.copied) ==> r.value == BootstrapContext(app, initial, refl, instantiate, marked)
  {
    if app.primarySource == BOOTSTRAP_APPLICATION then Some(Outcome(app, None, []))
    else
      var boot := Refresh(initial, instantiate);
      match VisitAllAsWritten(refl, boot.definitions, fuel, marked, 0, [])
      case None => None
      case Some(order) =>
        VisitAllAgrees(refl, boot.definitions, fuel, marked, 0, []);
        var c := Replay(Copy(boot, app, []), order);
        Some(Outcome(c.app, Some(Close(c.boot)), order))
  }

  lemma DistinctPrefix(r: seq<string>, k: nat)
    requires k <= |r| && Distinct(r)
    ensures Distinct(r[..k])
  {
    forall i, j | 0 <= i < j < k ensures r[..k][i] != r[..k][j] {
      assert r[..k][i] == r[i] && r[..k][j] == r[j];
    }
  }

  /** An unguarded registration that reaches no name twice registers what the
      guarded one does. */
  lemma {:induction false} VisitAgrees(refl: Reflection, defs: Registry, fuel: nat, name: string, order: seq<string>)
    requires name in defs
    ensures var r := VisitAsWritten(refl, defs, fuel, name, order);
            r.Some? && Distinct(r.value) ==> r.value == Visit(refl, defs, name, order)
    decreases fuel, 0, 0
  {
    var r := VisitAsWritten(refl, defs, fuel, name, order);
    if r.Some? && Distinct(r.value) {
      forall k | 0 <= k < |order| ensures order[k] != name {
        assert r.value[k] == order[k];
      }
      var c1 := order + [name];
      var names := NestedNames(refl, defs[name]);
      VisitNestedAgrees(refl, defs, fuel - 1, names, 0, c1);
    }
  }

  lemma {:induction false} VisitNestedAgrees(refl: Reflection, defs: Registry, fuel: nat, names: seq<string>, i: nat,
                                             order: seq<string>)
    requires i <= |names|
    ensures var r := VisitNestedAsWritten(refl, defs, fuel, names, i, order);
            r.Some? && Distinct(r.value) ==> r.value == VisitNested(refl, defs, names, i, order)
    decreases fuel, 1, |names| - i
  {
    var r := VisitNestedAsWritten(refl, defs, fuel, names, i, order);
    if i < |names| && r.Some? && Distinct(r.value) {
      if names[i] in defs {
        var o2 := VisitAsWritten(refl, defs, fuel, names[i], order);
        var o := o2.value;
        assert r == VisitNestedAsWritten(refl, defs, fuel, names, i + 1, o);
        assert r.value[..|o|] == o;
        DistinctPrefix(r.value, |o|);
        VisitAgrees(refl, defs, fuel, names[i], order);
        VisitNestedAgrees(refl, defs, fuel, names, i + 1, o);
      } else {
        VisitNestedAgrees(refl, defs, fuel, names, i + 1, order);
      }
    }
  }

  lemma {:induction false} VisitAllAgrees(refl: Reflection, defs: Registry, fuel: nat, marked: seq<string>, i: nat,
                                          order: seq<string>)
    requires i <= |marked| && Within(defs, marked)
    ensures var r := VisitAllAsWritten(refl, defs, fuel, marked, i, order);
            r.Some? && Distinct(r.value) ==> r.value == VisitAll(refl, defs, marked, i, order)
    decreases |marked| - i
  {
    var r := VisitAllAsWritten(refl, defs, fuel, marked, i, order);
    if i < |marked| && r.Some? && Distinct(r.value) {
      var o := VisitAllStep(refl, defs, fuel, marked, i, order);
      VisitAgrees(refl, defs, fuel, marked[i], order);
      VisitAllAgrees(refl, defs, fuel, marked, i + 1, o);
    }
  }

  /** A first unguarded registration that leads to a repeat-free order is
      itself repeat-free, and the loop continues from it. */
  lemma VisitAllStep(refl: Reflection, defs: Registry, fuel: nat, marked: seq<string>, i: nat,
                     order: seq<string>) returns (o: seq<string>)
    requires i < |marked| && Within(defs, marked)
    requires VisitAllAsWritten(refl, defs, fuel, marked, i, order).Some?
    requires Distinct(VisitAllAsWritten(refl, defs, fuel, marked, i, order).value)
    ensures VisitAsWritten(refl, defs, fuel, marked[i], order) == Some(o) && Distinct(o)
    ensures VisitAllAsWritten(refl, defs, fuel, marked, i, order) == VisitAllAsWritten(refl, defs, fuel, marked, i + 1, o)
  {
    var r := VisitAllAsWritten(refl, defs, fuel, marked, i, order);
    o := VisitAsWritten(refl, defs, fuel, marked[i], order).value;
    VisitAllPrefix(refl, defs, fuel, marked, i + 1, o);
    DistinctPrefix(r.value, |o|);
  }

  lemma {:induction false} VisitAllPrefix(refl: Reflection, defs: Registry, fuel: nat, marked: seq<string>, i: nat,
                                          order: seq<string>)
    requires i <= |marked| && Within(defs, marked)
    ensures var r := VisitAllAsWritten(refl, defs, fuel, marked, i, order);
            r.Some? ==> |order| <= |r.value| && r.value[..|order|] == order
    decreases |marked| - i
  {
    var r := VisitAllAsWritten(refl, defs, fuel, marked, i, order);
    if i < |marked| && r.Some? {
      var o := VisitAsWritten(refl, defs, fuel, marked[i], order).value;
      VisitAllPrefix(refl, defs, fuel, marked, i + 1, o);
      assert r.value[..|order|] == r.value[..|o|][..|order|];
    }
  }

  // A marked configuration `a` whose `@Bean` method produces another marked
  // configuration `b`.
  const ExampleProduceB: MethodMeta := MethodMeta("b", "A", "B", [], {Bean}, None)
  const ExampleRefl: Reflection :=
    Reflection(t => if t == "A" then [ExampleProduceB] else [], (m: MethodMeta) => m.name)
  const ExampleA: BeanDefinition := BeanDefinition("a", "A", true, false, false, true)
  const ExampleB: BeanDefinition := BeanDefinition("b", "B", true, false, false, true)
  const ExampleDefs: Registry := map["a" := ExampleA, "b" := ExampleB]
  const ExampleInstantiate: BeanDefinition -> Instance :=
    (d: BeanDefinition) => Instance(if d.beanName == "a" then 1 else 2, false, false, false, false)
  const ExampleInitial: Context := Context(2, BOOTSTRAP_APPLICATION, Created, ExampleDefs, map[], [], [], {})
  const ExampleApp: Context := Context(1, "Main", Created, map[], map[], [], [], {})

  lemma ExampleNested()
    ensures NestedNames(ExampleRefl, ExampleA) == ["b"]
    ensures NestedNames(ExampleRefl, ExampleB) == []
  {
    assert ExampleRefl.methodsOf("A") == [ExampleProduceB];
    assert ExampleRefl.methodsOf("B") == [];
    assert [ExampleProduceB][1..] == [];
    assert BeanMethodNames(ExampleRefl, []) == [];
  }

  /** As written, `b` is registered once from `a`'s `@Bean` method and once
      more from the marked loop. */
  lemma ExampleOrderAsWritten()
    ensures VisitAllAsWritten(ExampleRefl, ExampleDefs, 5, ["a", "b"], 0, []) == Some(["a", "b", "b"])
  {
    var refl, defs := ExampleRefl, ExampleDefs;
    ExampleNested();
    assert defs["a"] == ExampleA && defs["b"] == ExampleB;
    assert ["a"] + ["b"] == ["a", "b"];
    assert [] + ["a"] == ["a"];
    assert ["a", "b"] + ["b"] == ["a", "b", "b"];
    assert VisitNestedAsWritten(refl, defs, 3, [], 0, ["a", "b"]) == Some(["a", "b"]);
    assert VisitAsWritten(refl, defs, 4, "b", ["a"]) == Some(["a", "b"]);
    assert VisitNestedAsWritten(refl, defs, 4, ["b"], 1, ["a", "b"]) == Some(["a", "b"]);
    assert VisitNestedAsWritten(refl, defs, 4, ["b"], 0, ["a"]) == Some(["a", "b"]);
    assert VisitAsWritten(refl, defs, 5, "a", []) == Some(["a", "b"]);
    assert VisitNestedAsWritten(refl, defs, 4, [], 0, ["a", "b", "b"]) == Some(["a", "b", "b"]);
    assert VisitAsWritten(refl, defs, 5, "b", ["a", "b"]) == Some(["a", "b", "b"]);
    assert VisitAllAsWritten(refl, defs, 5, ["a", "b"], 2, ["a", "b", "b"]) == Some(["a", "b", "b"]);
    assert VisitAllAsWritten(refl, defs, 5, ["a", "b"], 1, ["a", "b"]) == Some(["a", "b", "b"]);
  }

  /** With the guard, `b` is registered once. */
  lemma ExampleOrderGuarded()
    ensures VisitAll(ExampleRefl, ExampleDefs, ["a", "b"], 0, []) == ["a", "b"]
  {
    var refl, defs := ExampleRefl, ExampleDefs;
    ExampleNested();
    assert defs["a"] == ExampleA && defs["b"] == ExampleB;
    assert ["a"] + ["b"] == ["a", "b"];
    assert [] + ["a"] == ["a"];
    assert VisitNested(refl, defs, [], 0, ["a", "b"]) == ["a", "b"];
    assert Visit(refl, defs, "b", ["a"]) == ["a", "b"];
    assert VisitNested(refl, defs, ["b"], 1, ["a", "b"]) == ["a", "b"];
    assert VisitNested(refl, defs, ["b"], 0, ["a"]) == ["a", "b"];
    assert Visit(refl, defs, "a", []) == ["a", "b"];
    assert Visit(refl, defs, "b", ["a", "b"]) == ["a", "b"];
    assert VisitAll(refl, defs, ["a", "b"], 2, ["a", "b"]) == ["a", "b"];
    assert VisitAll(refl, defs, ["a", "b"], 1, ["a", "b"]) == ["a", "b"];
  }

  /** Replaying the example: after `a, b` the primary context holds `b`'s
      instance, after a second `b` it holds the sentinel. */
  lemma ExampleReplay()
    ensures var start := Copy(Refresh(ExampleInitial, ExampleInstantiate), ExampleApp, []);
            && "b" in Replay(start, ["a", "b"]).app.beans
            && Replay(start, ["a", "b"]).app.beans["b"] == Live(ExampleInstantiate(ExampleB))
            && "b" in Replay(start, ["a", "b", "b"]).app.beans
            && Replay(start, ["a", "b", "b"]).app.beans["b"] == EmptyBean
  {
    var boot := Refresh(ExampleInitial, ExampleInstantiate);
    assert boot.definitions == ExampleDefs;
    var start := Copy(boot, ExampleApp, []);
    assert ["a", "b", "b"][..2] == ["a", "b"];
    assert ["a", "b"][..1] == ["a"];
    var s1 := Replay(start, ["a"]);
    var s2 := Replay(start, ["a", "b"]);
    assert s2 == CopyOne(s1, "b");
    assert Replay(start, ["a", "b", "b"]) == CopyOne(s2, "b");
    assert s2.boot.beans["b"] == EmptyBean;
    assert s1.boot.beans["b"] == boot.beans["b"] by {
      ReplaySlot(start, ["a"], "b");
    }
  }

  /** The second registration of `b` takes the sentinel the first one left
      behind: as written the primary context ends up holding `EMPTY_BEAN`
      under `b`, and `b`'s instance is held by neither context. */
  lemma SecondCopyTakesSentinel()
    ensures var asWritten := BootstrapAsWritten(ExampleApp, ExampleInitial, ExampleRefl, ExampleInstantiate, ["a", "b"], 5);
            && asWritten.Some? && asWritten.value.copied == ["a", "b", "b"]
            && "b" in asWritten.value.app.beans && asWritten.value.app.beans["b"] == EmptyBean
  {
    assert Refresh(ExampleInitial, ExampleInstantiate).definitions == ExampleDefs;
    ExampleOrderAsWritten();
    ExampleReplay();
  }

  /** The guarded import of the same example keeps `b`'s instance. */
  lemma GuardedKeepsInstance()
    ensures var guarded := BootstrapContext(ExampleApp, ExampleInitial, ExampleRefl, ExampleInstantiate, ["a", "b"]);
            && guarded.copied == ["a", "b"]
            && "b" in guarded.app.beans && guarded.app.beans["b"] == Live(ExampleInstantiate(ExampleB))
  {
    assert Refresh(ExampleInitial, ExampleInstantiate).definitions == ExampleDefs;
    ExampleOrderGuarded();
    ExampleReplay();
  }
}

=== FILE: common.dfy ===
/** Shared vocabulary of the model: failure-carrying wrappers, the string
    operations of `java.lang.String` the core relies on, and association lists
    that behave like an insertion-ordered `java.util.LinkedHashMap`. */
module Common {

  datatype Option<+T> = None | Some(value: T)

  datatype Result<+T, +E> = Ok(value: T) | Err(error: E)

  /** A class or interface name. */
  type TypeId = string

  /** The subtype relation of the modelled program: `assignable(to, from)` stands
      for `to.isAssignableFrom(from)`. It is never fixed; operations take it as
      a parameter. */
  type Assignability = (TypeId, TypeId) -> bool

  // ---------------------------------------------------------------------------
  // Strings

  /** A prefix one element longer is the prefix extended by that element. */
  lemma TakeSnoc<T>(s: seq<T>, i: nat)
    requires i < |s|
    ensures s[..i + 1] == s[..i] + [s[i]]
  {
  }

  predicate StartsWith(s: string, p: string) {
    |p| <= |s| && s[..|p|] == p
  }

  predicate EndsWith(s: string, p: string) {
    |p| <= |s| && s[|s| - |p|..] == p
  }

  /** `s` occurs inside `t` starting at position `i`. */
  predicate OccursAt(t: string, s: string, i: int) {
    0 <= i <= |t| - |s| && t[i..i + |s|] == s
  }

  /** `s` occurs somewhere inside `t`. */
  predicate Contains(t: string, s: string) {
    exists i :: 0 <= i <= |t| - |s| && OccursAt(t, s, i)
  }

  /** `s.indexOf(c, from)`: the first position at or after `from` holding `c`,
      or -1. */
  function IndexOf(s: string, c: char, from: nat): (r: int)
    ensures r == -1 || (from <= r < |s| && s[r] == c)
    ensures forall i :: from <= i < |s| && (r == -1 || i < r) ==> s[i] != c
    decreases |s| - from
  {
    if from >= |s| then -1
    else if s[from] == c then from
    else IndexOf(s, c, from + 1)
  }

  /** `s.replace(from, to)` for single characters. */
  function ReplaceChar(s: string, from: char, to: char): (r: string)
    ensures |r| == |s|
    ensures forall i :: 0 <= i < |s| ==> r[i] == (if s[i] == from then to else s[i])
  {
    if |s| == 0 then "" else [if s[0] == from then to else s[0]] + ReplaceChar(s[1..], from, to)
  }

  /** `s.replace(pat, rep)` for a non-empty literal pattern: occurrences are
      replaced from left to right without overlapping. */
  function ReplaceAll(s: string, pat: string, rep: string): string
    requires |pat| > 0
    decreases |s|
  {
    if |s| == 0 then ""
    else if StartsWith(s, pat) then rep + ReplaceAll(s[|pat|..], pat, rep)
    else [s[0]] + ReplaceAll(s[1..], pat, rep)
  }

  /** A string with no occurrence of `pat` is left alone by `ReplaceAll`. */
  lemma {:induction false} ReplaceAllAbsent(s: string, pat: string, rep: string)
    requires |pat| > 0
    requires !Contains(s, pat)
    ensures ReplaceAll(s, pat, rep) == s
    decreases |s|
  {
    if |s| > 0 {
      if StartsWith(s, pat) {
        assert OccursAt(s, pat, 0);
        assert false;
      }
      if Contains(s[1..], pat) {
        var i :| 0 <= i <= |s[1..]| - |pat| && OccursAt(s[1..], pat, i);
        assert s[1..][i..i + |pat|] == s[i + 1..i + 1 + |pat|];
        assert OccursAt(s, pat, i + 1);
        assert false;
      }
      ReplaceAllAbsent(s[1..], pat, rep);
    }
  }

  /** Removing every occurrence of `pat` from `pat + rest` removes the leading one
      and treats the rest on its own. */
  lemma ReplaceAllLeading(pat: string, rest: string, rep: string)
    requires |pat| > 0
    ensures ReplaceAll(pat + rest, pat, rep) == rep + ReplaceAll(rest, pat, rep)
  {
    assert StartsWith(pat + rest, pat);
    assert (pat + rest)[|pat|..] == rest;
  }

  /** Java's `String.compareTo(a, b) < 0`: lexicographic on characters, a proper
      prefix sorting first. */
  predicate LexLess(a: string, b: string)
    decreases |a|
  {
    if |a| == 0 then |b| > 0
    else if |b| == 0 then false
    else if a[0] != b[0] then a[0] < b[0]
    else LexLess(a[1..], b[1..])
  }

  lemma {:induction false} LexLessIrreflexive(a: string)
    ensures !LexLess(a, a)
    decreases |a|
  {
    if |a| > 0 {
      LexLessIrreflexive(a[1..]);
    }
  }

  lemma {:induction false} LexLessTransitive(a: string, b: string, c: string)
    requires LexLess(a, b) && LexLess(b, c)
    ensures LexLess(a, c)
    decreases |a|
  {
    if |a| > 0 && |b| > 0 && |c| > 0 && a[0] == b[0] && b[0] == c[0] {
      LexLessTransitive(a[1..], b[1..], c[1..]);
    }
  }

  lemma {:induction false} LexLessTotal(a: string, b: string)
    requires a != b
    ensures LexLess(a, b) || LexLess(b, a)
    decreases |a|
  {
    if |a| > 0 && |b| > 0 && a[0] == b[0] {
      assert a == [a[0]] + a[1..] && b == [b[0]] + b[1..];
      LexLessTotal(a[1..], b[1..]);
    }
  }

  // ---------------------------------------------------------------------------
  // Association lists: an insertion-ordered map with string keys.

  type Assoc<V> = seq<(string, V)>

  function KeySet<V>(a: Assoc<V>): set<string> {
    set i | 0 <= i < |a| :: a[i].0
  }

  predicate DistinctKeys<V>(a: Assoc<V>) {
    forall i, j :: 0 <= i < j < |a| ==> a[i].0 != a[j].0
  }

  /** `get(k)` */
  function Lookup<V>(a: Assoc<V>, k: string): Option<V> {
    if |a| == 0 then None
    else if a[0].0 == k then Some(a[0].1)
    else Lookup(a[1..], k)
  }

  /** What `put(k, v)` promises about a candidate result `r`. */
  ghost predicate Putted<V>(a: Assoc<V>, k: string, v: V, r: Assoc<V>) {
    && Lookup(r, k) == Some(v)
    && (forall k' :: k' != k ==> Lookup(r, k') == Lookup(a, k'))
    && KeySet(r) == KeySet(a) + {k}
    && (k in KeySet(a) ==> |r| == |a| && forall i :: 0 <= i < |a| ==> r[i].0 == a[i].0)
    && (k !in KeySet(a) ==> r == a + [(k, v)])
    && (DistinctKeys(a) ==> DistinctKeys(r))
  }

  /** `put(k, v)` of a `LinkedHashMap`: an existing key keeps its position and
      takes the new value; a new key goes to the end. */
  function Put<V>(a: Assoc<V>, k: string, v: V): (r: Assoc<V>)
    ensures Lookup(r, k) == Some(v)
    ensures forall k' :: k' != k ==> Lookup(r, k') == Lookup(a, k')
    ensures KeySet(r) == KeySet(a) + {k}
    ensures k in KeySet(a) ==> |r| == |a| && forall i :: 0 <= i < |a| ==> r[i].0 == a[i].0
    ensures k !in KeySet(a) ==> r == a + [(k, v)]
    ensures DistinctKeys(a) ==> DistinctKeys(r)
  {
    if |a| == 0 then
      var r := [(k, v)];
      assert KeySet(r) == {k} by { assert r[0].0 == k; }
      r
    else if a[0].0 == k then
      PutHead(a, k, v);
      [(k, v)] + a[1..]
    else
      var rest := Put(a[1..], k, v);
      PutCons(a, k, v, rest);
      [a[0]] + rest
  }

  lemma PutHead<V>(a: Assoc<V>, k: string, v: V)
    requires |a| > 0 && a[0].0 == k
    ensures Putted(a, k, v, [(k, v)] + a[1..])
  {
    var r := [(k, v)] + a[1..];
    KeySetCons(a);
    KeySetCons(r);
    assert r[1..] == a[1..];
    assert k in KeySet(a);
    if DistinctKeys(a) {
      forall i, j | 0 <= i < j < |r| ensures r[i].0 != r[j].0 {
        assert r[j].0 == a[j].0;
        if i > 0 { assert r[i].0 == a[i].0; }
      }
    }
  }

  lemma PutCons<V>(a: Assoc<V>, k: string, v: V, rest: Assoc<V>)
    requires |a| > 0 && a[0].0 != k
    requires Putted(a[1..], k, v, rest)
    ensures Putted(a, k, v, [a[0]] + rest)
  {
    var r := [a[0]] + rest;
    KeySetCons(a);
    KeySetCons(r);
    assert r[1..] == rest;
    if k !in KeySet(a) {
      assert r == a + [(k, v)] by {
        assert a == [a[0]] + a[1..];
      }
    }
    if DistinctKeys(a) {
      PutConsDistinct(a, k, v, rest);
    }
  }

  lemma PutConsDistinct<V>(a: Assoc<V>, k: string, v: V, rest: Assoc<V>)
    requires |a| > 0 && a[0].0 != k && DistinctKeys(a)
    requires DistinctKeys(a[1..]) ==> DistinctKeys(rest)
    requires KeySet(rest) == KeySet(a[1..]) + {k}
    ensures DistinctKeys([a[0]] + rest)
  {
    var r := [a[0]] + rest;
    {
      assert DistinctKeys(a[1..]);
      assert a[0].0 !in KeySet(a[1..]) by {
        forall i | 0 <= i < |a[1..]| ensures a[1..][i].0 != a[0].0 {
          assert a[1..][i] == a[i + 1];
        }
      }
      forall j | 0 < j < |r| ensures r[0].0 != r[j].0 {
        assert r[j].0 in KeySet(rest) by { assert rest[j - 1] == r[j]; }
      }
      forall i, j | 0 < i < j < |r| ensures r[i].0 != r[j].0 {
        assert r[i] == rest[i - 1] && r[j] == rest[j - 1];
      }
    }
  }

  lemma KeySetCons<V>(a: Assoc<V>)
    requires |a| > 0
    ensures KeySet(a) == {a[0].0} + KeySet(a[1..])
  {
    forall x | x in KeySet(a) ensures x in {a[0].0} + KeySet(a[1..]) {
      var i :| 0 <= i < |a| && a[i].0 == x;
      if i > 0 { assert a[1..][i - 1].0 == x; }
    }
    forall x | x in KeySet(a[1..]) ensures x in KeySet(a) {
      var i :| 0 <= i < |a[1..]| && a[1..][i].0 == x;
      assert a[i + 1].0 == x;
    }
  }

  lemma {:induction false} LookupSomeInKeys<V>(a: Assoc<V>, k: string)
    ensures Lookup(a, k).Some? <==> k in KeySet(a)
  {
    if |a| > 0 {
      LookupSomeInKeys(a[1..], k);
      KeySetCons(a);
    }
  }

  /** Putting a sequence of entries one after the other. */
  function PutAll<V>(acc: Assoc<V>, entries: seq<(string, V)>): Assoc<V>
    decreases |entries|
  {
    if |entries| == 0 then acc
    else PutAll(Put(acc, entries[0].0, entries[0].1), entries[1..])
  }

  /** Putting entries adds exactly their keys and keeps keys distinct. */
  lemma {:induction false} PutAllKeys<V>(acc: Assoc<V>, entries: seq<(string, V)>)
    ensures KeySet(PutAll(acc, entries)) == KeySet(acc) + set i | 0 <= i < |entries| :: entries[i].0
    ensures DistinctKeys(acc) ==> DistinctKeys(PutAll(acc, entries))
    decreases |entries|
  {
    if |entries| > 0 {
      var e := entries[0];
      PutAllKeys(Put(acc, e.0, e.1), entries[1..]);
      KeySetCons(entries);
    }
  }

  /** The value the last entry with key `k` carries, if any. */
  function LastFor<V>(entries: seq<(string, V)>, k: string): Option<V> {
    if |entries| == 0 then None
    else if entries[|entries| - 1].0 == k then Some(entries[|entries| - 1].1)
    else LastFor(entries[..|entries| - 1], k)
  }

  lemma LastForAppend<V>(entries: seq<(string, V)>, e: (string, V), k: string)
    ensures LastFor(entries + [e], k) == if e.0 == k then Some(e.1) else LastFor(entries, k)
  {
    assert (entries + [e])[..|entries|] == entries;
  }

  /** After putting `entries` in order, a key maps to the value of its LAST
      entry; keys without an entry keep their earlier value. */
  lemma {:induction false} PutAllLookup<V>(acc: Assoc<V>, entries: seq<(string, V)>, k: string)
    ensures Lookup(PutAll(acc, entries), k)
         == if LastFor(entries, k).Some? then LastFor(entries, k) else Lookup(acc, k)
    decreases |entries|
  {
    if |entries| > 0 {
      var e := entries[0];
      assert [e] + entries[1..] == entries;
      LastForFront(e, entries[1..], k);
      var acc' := Put(acc, e.0, e.1);
      PutAllLookup(acc', entries[1..], k);
      assert Lookup(acc', k) == if e.0 == k then Some(e.1) else Lookup(acc, k);
    }
  }

  lemma {:induction false} LastForFront<V>(e: (string, V), rest: seq<(string, V)>, k: string)
    ensures LastFor([e] + rest, k) == if LastFor(rest, k).Some? then LastFor(rest, k) else if e.0 == k then Some(e.1) else None
    decreases |rest|
  {
    if |rest| > 0 {
      var last := rest[|rest| - 1];
      assert ([e] + rest)[..|rest|] == [e] + rest[..|rest| - 1];
      LastForFront(e, rest[..|rest| - 1], k);
    }
  }

  /** The keys of an association list, in order. */
  function Keys<V>(a: Assoc<V>): (r: seq<string>)
    ensures |r| == |a| && forall i :: 0 <= i < |a| ==> r[i] == a[i].0
  {
    seq(|a|, i requires 0 <= i < |a| => a[i].0)
  }

  /** The keys of `entries` in the order they first occur, leaving out those
      already in `seen`. */
  function FirstOccurrences<V>(entries: seq<(string, V)>, seen: set<string>): seq<string>
    decreases |entries|
  {
    if |entries| == 0 then []
    else if entries[0].0 in seen then FirstOccurrences(entries[1..], seen)
    else [entries[0].0] + FirstOccurrences(entries[1..], seen + {entries[0].0})
  }

  /** Putting entries in order appends each new key where it first occurs; a
      key put again keeps its position. */
  lemma {:induction false} PutAllOrder<V>(acc: Assoc<V>, entries: seq<(string, V)>)
    ensures Keys(PutAll(acc, entries)) == Keys(acc) + FirstOccurrences(entries, KeySet(acc))
    decreases |entries|
  {
    if |entries| > 0 {
      var e := entries[0];
      var acc' := Put(acc, e.0, e.1);
      var rest := FirstOccurrences(entries[1..], KeySet(acc'));
      assert PutAll(acc, entries) == PutAll(acc', entries[1..]);
      PutAllOrder(acc', entries[1..]);
      PutKeys(acc, e.0, e.1);
      if e.0 in KeySet(acc) {
        assert FirstOccurrences(entries, KeySet(acc)) == rest;
      } else {
        assert FirstOccurrences(entries, KeySet(acc)) == [e.0] + rest;
      }
    }
  }

  lemma PutKeys<V>(a: Assoc<V>, k: string, v: V)
    ensures k in KeySet(a) ==> Keys(Put(a, k, v)) == Keys(a) && KeySet(Put(a, k, v)) == KeySet(a)
    ensures k !in KeySet(a) ==> Keys(Put(a, k, v)) == Keys(a) + [k] && KeySet(Put(a, k, v)) == KeySet(a) + {k}
  {
    var r := Put(a, k, v);
    if k !in KeySet(a) {
      assert r == a + [(k, v)];
      assert Keys(r) == Keys(a) + [k];
    } else {
      assert Keys(r) == Keys(a);
    }
  }

  /** The entry `j` carries the last value of its key when no later entry has
      that key. */
  lemma {:induction false} LastForIsLast<V>(entries: seq<(string, V)>, j: nat)
    requires j < |entries|
    requires forall l :: j < l < |entries| ==> entries[l].0 != entries[j].0
    ensures LastFor(entries, entries[j].0) == Some(entries[j].1)
    decreases |entries|
  {
    if j < |entries| - 1 {
      var front := entries[..|entries| - 1];
      assert front[j] == entries[j];
      LastForIsLast(front, j);
    }
  }

  /** Putting one more entry after a sequence of entries. */
  lemma {:induction false} PutAllSnoc<V>(acc: Assoc<V>, entries: seq<(string, V)>, e: (string, V))
    ensures PutAll(acc, entries + [e]) == Put(PutAll(acc, entries), e.0, e.1)
    decreases |entries|
  {
    if |entries| == 0 {
      assert entries + [e] == [e];
    } else {
      assert (entries + [e])[0] == entries[0];
      assert (entries + [e])[1..] == entries[1..] + [e];
      PutAllSnoc(Put(acc, entries[0].0, entries[0].1), entries[1..], e);
    }
  }
}

=== FILE: exception_advice.dfy ===
/** `ControllerExceptionAdviceInterceptorProxy`: the `@ExceptionHandler` methods
    of the controller advice beans, collected into an insertion-ordered map from
    exception class to handler, and the interception of request-mapped calls
    that hands a failure to its handler or lets it through. */
module ExceptionAdvice {
  import opened Common
  import opened Beans

  const THROWABLE: TypeId := "java.lang.Throwable"

  /** A controller advice bean and the methods of its class. */
  datatype AdviceBean = AdviceBean(id: nat, methods: seq<MethodMeta>)

  /** A handler method on the advice bean it was found on. */
  datatype Handler = Handler(bean: nat, target: MethodMeta)

  /** A thrown failure: its identity and its runtime class. */
  datatype Failure = Failure(id: nat, cls: TypeId)

  /** A handler with the argument array it is invoked with (`None` is `null`). */
  datatype Invocation = Invocation(handler: Handler, args: seq<Option<Failure>>)

  /** An opaque value returned by a call. */
  datatype Value = Value(id: nat)

  /** The exception classes a handler method declares: the annotation's
      `value()` when it is non-empty, the method's parameter types otherwise. */
  function HandlerKeys(m: MethodMeta): (r: seq<TypeId>)
    requires m.exceptionHandler.Some?
    ensures |m.exceptionHandler.value| > 0 ==> r == m.exceptionHandler.value
    ensures |m.exceptionHandler.value| == 0 ==>
              |r| == |m.params| && forall i :: 0 <= i < |r| ==> r[i] == m.params[i].paramType
  {
    if |m.exceptionHandler.value| > 0 then m.exceptionHandler.value
    else seq(|m.params|, i requires 0 <= i < |m.params| => m.params[i].paramType)
  }

  /** The map entries for `keys`, leaving out classes that are not throwable. */
  function KeyEntries(keys: seq<TypeId>, h: Handler, assignable: Assignability): (r: seq<(TypeId, Handler)>)
    ensures forall e :: e in r <==> e.1 == h && e.0 in keys && assignable(THROWABLE, e.0)
  {
    if |keys| == 0 then []
    else (if assignable(THROWABLE, keys[0]) then [(keys[0], h)] else []) + KeyEntries(keys[1..], h, assignable)
  }

  /** An entry the advice bean `b`'s method `m` contributes. */
  predicate Declares(b: AdviceBean, m: MethodMeta, e: (TypeId, Handler), assignable: Assignability) {
    && m.exceptionHandler.Some?
    && e.1 == Handler(b.id, m)
    && e.0 in HandlerKeys(m)
    && assignable(THROWABLE, e.0)
  }

  /** The entries of the methods `ms` of bean `b`, in order. */
  function BeanEntries(b: AdviceBean, ms: seq<MethodMeta>, assignable: Assignability): (r: seq<(TypeId, Handler)>)
    ensures forall e :: e in r <==> exists m :: m in ms && Declares(b, m, e, assignable)
  {
    if |ms| == 0 then []
    else
      var m := ms[0];
      var here := if m.exceptionHandler.Some? then KeyEntries(HandlerKeys(m), Handler(b.id, m), assignable) else [];
      var rest := BeanEntries(b, ms[1..], assignable);
      assert forall e :: e in here <==> Declares(b, m, e, assignable);
      assert forall m' :: m' in ms <==> m' == m || m' in ms[1..];
      here + rest
  }

  /** Every `put` `initExceptionHandler` performs, in order. */
  function Registrations(beans: seq<AdviceBean>, assignable: Assignability): (r: seq<(TypeId, Handler)>)
    ensures forall e :: e in r <==> exists b, m :: b in beans && m in b.methods && Declares(b, m, e, assignable)
  {
    if |beans| == 0 then []
    else
      var rest := Registrations(beans[1..], assignable);
      assert forall b :: b in beans <==> b == beans[0] || b in beans[1..];
      BeanEntries(beans[0], beans[0].methods, assignable) + rest
  }

  /** `initExceptionHandler`: the `LinkedHashMap` after all registrations. Its
      keys are exactly the throwable classes some handler declares, each once,
      in the order of their first registration; a class declared by several
      handlers maps to the last one registered. */
  function InitExceptionHandler(beans: seq<AdviceBean>, assignable: Assignability): (r: Assoc<Handler>)
    ensures DistinctKeys(r)
    ensures forall t :: t in KeySet(r) <==>
              exists b, m, h :: b in beans && m in b.methods && Declares(b, m, (t, h), assignable)
    ensures forall t :: t in KeySet(r) ==> assignable(THROWABLE, t)
    ensures forall t :: Lookup(r, t) == LastFor(Registrations(beans, assignable), t)
    ensures Keys(r) == FirstOccurrences(Registrations(beans, assignable), {})
  {
    var regs := Registrations(beans, assignable);
    var r := PutAll([], regs);
    PutAllKeys([], regs);
    PutAllOrder([], regs);
    assert KeySet<Handler>([]) == {};
    forall t ensures Lookup(r, t) == LastFor(regs, t) {
      PutAllLookup([], regs, t);
    }
    RegisteredKeys(beans, assignable);
    r
  }

  /** The keys of the handler map are the classes some handler declares. */
  lemma RegisteredKeys(beans: seq<AdviceBean>, assignable: Assignability)
    ensures forall t :: t in KeySet(PutAll([], Registrations(beans, assignable))) <==>
              exists b, m, h :: b in beans && m in b.methods && Declares(b, m, (t, h), assignable)
  {
    var regs := Registrations(beans, assignable);
    forall t ensures t in KeySet(PutAll([], regs)) <==> exists h :: (t, h) in regs {
      PutAllFirsts(regs, t);
    }
  }

  /** A key of the map built from `regs` is exactly a class some entry of `regs`
      carries. */
  lemma PutAllFirsts(regs: seq<(TypeId, Handler)>, t: TypeId)
    ensures t in KeySet(PutAll([], regs)) <==> exists h :: (t, h) in regs
  {
    PutAllKeys([], regs);
    assert KeySet<Handler>([]) == {};
    if t in KeySet(PutAll([], regs)) {
      var i :| 0 <= i < |regs| && regs[i].0 == t;
      assert (t, regs[i].1) in regs;
    }
    if h :| (t, h) in regs {
      var i :| 0 <= i < |regs| && regs[i] == (t, h);
    }
  }

  /** The entry `i` of `handlers` is the one the fallback search picks for class
      `cls`: the first, in insertion order, whose class is a supertype. */
  predicate FirstSupertype(handlers: Assoc<Handler>, cls: TypeId, i: int, assignable: Assignability) {
    && 0 <= i < |handlers|
    && assignable(handlers[i].0, cls)
    && forall j :: 0 <= j < i ==> !assignable(handlers[j].0, cls)
  }

  /** Some handler takes failures of class `cls`: one registered for the class
      itself or for a supertype of it. */
  predicate HasHandler(handlers: Assoc<Handler>, cls: TypeId, assignable: Assignability) {
    || Lookup(handlers, cls).Some?
    || exists i :: 0 <= i < |handlers| && assignable(handlers[i].0, cls)
  }

  /** `inv` is the invocation the search builds for `failure`: the handler
      registered for its exact class, otherwise the first entry whose class is a
      supertype of it, with one argument slot per parameter of the handler
      method, holding the failure exactly when the parameter type accepts it. */
  predicate Picks(handlers: Assoc<Handler>, failure: Failure, inv: Invocation, assignable: Assignability) {
    && (Lookup(handlers, failure.cls).Some? ==> inv.handler == Lookup(handlers, failure.cls).value)
    && (Lookup(handlers, failure.cls).None? ==>
          exists i :: 0 <= i < |handlers| && FirstSupertype(handlers, failure.cls, i, assignable) && inv.handler == handlers[i].1)
    && |inv.args| == |inv.handler.target.params|
    && forall i :: 0 <= i < |inv.args| ==>
         inv.args[i] == if assignable(inv.handler.target.params[i].paramType, failure.cls) then Some(failure) else None
  }

  /** `findControllerExceptionAdvice`: the handler registered for the failure's
      exact class; otherwise the first entry whose class is a supertype of it;
      otherwise none. The argument array has one slot per parameter of the
      handler method, holding the failure exactly when the parameter type
      accepts it. */
  method FindControllerExceptionAdvice(handlers: Assoc<Handler>, failure: Failure, assignable: Assignability)
    returns (r: Option<Invocation>)
    ensures r.Some? <==> HasHandler(handlers, failure.cls, assignable)
    ensures r.Some? ==> Picks(handlers, failure, r.value, assignable)
  {
    var found := Lookup(handlers, failure.cls);
    if found.None? {
      var i := 0;
      while i < |handlers|
        invariant 0 <= i <= |handlers|
        invariant forall j :: 0 <= j < i ==> !assignable(handlers[j].0, failure.cls)
      {
        if assignable(handlers[i].0, failure.cls) {
          found := Some(handlers[i].1);
          assert FirstSupertype(handlers, failure.cls, i, assignable);
          break;
        }
        i := i + 1;
      }
    }
    if found.None? {
      return None;
    }
    var h := found.value;
    var ps := h.target.params;
    var args: seq<Option<Failure>> := [];
    for i := 0 to |ps|
      invariant |args| == i
      invariant forall j :: 0 <= j < i ==>
                  args[j] == if assignable(ps[j].paramType, failure.cls) then Some(failure) else None
    {
      args := args + [if assignable(ps[i].paramType, failure.cls) then Some(failure) else None];
    }
    return Some(Invocation(h, args));
  }

  /** What an intercepted call ends with: its return value (`None` is `null`)
      or the failure it throws, and the handler invocation and return-value
      processor involved, if any, with the handler's return value that
      processor was given. */
  datatype Outcome = Outcome(
    result: Result<Option<Value>, Failure>,
    invoked: Option<Invocation>,
    processedBy: Option<nat>,
    handled: Option<Value>)

  /** The loop of `processControllerAdvice`: the index of the first
      return-value processor that supports the invocation, if any. */
  method FirstSupporting(processors: seq<nat>, inv: Invocation, supports: (nat, Invocation) -> bool)
    returns (r: Option<nat>)
    ensures r.Some? ==> r.value < |processors| && supports(processors[r.value], inv)
    ensures r.Some? ==> forall j :: 0 <= j < r.value ==> !supports(processors[j], inv)
    ensures r.None? <==> forall j :: 0 <= j < |processors| ==> !supports(processors[j], inv)
  {
    for i := 0 to |processors|
      invariant forall j :: 0 <= j < i ==> !supports(processors[j], inv)
    {
      if supports(processors[i], inv) {
        return Some(i);
      }
    }
    return None;
  }

  /** `proceed`. `call` is what the intercepted call does, `invoke` what the
      handler returns, `processors` the dispatcher's return-value processors in
      order. A method without a request mapping is delegated to with nothing
      caught. Otherwise a failure with a handler is handed to it and the call
      returns `null`, unless no processor supports the handler, in which case
      the same failure is rethrown after the handler ran; a failure without a
      handler is rethrown as it is. */
  method Proceed(source: MethodMeta, call: Result<Value, Failure>, handlers: Assoc<Handler>,
                 processors: seq<nat>, supports: (nat, Invocation) -> bool,
                 invoke: Invocation -> Value, assignable: Assignability)
    returns (out: Outcome)
    ensures RequestMapping !in source.annotations ==>
              out.invoked.None? && out.result == (if call.Ok? then Ok(Some(call.value)) else Err(call.error))
    ensures call.Ok? ==> out.result == Ok(Some(call.value)) && out.invoked.None?
    ensures out.result.Err? ==> call.Err? && out.result.error == call.error
    ensures out.processedBy.Some? ==>
              && out.invoked.Some? && out.result == Ok(None)
              && out.processedBy.value < |processors|
              && supports(processors[out.processedBy.value], out.invoked.value)
              && out.handled == Some(invoke(out.invoked.value))
    ensures out.processedBy.None? ==> out.handled.None?
    ensures RequestMapping in source.annotations && call.Err? ==>
              (out.result == Ok(None) <==> out.processedBy.Some?)
    ensures out.invoked.Some? ==> call.Err? && RequestMapping in source.annotations
    ensures RequestMapping in source.annotations && call.Err? ==>
              (out.invoked.Some? <==> HasHandler(handlers, call.error.cls, assignable))
    ensures call.Err? && out.invoked.Some? ==> Picks(handlers, call.error, out.invoked.value, assignable)
    ensures out.invoked.Some? ==>
              (out.processedBy.Some? <==> exists j :: 0 <= j < |processors| && supports(processors[j], out.invoked.value))
    ensures out.processedBy.Some? && out.invoked.Some? ==>
              forall j :: 0 <= j < out.processedBy.value ==> !supports(processors[j], out.invoked.value)
  {
    if RequestMapping !in source.annotations || call.Ok? {
      var res: Result<Option<Value>, Failure> := if call.Ok? then Ok(Some(call.value)) else Err(call.error);
      return Outcome(res, None, None, None);
    }
    var failure := call.error;
    var advice := FindControllerExceptionAdvice(handlers, failure, assignable);
    if advice.None? {
      return Outcome(Err(failure), None, None, None);
    }
    var ret := invoke(advice.value);
    var p := FirstSupporting(processors, advice.value, supports);
    if p.None? {
      return Outcome(Err(failure), advice, None, None);
    }
    return Outcome(Ok(None), advice, p, Some(ret));
  }

  // ---------------------------------------------------------------------------
  // Properties

  /** A later registration of the same class replaces the handler: whatever
      was registered for `t` before, the handler of its last registration is
      the one the map holds. */
  lemma LaterRegistrationWins(beans: seq<AdviceBean>, assignable: Assignability, i: nat, j: nat)
    requires i < j < |Registrations(beans, assignable)|
    requires Registrations(beans, assignable)[i].0 == Registrations(beans, assignable)[j].0
    requires forall l :: j < l < |Registrations(beans, assignable)| ==>
               Registrations(beans, assignable)[l].0 != Registrations(beans, assignable)[j].0
    ensures Lookup(InitExceptionHandler(beans, assignable), Registrations(beans, assignable)[i].0)
         == Some(Registrations(beans, assignable)[j].1)
  {
    LastForIsLast(Registrations(beans, assignable), j);
  }

  /** The fallback search does not look for the nearest supertype: with
      `Exception` registered before `IOException`, a `FileNotFoundException`
      goes to the `Exception` handler. */
  lemma FirstNotNearest(hException: Handler, hIo: Handler)
    ensures var assignable := (to: TypeId, from: TypeId) =>
              to == from
              || (to == "java.lang.Exception" && from in ["java.io.IOException", "java.io.FileNotFoundException"])
              || (to == "java.io.IOException" && from == "java.io.FileNotFoundException");
            var handlers := [("java.lang.Exception", hException), ("java.io.IOException", hIo)];
            FirstSupertype(handlers, "java.io.FileNotFoundException", 0, assignable)
            && handlers[0].1 == hException
  {
  }
}

=== FILE: factory_bean.dfy ===
/** The factory-bean definition rewrite: every autowire-candidate definition of a
    factory bean gets a derived factory definition registered, once per name,
    until the context's refreshed event resets the bookkeeping. */
module FactoryBeanPostProcessor {
  import opened Common
  import opened Beans

  /** The processor's only state: the set of names already processed, `None`
      before its first use and after a reset. */
  datatype Processor = Processor(postProcessed: Option<set<string>>)

  function Seen(p: Processor): set<string> {
    if p.postProcessed.Some? then p.postProcessed.value else {}
  }

  /** The outcome of processing one definition. */
  datatype Step = Step(result: BeanDefinition, registry: Registry, processor: Processor)

  /** `addPostProcessed`: records `name` and answers whether it had been seen
      before. */
  function AddPostProcessed(p: Processor, name: string): (r: (bool, Processor))
    ensures r.0 <==> name in Seen(p)
    ensures r.1.postProcessed == Some(Seen(p) + {name})
  {
    var s := Seen(p);
    (name in s, Processor(Some(s + {name})))
  }

  /** `onApplicationEvent(ContextRefreshedEvent)`: forgets every processed name. */
  function OnRefreshed(p: Processor): (r: Processor)
    ensures Seen(r) == {}
  {
    Processor(None)
  }

  predicate Candidate(d: BeanDefinition) {
    d.autowireCandidate && d.factoryBean
  }

  /** `postProcessBeanDefinition`. `derive` stands for `factoryBeanDefinition`,
      which builds the definition of the factory product; registration is taken
      to replace any definition under the derived name. */
  function PostProcessBeanDefinition(p: Processor, d: BeanDefinition, reg: Registry,
                                     derive: BeanDefinition -> BeanDefinition): (r: Step)
    ensures Candidate(d) && d.beanName !in Seen(p) ==>
              && r.result == derive(d)
              && r.registry == reg[derive(d).beanName := derive(d)]
    ensures Candidate(d) && d.beanName in Seen(p) ==> r.result == d && r.registry == reg
    ensures Candidate(d) ==> Seen(r.processor) == Seen(p) + {d.beanName}
    ensures !Candidate(d) ==> r == Step(d, reg, p)
  {
    if Candidate(d) then
      var (seen, p') := AddPostProcessed(p, d.beanName);
      if !seen then
        var fd := derive(d);
        Step(fd, reg[fd.beanName := fd], p')
      else Step(d, reg, p')
    else Step(d, reg, p)
  }

  /** `addPostProcessed` answers false the first time a name is added and true on
      the next call. */
  lemma AddTwice(p: Processor, name: string)
    requires name !in Seen(p)
    ensures !AddPostProcessed(p, name).0
    ensures AddPostProcessed(AddPostProcessed(p, name).1, name).0
  {
  }

  /** Processing the same definition a second time returns it unchanged and
      registers nothing. */
  lemma SecondPassIsNoOp(p: Processor, d: BeanDefinition, reg: Registry, derive: BeanDefinition -> BeanDefinition)
    requires Candidate(d)
    ensures var s := PostProcessBeanDefinition(p, d, reg, derive);
            var s2 := PostProcessBeanDefinition(s.processor, d, s.registry, derive);
            s2.result == d && s2.registry == s.registry && Seen(s2.processor) == Seen(s.processor)
  {
  }

  /** After the refreshed event a previously processed name counts as new again:
      the derived definition is registered anew. */
  lemma RefreshReprocesses(p: Processor, d: BeanDefinition, reg: Registry, derive: BeanDefinition -> BeanDefinition)
    requires Candidate(d)
    ensures var s := PostProcessBeanDefinition(p, d, reg, derive);
            var s2 := PostProcessBeanDefinition(OnRefreshed(s.processor), d, s.registry, derive);
            s2.result == derive(d) && derive(d).beanName in s2.registry
  {
  }

  /** The names of the snapshot `reg` that are candidates. */
  function CandidateNames(reg: Registry, names: seq<string>): set<string>
    requires forall n :: n in names ==> n in reg
  {
    set n | n in names && Candidate(reg[n])
  }

  /** The names the derived definitions of the not-yet-processed candidates take. */
  function DerivedNames(reg: Registry, names: seq<string>, seen: set<string>,
                        derive: BeanDefinition -> BeanDefinition): set<string>
    requires forall n :: n in names ==> n in reg
  {
    set n | n in names && Candidate(reg[n]) && n !in seen :: derive(reg[n]).beanName
  }

  /** The bookkeeping of `postProcessBeanFactory` after visiting `visited` of the
      snapshot `reg`, starting from processor `p`. */
  predicate Visited(p: Processor, reg: Registry, visited: seq<string>, p1: Processor, reg1: Registry,
                    derive: BeanDefinition -> BeanDefinition)
    requires forall n :: n in visited ==> n in reg
  {
    && Seen(p1) == Seen(p) + CandidateNames(reg, visited)
    && reg1.Keys == reg.Keys + DerivedNames(reg, visited, Seen(p), derive)
    && (forall k :: k in reg && k !in DerivedNames(reg, visited, Seen(p), derive) ==> reg1[k] == reg[k])
    && forall k :: k in DerivedNames(reg, visited, Seen(p), derive) ==> DerivedFrom(reg, visited, Seen(p), derive, k, reg1[k])
  }

  /** `d` is the derived definition, under name `k`, of a candidate among
      `names` that was new to the pass. */
  predicate DerivedFrom(reg: Registry, names: seq<string>, seen: set<string>,
                        derive: BeanDefinition -> BeanDefinition, k: string, d: BeanDefinition)
    requires forall n :: n in names ==> n in reg
  {
    exists n :: n in names && Candidate(reg[n]) && n !in seen && derive(reg[n]).beanName == k && d == derive(reg[n])
  }

  /** One loop step of `postProcessBeanFactory` keeps its bookkeeping. */
  lemma StepKeepsBookkeeping(p: Processor, reg: Registry, visited: seq<string>, x: string,
                             p1: Processor, reg1: Registry, derive: BeanDefinition -> BeanDefinition)
    requires WellNamed(reg)
    requires x in reg && forall n :: n in visited ==> n in reg
    requires Visited(p, reg, visited, p1, reg1, derive)
    ensures var step := PostProcessBeanDefinition(p1, reg[x], reg1, derive);
            Visited(p, reg, visited + [x], step.processor, step.registry, derive)
  {
    NamesSnoc(reg, visited, x, Seen(p), derive);
    StepKeepsOthers(p, reg, visited, x, p1, reg1, derive);
    StepKeepsDerived(p, reg, visited, x, p1, reg1, derive);
  }

  /** Visiting one more name adds it to the candidate names when it is a
      candidate, and its derived name to the derived names when it is also new. */
  lemma NamesSnoc(reg: Registry, visited: seq<string>, x: string, seen: set<string>,
                  derive: BeanDefinition -> BeanDefinition)
    requires x in reg && forall n :: n in visited ==> n in reg
    ensures CandidateNames(reg, visited + [x]) == CandidateNames(reg, visited) + (if Candidate(reg[x]) then {x} else {})
    ensures DerivedNames(reg, visited + [x], seen, derive)
         == DerivedNames(reg, visited, seen, derive) + (if Candidate(reg[x]) && x !in seen then {derive(reg[x]).beanName} else {})
  {
  }

  /** One loop step keeps the processed names, the registry's keys and every
      definition outside the derived names in step with the bookkeeping. */
  lemma StepKeepsOthers(p: Processor, reg: Registry, visited: seq<string>, x: string,
                        p1: Processor, reg1: Registry, derive: BeanDefinition -> BeanDefinition)
    requires WellNamed(reg)
    requires x in reg && forall n :: n in visited ==> n in reg
    requires Visited(p, reg, visited, p1, reg1, derive)
    ensures var step := PostProcessBeanDefinition(p1, reg[x], reg1, derive);
            && Seen(step.processor) == Seen(p) + CandidateNames(reg, visited + [x])
            && step.registry.Keys == reg.Keys + DerivedNames(reg, visited + [x], Seen(p), derive)
            && forall k :: k in reg && k !in DerivedNames(reg, visited + [x], Seen(p), derive) ==> step.registry[k] == reg[k]
  {
    NamesSnoc(reg, visited, x, Seen(p), derive);
    assert reg[x].beanName == x;
  }

  /** One loop step keeps every derived slot holding a derived definition. */
  lemma StepKeepsDerived(p: Processor, reg: Registry, visited: seq<string>, x: string,
                         p1: Processor, reg1: Registry, derive: BeanDefinition -> BeanDefinition)
    requires WellNamed(reg)
    requires x in reg && forall n :: n in visited ==> n in reg
    requires Visited(p, reg, visited, p1, reg1, derive)
    ensures var step := PostProcessBeanDefinition(p1, reg[x], reg1, derive);
            forall k :: k in DerivedNames(reg, visited + [x], Seen(p), derive) ==>
              k in step.registry && DerivedFrom(reg, visited + [x], Seen(p), derive, k, step.registry[k])
  {
    var d := reg[x];
    var v' := visited + [x];
    var step := PostProcessBeanDefinition(p1, d, reg1, derive);
    assert d.beanName == x;
    var before := DerivedNames(reg, visited, Seen(p), derive);
    NamesSnoc(reg, visited, x, Seen(p), derive);
    if Candidate(d) && x !in Seen(p1) {
      assert step.registry == reg1[derive(d).beanName := derive(d)];
      forall k | k in DerivedNames(reg, v', Seen(p), derive)
        ensures k in step.registry && DerivedFrom(reg, v', Seen(p), derive, k, step.registry[k])
      {
        if k == derive(d).beanName {
          assert x in v';
        } else {
          DerivedFromSnoc(reg, visited, x, Seen(p), derive, k, reg1[k]);
        }
      }
    } else {
      assert step.registry == reg1;
      if Candidate(d) && x !in Seen(p) {
        assert x in CandidateNames(reg, visited);
        assert derive(d).beanName in before;
      }
      forall k | k in DerivedNames(reg, v', Seen(p), derive)
        ensures k in step.registry && DerivedFrom(reg, v', Seen(p), derive, k, step.registry[k])
      {
        DerivedFromSnoc(reg, visited, x, Seen(p), derive, k, reg1[k]);
      }
    }
  }

  lemma DerivedFromSnoc(reg: Registry, names: seq<string>, x: string, seen: set<string>,
                        derive: BeanDefinition -> BeanDefinition, k: string, d: BeanDefinition)
    requires x in reg && forall n :: n in names ==> n in reg
    requires DerivedFrom(reg, names, seen, derive, k, d)
    ensures DerivedFrom(reg, names + [x], seen, derive, k, d)
  {
    var n :| n in names && Candidate(reg[n]) && n !in seen && derive(reg[n]).beanName == k && d == derive(reg[n]);
    assert n in names + [x];
  }

  /** `postProcessBeanFactory`: visits a copy of the registry (keyed by bean
      name), in the order `order` the copy's iteration takes. Definitions
      registered during the loop are therefore never visited in this pass: the
      processed set grows by exactly the candidate names of the snapshot, and the
      registry grows by exactly the derived names of the snapshot's new
      candidates, leaving every other definition as it was. */
  method PostProcessBeanFactory(p: Processor, reg: Registry, order: seq<string>,
                                derive: BeanDefinition -> BeanDefinition)
    returns (reg': Registry, p': Processor)
    requires WellNamed(reg)
    requires forall n :: n in order <==> n in reg
    ensures Seen(p') == Seen(p) + CandidateNames(reg, order)
    ensures reg'.Keys == reg.Keys + DerivedNames(reg, order, Seen(p), derive)
    ensures forall k :: k in reg && k !in DerivedNames(reg, order, Seen(p), derive) ==> reg'[k] == reg[k]
    ensures forall k :: k in DerivedNames(reg, order, Seen(p), derive) ==> DerivedFrom(reg, order, Seen(p), derive, k, reg'[k])
    ensures forall n :: n in order && Candidate(reg[n]) && n !in Seen(p) && DerivesAlone(reg, order, Seen(p), derive, n) ==>
              reg'[derive(reg[n]).beanName] == derive(reg[n])
  {
    reg', p' := reg, p;
    for i := 0 to |order|
      invariant Visited(p, reg, order[..i], p', reg', derive)
    {
      StepKeepsBookkeeping(p, reg, order[..i], order[i], p', reg', derive);
      TakeSnoc(order, i);
      var step := PostProcessBeanDefinition(p', reg[order[i]], reg', derive);
      reg', p' := step.registry, step.processor;
    }
    assert order[..|order|] == order;
    forall n | n in order && Candidate(reg[n]) && n !in Seen(p) && DerivesAlone(reg, order, Seen(p), derive, n)
      ensures reg'[derive(reg[n]).beanName] == derive(reg[n])
    {
      var k := derive(reg[n]).beanName;
      assert k in DerivedNames(reg, order, Seen(p), derive);
    }
  }

  /** No other new candidate of the pass derives the name candidate `n` derives. */
  predicate DerivesAlone(reg: Registry, names: seq<string>, seen: set<string>,
                         derive: BeanDefinition -> BeanDefinition, n: string)
    requires forall m :: m in names ==> m in reg
    requires n in reg
  {
    forall m :: m in names && Candidate(reg[m]) && m !in seen && derive(reg[m]).beanName == derive(reg[n]).beanName ==> m == n
  }
}

=== FILE: generate_sources.dfy ===
/** The source generator of `database-utils` (`GenerateSources`): where a
    generated file goes, which tables are generated, and the sequence of file
    openings, writes and closings `generate` performs over its templates. The
    path and filter rules are shared with the `mybatis-demo` generator. */
module GenerateSources {
  import opened Common

  /** `File.separator`, which is never empty. */
  type Separator = s: string | |s| > 0 witness "/"

  /** The column descriptions of a table, as the database mapper returns them. */
  type Columns = seq<string>

  /** `AbstractDataBaseInfo`: `tableInfos` is `None` until it has been filled. */
  datatype DataBaseInfo = DataBaseInfo(dataBaseName: string, tableName: string, tableInfos: Option<Columns>)

  /** `CommonUtil.convert2Hump(name, upperFirst)`. */
  type Hump = (string, bool) -> string

  /** Where sources are written: the absolute form of the configured file path,
      the package name, the platform separator and the naming helper. */
  datatype Layout = Layout(parent: string, packageName: string, sep: Separator, hump: Hump)

  /** A generation template: its identity, `sameFile()`, `fileSuffix()` and
      `fileTypeSuffix()`, where a null suffix is `None`. */
  datatype Template = Template(id: nat, sameFile: bool, fileSuffix: Option<string>, fileTypeSuffix: Option<string>)

  /** The package as a relative directory: every `.` becomes the separator. */
  function PackageDir(packageName: string, sep: Separator): string {
    ReplaceAll(packageName, ".", sep)
  }

  /** With a one-character separator the package directory is the package with
      each dot swapped for that character, position by position. */
  lemma {:induction false} PackageDirChar(packageName: string, sep: Separator)
    requires |sep| == 1
    ensures PackageDir(packageName, sep) == ReplaceChar(packageName, '.', sep[0])
    decreases |packageName|
  {
    if |packageName| > 0 {
      PackageDirChar(packageName[1..], sep);
      if packageName[0] == '.' {
        assert StartsWith(packageName, ".");
      } else {
        assert !StartsWith(packageName, ".");
      }
    }
  }

  /** The parent path with one trailing separator removed, if it has one. */
  function DropTrailing(parent: string, sep: Separator): string {
    if EndsWith(parent, sep) then parent[..|parent| - |sep|] else parent
  }

  /** The directory of the generated sources: the parent, exactly one separator
      (the parent's own trailing one when present), then the package directory. */
  function SavePath(parent: string, packageName: string, sep: Separator): (r: string)
    ensures r == DropTrailing(parent, sep) + sep + PackageDir(packageName, sep)
    ensures StartsWith(r, parent)
  {
    if EndsWith(parent, sep) then
      assert parent == parent[..|parent| - |sep|] + sep;
      parent + PackageDir(packageName, sep)
    else
      parent + sep + PackageDir(packageName, sep)
  }

  /** A parent given with or without its trailing separator yields the same
      directory. */
  lemma SavePathTrailingSeparator(parent: string, packageName: string, sep: Separator)
    requires !EndsWith(parent, sep)
    ensures SavePath(parent + sep, packageName, sep) == SavePath(parent, packageName, sep)
  {
    assert EndsWith(parent + sep, sep);
    assert (parent + sep)[..|parent|] == parent;
  }

  function OrElse(o: Option<string>, default: string): string {
    if o.Some? then o.value else default
  }

  /** The file name for a table: the upper-camel table name, the template's
      suffix (none when null) and its type suffix (".java" when null). */
  function FileName(t: Template, hump: Hump, table: string): (r: string)
    ensures StartsWith(r, hump(table, true))
    ensures t.fileTypeSuffix.Some? ==> EndsWith(r, t.fileTypeSuffix.value)
    ensures t.fileTypeSuffix.None? ==> EndsWith(r, ".java")
    ensures t.fileSuffix.None? && t.fileTypeSuffix.None? ==> r == hump(table, true) + ".java"
    ensures t.fileSuffix.Some? && t.fileTypeSuffix.Some? ==> |r| == |hump(table, true)| + |t.fileSuffix.value| + |t.fileTypeSuffix.value|
    ensures var typeSuffix := if t.fileTypeSuffix.Some? then t.fileTypeSuffix.value else ".java";
            && |hump(table, true)| + |typeSuffix| <= |r|
            && r[|hump(table, true)|..|r| - |typeSuffix|] == if t.fileSuffix.Some? then t.fileSuffix.value else ""
  {
    var name := hump(table, true);
    var suffix := OrElse(t.fileSuffix, "");
    var typeSuffix := OrElse(t.fileTypeSuffix, ".java");
    var r := name + suffix + typeSuffix;
    assert r[..|name|] == name;
    assert r[|name|..|r| - |typeSuffix|] == suffix;
    r
  }

  /** `initDirectory`: the full path of the file generated for `info` by `t`,
      which lies in the save directory and is named by `FileName`. */
  function InitDirectory(lay: Layout, t: Template, info: DataBaseInfo): (r: string)
    ensures StartsWith(r, lay.parent)
    ensures StartsWith(r, SavePath(lay.parent, lay.packageName, lay.sep) + lay.sep)
    ensures EndsWith(r, FileName(t, lay.hump, info.tableName))
  {
    var dir := SavePath(lay.parent, lay.packageName, lay.sep) + lay.sep;
    var name := FileName(t, lay.hump, info.tableName);
    assert (dir + name)[..|dir|] == dir;
    assert (dir + name)[..|lay.parent|] == dir[..|lay.parent|];
    dir + name
  }

  // ---------------------------------------------------------------------------
  // Which tables are generated
  // ---------------------------------------------------------------------------

  /** The infos whose table is named in `names`, in their original order. */
  function Matching(infos: seq<DataBaseInfo>, names: set<string>): (r: seq<DataBaseInfo>)
    ensures forall x :: x in r <==> x in infos && x.tableName in names
    ensures |r| <= |infos|
  {
    if |infos| == 0 then []
    else (if infos[0].tableName in names then [infos[0]] else []) + Matching(infos[1..], names)
  }

  /** Matching keeps the relative order: it distributes over concatenation. */
  lemma {:induction false} MatchingConcat(a: seq<DataBaseInfo>, b: seq<DataBaseInfo>, names: set<string>)
    ensures Matching(a + b, names) == Matching(a, names) + Matching(b, names)
    decreases |a|
  {
    if |a| > 0 {
      assert (a + b)[0] == a[0];
      assert (a + b)[1..] == a[1..] + b;
      MatchingConcat(a[1..], b, names);
    } else {
      assert a + b == b;
    }
  }

  /** Matching an already matched list changes nothing. */
  lemma {:induction false} MatchingIdempotent(infos: seq<DataBaseInfo>, names: set<string>)
    ensures Matching(Matching(infos, names), names) == Matching(infos, names)
    decreases |infos|
  {
    if |infos| > 0 {
      var head := if infos[0].tableName in names then [infos[0]] else [];
      MatchingConcat(head, Matching(infos[1..], names), names);
      MatchingIdempotent(infos[1..], names);
    }
  }

  predicate AnyMatches(infos: seq<DataBaseInfo>, names: set<string>) {
    exists i :: 0 <= i < |infos| && infos[i].tableName in names
  }

  /** The filter of `initDataBaseInfo`: a null or empty table set keeps every
      info; otherwise the matching infos in order, falling back to every info
      when none matches. */
  function FilterTables(infos: seq<DataBaseInfo>, tables: Option<set<string>>): (r: seq<DataBaseInfo>)
    ensures tables.None? || tables.value == {} ==> r == infos
    ensures tables.Some? && AnyMatches(infos, tables.value) ==> r == Matching(infos, tables.value)
    ensures tables.Some? && !AnyMatches(infos, tables.value) ==> r == infos
    ensures forall x :: x in r ==> x in infos
  {
    if tables.None? || tables.value == {} then infos
    else
      var filtered := Matching(infos, tables.value);
      if |filtered| == 0 then
        infos
      else
        assert filtered[0] in infos;
        filtered
  }

  /** The filter never empties a non-empty list, and applying it twice is the
      same as applying it once. */
  lemma FilterTablesFacts(infos: seq<DataBaseInfo>, tables: Option<set<string>>)
    ensures |infos| > 0 ==> |FilterTables(infos, tables)| > 0
    ensures FilterTables(FilterTables(infos, tables), tables) == FilterTables(infos, tables)
  {
    if tables.Some? && AnyMatches(infos, tables.value) {
      var i :| 0 <= i < |infos| && infos[i].tableName in tables.value;
      var r := Matching(infos, tables.value);
      assert infos[i] in r;
      MatchingIdempotent(infos, tables.value);
      var j :| 0 <= j < |r| && r[j] == infos[i];
      assert AnyMatches(r, tables.value);
    }
  }

  /** The configuration the table selection reads: `getTables()` (null is
      `None`) and `getQueryTableSql()`. */
  datatype Configurable = Configurable(tables: Option<set<string>>, queryTableSql: Option<string>)

  /** The table query runs when its SQL is neither null nor empty. */
  predicate QueryEnabled(sql: Option<string>) {
    sql.Some? && |sql.value| > 0
  }

  /** `configurable.getTables()` once the queried table names have been added,
      as written: the names go into the configured set when there is one, and
      into a fresh set that nothing reads when there is none. */
  function TablesAsWritten(cfg: Configurable, queried: set<string>): (r: Option<set<string>>)
    ensures cfg.tables.None? ==> r.None?
    ensures cfg.tables.Some? ==> r.Some? && cfg.tables.value <= r.value
    ensures cfg.tables.Some? && QueryEnabled(cfg.queryTableSql) ==> queried <= r.value
  {
    if cfg.tables.None? then None
    else Some(cfg.tables.value + (if QueryEnabled(cfg.queryTableSql) then queried else {}))
  }

  /** The infos `initDataBaseInfo` keeps, as written: filtered by the configured
      set re-read after the query. */
  function RetainedAsWritten(cfg: Configurable, queried: set<string>, infos: seq<DataBaseInfo>): seq<DataBaseInfo> {
    FilterTables(infos, TablesAsWritten(cfg, queried))
  }

  /** The local `tables`: the configured names and, when the query runs, the
      queried ones. */
  function SelectedTables(cfg: Configurable, queried: set<string>): (r: set<string>)
    ensures forall n :: n in r <==> (cfg.tables.Some? && n in cfg.tables.value) || (QueryEnabled(cfg.queryTableSql) && n in queried)
  {
    (if cfg.tables.Some? then cfg.tables.value else {}) + (if QueryEnabled(cfg.queryTableSql) then queried else {})
  }

  /** The infos kept when the filter reads the selected tables. */
  function Retained(cfg: Configurable, queried: set<string>, infos: seq<DataBaseInfo>): (r: seq<DataBaseInfo>)
    ensures forall x :: x in r ==> x in infos
    ensures AnyMatches(infos, SelectedTables(cfg, queried)) ==> forall x :: x in r ==> x.tableName in SelectedTables(cfg, queried)
    ensures AnyMatches(infos, SelectedTables(cfg, queried)) ==> r == Matching(infos, SelectedTables(cfg, queried))
    ensures !AnyMatches(infos, SelectedTables(cfg, queried)) ==> r == infos
  {
    FilterTables(infos, Some(SelectedTables(cfg, queried)))
  }

  /** With a configured set both readings agree. */
  lemma RetainedAsWrittenAgrees(cfg: Configurable, queried: set<string>, infos: seq<DataBaseInfo>)
    requires cfg.tables.Some?
    ensures RetainedAsWritten(cfg, queried, infos) == Retained(cfg, queried, infos)
  {
    assert TablesAsWritten(cfg, queried) == Some(SelectedTables(cfg, queried));
  }

  /** Without a configured set the queried tables are lost: one table is queried
      and two exist, yet both are kept; reading the selected tables keeps one. */
  lemma QueriedTablesIgnored(cfg: Configurable, queried: set<string>, infos: seq<DataBaseInfo>)
    requires cfg == Configurable(None, Some("show tables"))
    requires queried == {"user"}
    requires infos == [DataBaseInfo("shop", "user", None), DataBaseInfo("shop", "order", None)]
    ensures RetainedAsWritten(cfg, queried, infos) == infos
    ensures Retained(cfg, queried, infos) == [DataBaseInfo("shop", "user", None)]
  {
    assert SelectedTables(cfg, queried) == {"user"};
    assert infos[0].tableName in SelectedTables(cfg, queried);
    assert infos[1..][1..] == [];
    assert Matching(infos, {"user"}) == [infos[0]];
  }

  /** `info` with its table infos looked up through `find` (`findTableInfo`). */
  function Filled(info: DataBaseInfo, find: (string, string) -> Columns): DataBaseInfo {
    info.(tableInfos := Some(find(info.dataBaseName, info.tableName)))
  }

  /** Each info filled, keeping names and order. */
  function FillAll(infos: seq<DataBaseInfo>, find: (string, string) -> Columns): (r: seq<DataBaseInfo>)
    ensures |r| == |infos|
    ensures forall i :: 0 <= i < |r| ==>
              && r[i].dataBaseName == infos[i].dataBaseName
              && r[i].tableName == infos[i].tableName
              && r[i].tableInfos == Some(find(r[i].dataBaseName, r[i].tableName))
  {
    seq(|infos|, i requires 0 <= i < |infos| => Filled(infos[i], find))
  }

  /** `initDataBaseInfo` on the corrected selection (`Retained`, which reads the
      selected tables rather than re-reading the configured set): the retained
      infos of the database, in order, each with its table infos filled; a
      database with tables never yields an empty list. With a configured set
      this is also what the code as written keeps (`RetainedAsWrittenAgrees`). */
  function InitDataBaseInfo(cfg: Configurable, queried: set<string>, found: seq<DataBaseInfo>, find: (string, string) -> Columns): (r: seq<DataBaseInfo>)
    ensures |found| > 0 ==> |r| > 0
    ensures forall i :: 0 <= i < |r| ==> r[i].tableInfos == Some(find(r[i].dataBaseName, r[i].tableName))
    ensures forall i :: 0 <= i < |r| ==> NameOf(r[i]) in (set x | x in found :: NameOf(x))
    ensures |r| == |Retained(cfg, queried, found)|
    ensures forall i :: 0 <= i < |r| ==> NameOf(r[i]) == NameOf(Retained(cfg, queried, found)[i])
  {
    var kept := Retained(cfg, queried, found);
    FilterTablesFacts(found, Some(SelectedTables(cfg, queried)));
    var filled := FillAll(kept, find);
    assert forall i :: 0 <= i < |filled| ==> NameOf(filled[i]) == NameOf(kept[i]) && kept[i] in found;
    filled
  }

  /** The (database, table) names of an info. */
  function NameOf(info: DataBaseInfo): (string, string) {
    (info.dataBaseName, info.tableName)
  }

  // ---------------------------------------------------------------------------
  // The generation run
  // ---------------------------------------------------------------------------

  /** What `generate` does to the file system, in order: a writer opened on a
      path (appending or truncating), one template output for one table written
      through a writer, or a writer closed. Writers are numbered as opened. */
  datatype Event =
    | Opened(writer: nat, path: string, append: bool)
    | Wrote(writer: nat, template: nat, info: DataBaseInfo)
    | Closed(writer: nat)

  /** The current `file` and `out`: the path, the writer and whether it is open. */
  datatype Writer = Writer(path: string, id: nat, open: bool)

  /** The generator's state: no file yet, or the current one; the number the
      next writer gets; the events so far. */
  datatype Run = Run(cur: Option<Writer>, next: nat, trace: seq<Event>)

  /** Writing through a closed `BufferedWriter` fails with "Stream closed". */
  datatype GenError = StreamClosed(template: nat, table: string)

  /** The writers open after `trace`. */
  function OpenIds(trace: seq<Event>): set<nat>
    decreases |trace|
  {
    if |trace| == 0 then {}
    else
      var before := OpenIds(trace[..|trace| - 1]);
      match trace[|trace| - 1]
      case Opened(w, _, _) => before + {w}
      case Closed(w) => before - {w}
      case Wrote(_, _, _) => before
  }

  /** Every write goes through a writer that is open at that point. */
  predicate ValidTrace(trace: seq<Event>) {
    forall i :: 0 <= i < |trace| && trace[i].Wrote? ==> trace[i].writer in OpenIds(trace[..i])
  }

  /** The (template, table info) pairs written, in order. */
  function Writes(trace: seq<Event>): seq<(nat, DataBaseInfo)>
    decreases |trace|
  {
    if |trace| == 0 then []
    else
      var e := trace[|trace| - 1];
      Writes(trace[..|trace| - 1]) + (if e.Wrote? then [(e.template, e.info)] else [])
  }

  lemma SnocFacts(trace: seq<Event>, e: Event)
    ensures OpenIds(trace + [e]) ==
              if e.Opened? then OpenIds(trace) + {e.writer}
              else if e.Closed? then OpenIds(trace) - {e.writer}
              else OpenIds(trace)
    ensures Writes(trace + [e]) == Writes(trace) + (if e.Wrote? then [(e.template, e.info)] else [])
  {
    assert (trace + [e])[..|trace|] == trace;
  }

  lemma ValidSnoc(trace: seq<Event>, e: Event)
    requires ValidTrace(trace)
    requires e.Wrote? ==> e.writer in OpenIds(trace)
    ensures ValidTrace(trace + [e])
  {
    var t := trace + [e];
    forall i | 0 <= i < |t| && t[i].Wrote?
      ensures t[i].writer in OpenIds(t[..i])
    {
      if i < |trace| {
        assert t[..i] == trace[..i];
      } else {
        assert t[..i] == trace;
      }
    }
  }

  /** The state invariant: the trace is valid and a writer the state calls open
      is open in the trace. */
  predicate Inv(s: Run) {
    && ValidTrace(s.trace)
    && (s.cur.Some? && s.cur.value.open ==> s.cur.value.id in OpenIds(s.trace))
  }

  /** A new writer on `path`. */
  function Open(s: Run, path: string, append: bool): Run {
    Run(Some(Writer(path, s.next, true)), s.next + 1, s.trace + [Opened(s.next, path, append)])
  }

  /** The template output for `info` through the current writer. */
  function Emit(s: Run, t: Template, info: DataBaseInfo): Run
    requires s.cur.Some?
  {
    s.(trace := s.trace + [Wrote(s.cur.value.id, t.id, info)])
  }

  /** One iteration of the inner loop, as written: a new file unless the
      template shares one and a file exists; then the output goes through `out`,
      which fails when `out` was closed. */
  function StepAsWritten(lay: Layout, s: Run, t: Template, info: DataBaseInfo): (r: Result<Run, GenError>)
    ensures r.Err? <==> s.cur.Some? && t.sameFile && !s.cur.value.open
  {
    if s.cur.None? || !t.sameFile then Ok(Emit(Open(s, InitDirectory(lay, t, info), t.sameFile), t, info))
    else if !s.cur.value.open then Err(StreamClosed(t.id, info.tableName))
    else Ok(Emit(s, t, info))
  }

  /** One iteration of the inner loop with a closed shared file reopened for
      appending. */
  function Step(lay: Layout, s: Run, t: Template, info: DataBaseInfo): Run {
    if s.cur.None? || !t.sameFile then Emit(Open(s, InitDirectory(lay, t, info), t.sameFile), t, info)
    else if !s.cur.value.open then Emit(Open(s, s.cur.value.path, true), t, info)
    else Emit(s, t, info)
  }

  /** A step keeps the invariant and writes exactly `info` for `t`. A template
      that does not share files (or the first file of a run) gets a new writer on
      its own path; a sharing template stays on the current file. */
  lemma StepFacts(lay: Layout, s: Run, t: Template, info: DataBaseInfo)
    requires Inv(s)
    ensures var r := Step(lay, s, t, info);
      && Inv(r) && r.cur.Some? && r.cur.value.open
      && Writes(r.trace) == Writes(s.trace) + [(t.id, info)]
      && (s.cur.None? || !t.sameFile ==> r.cur.value.path == InitDirectory(lay, t, info) && r.cur.value.id == s.next)
      && (s.cur.Some? && t.sameFile ==> r.cur.value.path == s.cur.value.path)
  {
    var o := if s.cur.None? || !t.sameFile then Open(s, InitDirectory(lay, t, info), t.sameFile)
             else if !s.cur.value.open then Open(s, s.cur.value.path, true)
             else s;
    if o != s {
      SnocFacts(s.trace, o.trace[|o.trace| - 1]);
      assert o.trace == s.trace + [o.trace[|o.trace| - 1]];
      ValidSnoc(s.trace, o.trace[|o.trace| - 1]);
    }
    assert Inv(o) && o.cur.Some? && o.cur.value.open && Writes(o.trace) == Writes(s.trace);
    var e := Wrote(o.cur.value.id, t.id, info);
    SnocFacts(o.trace, e);
    ValidSnoc(o.trace, e);
    assert Step(lay, s, t, info) == o.(trace := o.trace + [e]);
  }

  /** The end of a template: `out` is closed unless the template shares files
      (closing a closed writer does nothing). */
  function Finish(s: Run, t: Template): Run {
    if s.cur.Some? && !t.sameFile && s.cur.value.open then
      Run(Some(s.cur.value.(open := false)), s.next, s.trace + [Closed(s.cur.value.id)])
    else
      s
  }

  lemma FinishFacts(s: Run, t: Template)
    requires Inv(s)
    ensures Inv(Finish(s, t)) && Writes(Finish(s, t).trace) == Writes(s.trace)
    ensures s.cur.Some? && !t.sameFile ==> Finish(s, t).cur.Some? && !Finish(s, t).cur.value.open
    ensures t.sameFile ==> Finish(s, t) == s
  {
    if s.cur.Some? && !t.sameFile && s.cur.value.open {
      SnocFacts(s.trace, Closed(s.cur.value.id));
      ValidSnoc(s.trace, Closed(s.cur.value.id));
    }
  }

  function InfosAsWritten(lay: Layout, s: Run, t: Template, infos: seq<DataBaseInfo>): Result<Run, GenError>
    decreases |infos|
  {
    if |infos| == 0 then Ok(s)
    else match StepAsWritten(lay, s, t, infos[0])
      case Err(e) => Err(e)
      case Ok(s') => InfosAsWritten(lay, s', t, infos[1..])
  }

  /** The template loop, as written. */
  function TemplatesAsWritten(lay: Layout, s: Run, ts: seq<Template>, infos: seq<DataBaseInfo>): Result<Run, GenError>
    decreases |ts|
  {
    if |ts| == 0 then Ok(s)
    else match InfosAsWritten(lay, s, ts[0], infos)
      case Err(e) => Err(e)
      case Ok(s') => TemplatesAsWritten(lay, Finish(s', ts[0]), ts[1..], infos)
  }

  /** The pairs one template writes. */
  function Pairs(id: nat, infos: seq<DataBaseInfo>): seq<(nat, DataBaseInfo)> {
    seq(|infos|, i requires 0 <= i < |infos| => (id, infos[i]))
  }

  lemma PairsCons(id: nat, infos: seq<DataBaseInfo>)
    requires |infos| > 0
    ensures Pairs(id, infos) == [(id, infos[0])] + Pairs(id, infos[1..])
  {
  }

  /** Writing one more filled table extends the written pairs by that table. */
  lemma PairsFillSnoc(id: nat, infos: seq<DataBaseInfo>, k: nat, find: (string, string) -> Columns)
    requires k < |infos|
    ensures Pairs(id, FillAll(infos[..k + 1], find)) == Pairs(id, FillAll(infos[..k], find)) + [(id, Filled(infos[k], find))]
  {
    var a, b := FillAll(infos[..k + 1], find), FillAll(infos[..k], find);
    assert a == b + [Filled(infos[k], find)];
  }

  /** Every template in turn writes every table in turn. */
  function Expected(ts: seq<Template>, infos: seq<DataBaseInfo>): seq<(nat, DataBaseInfo)>
    decreases |ts|
  {
    if |ts| == 0 then [] else Pairs(ts[0].id, infos) + Expected(ts[1..], infos)
  }

  /** The inner loop with closed shared files reopened. */
  function Infos(lay: Layout, s: Run, t: Template, infos: seq<DataBaseInfo>): Run
    decreases |infos|
  {
    if |infos| == 0 then s else Infos(lay, Step(lay, s, t, infos[0]), t, infos[1..])
  }

  lemma {:induction false} InfosFacts(lay: Layout, s: Run, t: Template, infos: seq<DataBaseInfo>)
    requires Inv(s)
    ensures Inv(Infos(lay, s, t, infos))
    ensures Writes(Infos(lay, s, t, infos).trace) == Writes(s.trace) + Pairs(t.id, infos)
    decreases |infos|
  {
    if |infos| > 0 {
      StepFacts(lay, s, t, infos[0]);
      InfosFacts(lay, Step(lay, s, t, infos[0]), t, infos[1..]);
      PairsCons(t.id, infos);
    }
  }

  /** The template loop with closed shared files reopened. */
  function Templates(lay: Layout, s: Run, ts: seq<Template>, infos: seq<DataBaseInfo>): Run
    decreases |ts|
  {
    if |ts| == 0 then s else Templates(lay, Finish(Infos(lay, s, ts[0], infos), ts[0]), ts[1..], infos)
  }

  lemma {:induction false} TemplatesFacts(lay: Layout, s: Run, ts: seq<Template>, infos: seq<DataBaseInfo>)
    requires Inv(s)
    ensures Inv(Templates(lay, s, ts, infos))
    ensures Writes(Templates(lay, s, ts, infos).trace) == Writes(s.trace) + Expected(ts, infos)
    decreases |ts|
  {
    if |ts| > 0 {
      var mid := Infos(lay, s, ts[0], infos);
      InfosFacts(lay, s, ts[0], infos);
      FinishFacts(mid, ts[0]);
      TemplatesFacts(lay, Finish(mid, ts[0]), ts[1..], infos);
    }
  }

  /** The corrected `generate`, which reopens a closed shared file, over the
      tables it is given (`InitDataBaseInfo` fills them from the corrected
      selection): every template writes every table, templates in order and
      tables in order within each, and every write goes through an open
      writer. */
  function Generate(lay: Layout, ts: seq<Template>, infos: seq<DataBaseInfo>): (r: seq<Event>)
    ensures ValidTrace(r)
    ensures Writes(r) == Expected(ts, infos)
  {
    TemplatesFacts(lay, Run(None, 0, []), ts, infos);
    Templates(lay, Run(None, 0, []), ts, infos).trace
  }

  /** `generate` as written: when it succeeds it does exactly what `Generate`
      does. */
  function GenerateAsWritten(lay: Layout, ts: seq<Template>, infos: seq<DataBaseInfo>): (r: Result<seq<Event>, GenError>)
    ensures r.Ok? ==> r.value == Generate(lay, ts, infos)
  {
    TemplatesAgree(lay, Run(None, 0, []), ts, infos);
    match TemplatesAsWritten(lay, Run(None, 0, []), ts, infos)
    case Err(e) => Err(e)
    case Ok(s) => Ok(s.trace)
  }

  lemma {:induction false} InfosAgree(lay: Layout, s: Run, t: Template, infos: seq<DataBaseInfo>)
    ensures InfosAsWritten(lay, s, t, infos).Ok? ==> InfosAsWritten(lay, s, t, infos).value == Infos(lay, s, t, infos)
    decreases |infos|
  {
    if |infos| > 0 && StepAsWritten(lay, s, t, infos[0]).Ok? {
      assert StepAsWritten(lay, s, t, infos[0]).value == Step(lay, s, t, infos[0]);
      InfosAgree(lay, Step(lay, s, t, infos[0]), t, infos[1..]);
    }
  }

  lemma {:induction false} TemplatesAgree(lay: Layout, s: Run, ts: seq<Template>, infos: seq<DataBaseInfo>)
    ensures TemplatesAsWritten(lay, s, ts, infos).Ok? ==> TemplatesAsWritten(lay, s, ts, infos).value == Templates(lay, s, ts, infos)
    decreases |ts|
  {
    if |ts| > 0 {
      InfosAgree(lay, s, ts[0], infos);
      if InfosAsWritten(lay, s, ts[0], infos).Ok? {
        TemplatesAgree(lay, Finish(Infos(lay, s, ts[0], infos), ts[0]), ts[1..], infos);
      }
    }
  }

  /** A file-sharing template after one that does not share files writes
      through the writer the first template closed. */
  lemma SharedFileAfterClose(lay: Layout, info: DataBaseInfo)
    ensures GenerateAsWritten(lay, [Template(0, false, None, None), Template(1, true, None, None)], [info])
              == Err(StreamClosed(1, info.tableName))
  {
    var t0, t1 := Template(0, false, None, None), Template(1, true, None, None);
    var s0 := Run(None, 0, []);
    var s1 := Step(lay, s0, t0, info);
    assert InfosAsWritten(lay, s0, t0, [info]) == Ok(s1) by {
      assert [info][1..] == [];
    }
    var s2 := Finish(s1, t0);
    assert !s2.cur.value.open;
    assert InfosAsWritten(lay, s2, t1, [info]) == Err(StreamClosed(1, info.tableName));
    assert [t0, t1][1..] == [t1];
  }
}

=== FILE: mapper_template.dfy ===
/** The MyBatis mapper-interface template (`GenerateMapperInterfaceTemplate`):
    the file suffix it contributes and what each of its sections hands to the
    source writer. Formats are kept as pieces: literal text, and holes that the
    writer fills with the arguments in order (a hole is `{}` in the Java
    format string). */
module MapperTemplate {
  import opened Common
  import G = GenerateSources

  datatype Piece = Lit(text: string) | Hole

  type Format = seq<Piece>

  /** The number of holes of a format. */
  function Holes(f: Format): nat {
    if |f| == 0 then 0 else (if f[0].Hole? then 1 else 0) + Holes(f[1..])
  }

  lemma {:induction false} HolesConcat(a: Format, b: Format)
    ensures Holes(a + b) == Holes(a) + Holes(b)
    decreases |a|
  {
    if |a| > 0 {
      assert (a + b)[1..] == a[1..] + b;
      HolesConcat(a[1..], b);
    } else {
      assert a + b == b;
    }
  }

  /** What a section hands to the writer:
      - the base template's import of the entity class;
      - `import <qualifier>.<simpleName>;`, with an empty line after it when
        `blankAfter`;
      - an annotation line `@<simpleName>`;
      - a header written without a line end;
      - a method declaration `\t<result> <name>(<params>) throws SQLException;`
        followed by an empty line, its result and parameter list drawn from
        the fixed shapes below. */
  datatype Out =
    | ImportEntity(table: string, basePackage: string)
    | Import(qualifier: string, simpleName: string, blankAfter: bool)
    | Annotation(annotation: string)
    | Header(fmt: Format, args: seq<string>)
    | Declaration(result: Returns, declares: MapperMethod, params: Params, args: seq<string>)

  /** Every hole of an output gets exactly one argument. */
  predicate WellFormed(o: Out) {
    match o
    case Header(fmt, args) => Holes(fmt) == |args|
    case Declaration(result, _, params, args) => Holes(ReturnFormat(result)) + Holes(ParamFormat(params)) == |args|
    case _ => true
  }

  /** `fileSuffix()`. */
  const FILE_SUFFIX := "Mapper"

  /** With no type suffix of its own the mapper template names a table's file
      `<UpperCamelTable>Mapper.java`. */
  lemma MapperFileName(t: G.Template, hump: G.Hump, table: string)
    requires t.fileSuffix == Some(FILE_SUFFIX) && t.fileTypeSuffix.None?
    ensures G.FileName(t, hump, table) == hump(table, true) + "Mapper.java"
  {
    assert FILE_SUFFIX + ".java" == "Mapper.java";
  }

  /** `generateImport`: the entity import of the base template, then MyBatis's
      `Param`, Spring's `Repository` and JDBC's `SQLException`, in that order,
      with an empty line after the last two; no class is imported twice. */
  function GenerateImport(info: G.DataBaseInfo, basePackage: string): (r: seq<Out>)
    ensures |r| == 4 && r[0] == ImportEntity(info.tableName, basePackage)
    ensures forall i :: 1 <= i < |r| ==> r[i].Import?
    ensures r[1].qualifier == "org.apache.ibatis.annotations" && r[1].simpleName == "Param" && !r[1].blankAfter
    ensures r[2].qualifier == "org.springframework.stereotype" && r[2].simpleName == "Repository" && r[2].blankAfter
    ensures r[3].qualifier == "java.sql" && r[3].simpleName == "SQLException" && r[3].blankAfter
    ensures forall i, j :: 1 <= i < j < |r| ==> r[i].simpleName != r[j].simpleName
  {
    [ ImportEntity(info.tableName, basePackage),
      Import("org.apache.ibatis.annotations", "Param", false),
      Import("org.springframework.stereotype", "Repository", true),
      Import("java.sql", "SQLException", true) ]
  }

  /** `generateClassDefinition`: `public interface {}` with the template's class
      name filling its only hole. */
  function GenerateClassDefinition(className: string): (r: seq<Out>)
    ensures |r| == 1 && r[0].Header? && WellFormed(r[0]) && r[0].args == [className]
    ensures |r[0].fmt| > 0 && r[0].fmt[0] == Lit("public interface ")
  {
    [Header([Lit("public interface "), Hole], [className])]
  }

  /** `generateClassAnnotation`: the single line `@Repository`. */
  function GenerateClassAnnotation(): (r: seq<Out>)
    ensures |r| == 1 && r[0] == Annotation("Repository")
  {
    [Annotation("Repository")]
  }

  /** The class annotation is a class the import section brings in. */
  lemma AnnotationImported(info: G.DataBaseInfo, basePackage: string)
    ensures exists i :: 0 <= i < |GenerateImport(info, basePackage)|
              && GenerateImport(info, basePackage)[i].Import?
              && GenerateImport(info, basePackage)[i].simpleName == GenerateClassAnnotation()[0].annotation
  {
    assert GenerateImport(info, basePackage)[2].simpleName == "Repository";
  }

  /** The simple class names an output refers to without qualifying them:
      an annotation names its class; a declaration names `SQLException` in its
      `throws` clause, `List` when it returns a list, and `Param` when a
      parameter carries `@Param`. */
  function Uses(o: Out): set<string> {
    match o
    case Annotation(a) => {a}
    case Declaration(result, _, params, _) =>
      {"SQLException"}
      + (if result == EntityList then {"List"} else {})
      + (if params == NoParams then {} else {"Param"})
    case _ => {}
  }

  /** The simple names the outputs `os` import. */
  function Imported(os: seq<Out>): set<string> {
    if |os| == 0 then {}
    else (if os[0].Import? then {os[0].simpleName} else {}) + Imported(os[1..])
  }

  /** The simple names the outputs `os` refer to. */
  function UsedBy(os: seq<Out>): set<string> {
    if |os| == 0 then {} else Uses(os[0]) + UsedBy(os[1..])
  }

  lemma {:induction false} UsedByConcat(a: seq<Out>, b: seq<Out>)
    ensures UsedBy(a + b) == UsedBy(a) + UsedBy(b)
    decreases |a|
  {
    if |a| > 0 {
      assert (a + b)[1..] == a[1..] + b;
      UsedByConcat(a[1..], b);
    } else {
      assert a + b == b;
    }
  }

  /** The outputs refer to what each of them refers to. */
  lemma {:induction false} UsesWithin(os: seq<Out>, i: nat)
    requires i < |os|
    ensures Uses(os[i]) <= UsedBy(os)
    decreases i
  {
    if i > 0 {
      UsesWithin(os[1..], i - 1);
    }
  }

  /** The outputs refer to nothing none of them refers to. */
  lemma {:induction false} UsedByBounded(os: seq<Out>, names: set<string>)
    requires forall i :: 0 <= i < |os| ==> Uses(os[i]) <= names
    ensures UsedBy(os) <= names
    decreases |os|
  {
    if |os| > 0 {
      assert forall i :: 0 <= i < |os[1..]| ==> os[1..][i] == os[i + 1];
      UsedByBounded(os[1..], names);
    }
  }

  /** The classes the declarations refer to. */
  const DECLARATION_USES: set<string> := {"SQLException", "List", "Param"}

  /** A declaration names only `SQLException`, `List` and `Param`; `findBy`
      names all three. */
  lemma DeclarationUses(m: MapperMethod, cls: string, v: string)
    ensures Uses(DeclarationOf(m, cls, v)) <= DECLARATION_USES
    ensures m == FindBy ==> Uses(DeclarationOf(m, cls, v)) == DECLARATION_USES
  {
  }

  /** The declaration at position `i` names only `SQLException`, `List` and
      `Param`. */
  lemma DeclarationAtUses(cls: string, v: string, i: nat)
    requires i < |METHODS|
    ensures Uses(Declarations(cls, v)[i]) <= DECLARATION_USES
  {
    DeclarationUses(METHODS[i], cls, v);
  }

  /** The declarations refer to `SQLException`, `List` and `Param`. */
  lemma DeclarationsUse(cls: string, v: string)
    ensures UsedBy(Declarations(cls, v)) == DECLARATION_USES
  {
    var d := Declarations(cls, v);
    forall i | 0 <= i < |d| ensures Uses(d[i]) <= DECLARATION_USES {
      DeclarationAtUses(cls, v, i);
    }
    UsedByBounded(d, DECLARATION_USES);
    UsesWithin(d, 1);
    FindByUses(cls, v);
  }

  /** `findBy`, the second declaration, refers to all three. */
  lemma FindByUses(cls: string, v: string)
    ensures Uses(Declarations(cls, v)[1]) == DECLARATION_USES
  {
    assert Declarations(cls, v)[1] == DeclarationOf(FindBy, cls, v);
    DeclarationUses(FindBy, cls, v);
  }

  /** The import section imports `Param`, `Repository` and `SQLException`. */
  lemma ImportedNames(info: G.DataBaseInfo, basePackage: string)
    ensures Imported(GenerateImport(info, basePackage)) == {"Param", "Repository", "SQLException"}
  {
    var imports := GenerateImport(info, basePackage);
    assert Imported(imports[3..]) == {"SQLException"} by { assert imports[3..][1..] == []; }
    assert Imported(imports[2..]) == {"Repository", "SQLException"} by { assert imports[2..][1..] == imports[3..]; }
    assert Imported(imports[1..]) == {"Param", "Repository", "SQLException"} by { assert imports[1..][1..] == imports[2..]; }
  }

  /** The import section brings in exactly the classes the annotation and the
      declarations refer to, except `List`: every import is used, and every
      used name other than `List` is imported. */
  lemma ImportsMatchUses(info: G.DataBaseInfo, basePackage: string, cls: string, v: string)
    ensures forall n :: n in Imported(GenerateImport(info, basePackage)) <==>
              n in UsedBy(GenerateClassAnnotation() + Declarations(cls, v)) && n != "List"
    ensures "List" in UsedBy(Declarations(cls, v)) && "List" !in Imported(GenerateImport(info, basePackage))
  {
    ImportedNames(info, basePackage);
    UsedByConcat(GenerateClassAnnotation(), Declarations(cls, v));
    DeclarationsUse(cls, v);
    AnnotationUses();
    assert UsedBy(GenerateClassAnnotation() + Declarations(cls, v)) == {"Repository", "SQLException", "List", "Param"};
  }

  /** The class annotation refers to `Repository`. */
  lemma AnnotationUses()
    ensures UsedBy(GenerateClassAnnotation()) == {"Repository"}
  {
    assert GenerateClassAnnotation()[1..] == [];
  }

  /** `generateTableInfo` emits nothing. */
  function GenerateTableInfo(): (r: seq<Out>)
    ensures |r| == 0
  {
    []
  }

  /** The entity's class name: upper-camel table name and entity suffix. */
  function EntityClassName(hump: G.Hump, table: string, entitySuffix: string): (r: string)
    ensures StartsWith(r, hump(table, true)) && EndsWith(r, entitySuffix)
  {
    assert (hump(table, true) + entitySuffix)[..|hump(table, true)|] == hump(table, true);
    hump(table, true) + entitySuffix
  }

  /** The entity's variable name: lower-camel table name and entity suffix. */
  function EntityVarName(hump: G.Hump, table: string, entitySuffix: string): (r: string)
    ensures StartsWith(r, hump(table, false)) && EndsWith(r, entitySuffix)
  {
    assert (hump(table, false) + entitySuffix)[..|hump(table, false)|] == hump(table, false);
    hump(table, false) + entitySuffix
  }

  /** The methods of the generated interface. */
  datatype MapperMethod = FindById | FindBy | FindLike | FindAll | Insert | UpdateById | DeleteById

  /** The declaration order. */
  const METHODS: seq<MapperMethod> := [FindById, FindBy, FindLike, FindAll, Insert, UpdateById, DeleteById]

  /** The result types a declaration can have: the entity, a list of it, or
      nothing. */
  datatype Returns = Entity | EntityList | Void

  function ReturnFormat(k: Returns): Format {
    match k
    case Entity => [Hole]
    case EntityList => [Lit("List<"), Hole, Lit(">")]
    case Void => [Lit("void")]
  }

  /** The parameter lists a declaration can have: an id, a field and a value,
      none, the entity, or an id and the entity. The entity parameter is
      `@Param("{}") {} {}`, named by the entity's variable name. */
  datatype Params = ById | ByFieldValue | NoParams | EntityParam | ByIdAndEntity

  function ParamFormat(k: Params): Format {
    match k
    case ById => [Lit("@Param(\"id\") String id")]
    case ByFieldValue => [Lit("@Param(\"field\") String field, @Param(\"value\") Object value")]
    case NoParams => []
    case EntityParam => [Lit("@Param(\""), Hole, Lit("\") "), Hole, Lit(" "), Hole]
    case ByIdAndEntity => [Lit("@Param(\"id\") String id, @Param(\""), Hole, Lit("\") "), Hole, Lit(" "), Hole]
  }

  /** The holes of a format, counted from the back one piece at a time. */
  lemma HolesFromBack(f: Format, k: nat)
    requires k < |f|
    ensures Holes(f[k..]) == (if f[k].Hole? then 1 else 0) + Holes(f[k + 1..])
  {
    assert f[k..][1..] == f[k + 1..];
  }

  /** Results hold one hole when they name the entity. */
  lemma ReturnHoles(k: Returns)
    ensures Holes(ReturnFormat(k)) == if k == Void then 0 else 1
  {
    var f := ReturnFormat(k);
    if k == EntityList {
      HolesFromBack(f, 2);
      HolesFromBack(f, 1);
      HolesFromBack(f, 0);
    } else {
      HolesFromBack(f, 0);
    }
  }

  /** Parameter lists hold three holes when they take the entity and none
      otherwise. */
  lemma ParamHoles(p: Params)
    ensures Holes(ParamFormat(p)) == if p == EntityParam || p == ByIdAndEntity then 3 else 0
  {
    var f := ParamFormat(p);
    if p == EntityParam || p == ByIdAndEntity {
      HolesFromBack(f, 5);
      HolesFromBack(f, 4);
      HolesFromBack(f, 3);
      HolesFromBack(f, 2);
      HolesFromBack(f, 1);
      HolesFromBack(f, 0);
    } else if p != NoParams {
      HolesFromBack(f, 0);
    }
  }

  /** The declaration of `m` for an entity with class name `cls` and variable
      name `v`. */
  function DeclarationOf(m: MapperMethod, cls: string, v: string): (r: Out)
    ensures r.Declaration? && r.declares == m && WellFormed(r)
    ensures m in {FindById, FindBy, FindLike, FindAll} ==> r.args == [cls]
    ensures m in {Insert, UpdateById} ==> r.args == [v, cls, v]
    ensures m == DeleteById ==> r.args == []
    ensures forall a :: a in r.args ==> a == cls || a == v
  {
    var r := match m
      case FindById => Declaration(Entity, m, ById, [cls])
      case FindBy => Declaration(EntityList, m, ByFieldValue, [cls])
      case FindLike => Declaration(EntityList, m, ByFieldValue, [cls])
      case FindAll => Declaration(EntityList, m, NoParams, [cls])
      case Insert => Declaration(Void, m, EntityParam, [v, cls, v])
      case UpdateById => Declaration(Void, m, ByIdAndEntity, [v, cls, v])
      case DeleteById => Declaration(Void, m, ById, []);
    ReturnHoles(r.result);
    ParamHoles(r.params);
    r
  }

  /** The seven declarations for an entity with class name `cls` and variable
      name `v`: findById, findBy, findLike, findAll, insert, updateById and
      deleteById in that order. Every hole gets exactly one argument, and the
      arguments are only `cls` and `v`: the four finders return the entity class
      (the last three a list of it), insert and updateById take the entity as a
      parameter named `v`, deleteById has no hole. */
  function Declarations(cls: string, v: string): (r: seq<Out>)
    ensures |r| == |METHODS|
    ensures forall i :: 0 <= i < |r| ==> r[i].Declaration? && r[i].declares == METHODS[i] && WellFormed(r[i])
    ensures forall i :: 0 <= i < 4 ==> r[i].args == [cls]
    ensures r[4].args == [v, cls, v] && r[5].args == [v, cls, v]
    ensures r[6].args == []
    ensures forall i, a :: 0 <= i < |r| && a in r[i].args ==> a == cls || a == v
  {
    seq(|METHODS|, i requires 0 <= i < |METHODS| => DeclarationOf(METHODS[i], cls, v))
  }

  /** `generateMapperInterfaces`: the declarations for the entity of `table`,
      whose class and variable names are the only arguments. */
  function GenerateMapperInterfaces(hump: G.Hump, table: string, entitySuffix: string): (r: seq<Out>)
    ensures |r| == 7 && forall i :: 0 <= i < |r| ==> r[i].Declaration? && r[i].declares == METHODS[i] && WellFormed(r[i])
    ensures forall i, a :: 0 <= i < |r| && a in r[i].args ==>
              a == EntityClassName(hump, table, entitySuffix) || a == EntityVarName(hump, table, entitySuffix)
  {
    Declarations(EntityClassName(hump, table, entitySuffix), EntityVarName(hump, table, entitySuffix))
  }
}

=== FILE: method_validation.dfy ===
/** `MethodValidationBeanPostProcessor`: a bean whose class declares a
    validatable method is replaced by a proxy carrying the validation
    interceptor; every other bean is left alone. */
module MethodValidation {
  import opened Common
  import opened Beans

  /** A parameter asks for validation: `@Valid`, or an annotation meta-annotated
      with `@Constraint`. */
  predicate ValidatableParam(p: Param) {
    Valid in p.annotations || Constraint in p.annotations
  }

  /** A method asks for validation, on itself or on one of its parameters. */
  predicate Validatable(m: MethodMeta) {
    || Valid in m.annotations
    || Constraint in m.annotations
    || exists i :: 0 <= i < |m.params| && ValidatableParam(m.params[i])
  }

  /** The `anyMatch` over the parameters of one method. */
  method AnyParamValidatable(ps: seq<Param>) returns (r: bool)
    ensures r <==> exists i :: 0 <= i < |ps| && ValidatableParam(ps[i])
  {
    for i := 0 to |ps|
      invariant forall j :: 0 <= j < i ==> !ValidatableParam(ps[j])
    {
      if ValidatableParam(ps[i]) {
        return true;
      }
    }
    return false;
  }

  /** `canValidate`: scans the methods of the source class in order and answers
      true at the first validatable one. */
  method CanValidate(cls: ClassMeta) returns (r: bool)
    ensures r <==> exists i :: 0 <= i < |cls.methods| && Validatable(cls.methods[i])
  {
    for i := 0 to |cls.methods|
      invariant forall j :: 0 <= j < i ==> !Validatable(cls.methods[j])
    {
      var m := cls.methods[i];
      if Valid in m.annotations || Constraint in m.annotations {
        return true;
      }
      var anyParam := AnyParamValidatable(m.params);
      if anyParam {
        return true;
      }
    }
    return false;
  }

  /** The proxy `createProxy` builds around a bean, with the validation
      interceptor attached. */
  datatype Proxy = ValidationProxy(target: nat, beanName: string)

  /** `postProcessAfterInstantiation`. `source` is the bean's class with any
      proxy unwrapped. `None` (the source's `null`) keeps the bean; otherwise the
      bean is replaced by a validation proxy of itself. */
  method PostProcessAfterInstantiation(bean: nat, beanName: string, source: ClassMeta)
    returns (r: Option<Proxy>)
    ensures r.None? <==> forall i :: 0 <= i < |source.methods| ==> !Validatable(source.methods[i])
    ensures r.Some? ==> r.value == ValidationProxy(bean, beanName)
  {
    var can := CanValidate(source);
    if !can {
      return None;
    }
    return Some(ValidationProxy(bean, beanName));
  }
}

=== FILE: mybatis_generate.dfy ===
/** The source generator of `mybatis-demo` (`GenerateSources`): one template
    per run, a file that outlives the run, and a fresh writer for every table.
    Paths, table selection and the event vocabulary are those of
    `GenerateSources`. */
module MybatisGenerate {
  import opened Common
  import G = GenerateSources

  /** What `write` reads from the configuration: `getSameFile()`,
      `getFileSuffix()` and `getFileTypeSuffix()` (null is `None`) and the
      identity of `getGenerateTemplate()`. */
  datatype Settings = Settings(sameFile: bool, fileSuffix: Option<string>, fileTypeSuffix: Option<string>, template: nat)

  /** A possibly null string as Java's `+` renders it. */
  function Text(o: Option<string>): (r: string)
    ensures o.None? ==> r == "null"
    ensures o.Some? ==> r == o.value
  {
    if o.Some? then o.value else "null"
  }

  /** The file name: upper-camel table name, suffix and type suffix with no
      defaults, so a null suffix shows up as the text "null". */
  function FileName(st: Settings, hump: G.Hump, table: string): (r: string)
    ensures StartsWith(r, hump(table, true))
    ensures EndsWith(r, Text(st.fileTypeSuffix))
    ensures st.fileTypeSuffix.None? ==> EndsWith(r, "null")
    ensures |r| == |hump(table, true)| + |Text(st.fileSuffix)| + |Text(st.fileTypeSuffix)|
    ensures r[|hump(table, true)|..|r| - |Text(st.fileTypeSuffix)|] == Text(st.fileSuffix)
  {
    var name := hump(table, true);
    var r := name + Text(st.fileSuffix) + Text(st.fileTypeSuffix);
    assert r[..|name|] == name;
    assert r[|name|..|r| - |Text(st.fileTypeSuffix)|] == Text(st.fileSuffix);
    r
  }

  /** `initDirectory`: the save directory of `GenerateSources.SavePath`, a
      separator, and the file name. */
  function InitDirectory(lay: G.Layout, st: Settings, info: G.DataBaseInfo): (r: string)
    ensures StartsWith(r, lay.parent)
    ensures StartsWith(r, G.SavePath(lay.parent, lay.packageName, lay.sep) + lay.sep)
    ensures EndsWith(r, FileName(st, lay.hump, info.tableName))
  {
    var dir := G.SavePath(lay.parent, lay.packageName, lay.sep) + lay.sep;
    var name := FileName(st, lay.hump, info.tableName);
    assert (dir + name)[..|dir|] == dir;
    assert (dir + name)[..|lay.parent|] == dir[..|lay.parent|];
    dir + name
  }

  /** The generator object: the `file` field, which survives between runs, the
      number the next writer gets, and the events so far. */
  datatype State = State(file: Option<string>, next: nat, trace: seq<G.Event>)

  /** `write`: a new file for `info` when there is none or files are not shared;
      then a new writer on the current file, appending exactly when files are
      shared, through which the template output goes. */
  function Write(lay: G.Layout, st: Settings, s: State, info: G.DataBaseInfo): (r: State)
    ensures r.file.Some? && r.next == s.next + 1
    ensures s.file.None? || !st.sameFile ==> r.file == Some(InitDirectory(lay, st, info))
    ensures s.file.Some? && st.sameFile ==> r.file == s.file
    ensures r.trace == s.trace + [G.Opened(s.next, r.file.value, st.sameFile), G.Wrote(s.next, st.template, info)]
  {
    var file := if s.file.None? || !st.sameFile then InitDirectory(lay, st, info) else s.file.value;
    State(Some(file), s.next + 1, s.trace + [G.Opened(s.next, file, st.sameFile), G.Wrote(s.next, st.template, info)])
  }

  /** The file the `i`-th table is written to in a run over `infos` starting
      from `file`: its own file when files are not shared; otherwise the file
      left by an earlier run or, failing that, the first table's file. */
  function Target(lay: G.Layout, st: Settings, file: Option<string>, infos: seq<G.DataBaseInfo>, i: nat): string
    requires i < |infos|
  {
    if !st.sameFile then InitDirectory(lay, st, infos[i])
    else if file.Some? then file.value
    else InitDirectory(lay, st, infos[0])
  }

  /** `handleDataBaseInfo` as written: the names the query returns go into the
      local set, but the filter re-reads `getTables()`. With no configured set
      every table is kept, queried or not; with one, the tables matching it
      (the queried names included, since they were added to that very set),
      or every table when none matches. */
  function HandleDataBaseInfo(cfg: G.Configurable, queried: set<string>, found: seq<G.DataBaseInfo>): (r: seq<G.DataBaseInfo>)
    ensures cfg.tables.None? ==> r == found
    ensures cfg.tables.Some? && G.AnyMatches(found, G.SelectedTables(cfg, queried)) ==>
              r == G.Matching(found, G.SelectedTables(cfg, queried))
    ensures cfg.tables.Some? && !G.AnyMatches(found, G.SelectedTables(cfg, queried)) ==> r == found
  {
    var r := G.RetainedAsWritten(cfg, queried, found);
    if cfg.tables.Some? then
      G.RetainedAsWrittenAgrees(cfg, queried, found);
      r
    else r
  }

  /** The selection `handleDataBaseInfo` evidently intends: the configured and
      the queried names together, as `GenerateSources.Retained` reads them. The
      tables matching those names, in order, or every table when none matches;
      never empty when the database has tables. */
  function SelectTables(cfg: G.Configurable, queried: set<string>, found: seq<G.DataBaseInfo>): (r: seq<G.DataBaseInfo>)
    ensures G.AnyMatches(found, G.SelectedTables(cfg, queried)) ==> r == G.Matching(found, G.SelectedTables(cfg, queried))
    ensures !G.AnyMatches(found, G.SelectedTables(cfg, queried)) ==> r == found
    ensures |found| > 0 ==> |r| > 0
  {
    G.FilterTablesFacts(found, Some(G.SelectedTables(cfg, queried)));
    G.Retained(cfg, queried, found)
  }

  /** As written, with no configured set and a query returning `user`, both
      tables of a two-table database are kept; the intended selection keeps
      only `user`. */
  lemma HandleIgnoresQueriedTables(cfg: G.Configurable, queried: set<string>, found: seq<G.DataBaseInfo>)
    requires cfg == G.Configurable(None, Some("show tables"))
    requires queried == {"user"}
    requires found == [G.DataBaseInfo("shop", "user", None), G.DataBaseInfo("shop", "order", None)]
    ensures HandleDataBaseInfo(cfg, queried, found) == found
    ensures SelectTables(cfg, queried, found) == [G.DataBaseInfo("shop", "user", None)]
  {
    G.QueriedTablesIgnored(cfg, queried, found);
  }

  /** A write directly after opening its writer keeps the trace valid. */
  lemma WriteValid(s: State, r: State, w: nat, path: string, append: bool, e: G.Event)
    requires G.ValidTrace(s.trace)
    requires e.Wrote? && e.writer == w
    requires r.trace == s.trace + [G.Opened(w, path, append), e]
    ensures G.ValidTrace(r.trace)
    ensures G.Writes(r.trace) == G.Writes(s.trace) + [(e.template, e.info)]
  {
    var o := G.Opened(w, path, append);
    G.SnocFacts(s.trace, o);
    G.ValidSnoc(s.trace, o);
    G.SnocFacts(s.trace + [o], e);
    G.ValidSnoc(s.trace + [o], e);
    assert s.trace + [o] + [e] == r.trace;
  }

  /** The opening of the `i`-th table's writer in a run from `s`. */
  function OpenedFor(lay: G.Layout, st: Settings, s: State, infos: seq<G.DataBaseInfo>, i: nat): G.Event
    requires i < |infos|
  {
    G.Opened(s.next + i, Target(lay, st, s.file, infos, i), st.sameFile)
  }

  /** The write of the `i`-th table, filled, in a run from `s`. */
  function WroteFor(st: Settings, s: State, infos: seq<G.DataBaseInfo>, find: (string, string) -> G.Columns, i: nat): G.Event
    requires i < |infos|
  {
    G.Wrote(s.next + i, st.template, G.Filled(infos[i], find))
  }

  /** After `k` tables of a run over `infos` from `s`: two events per table,
      each table's writer opened on its target just before it is written. */
  predicate WrittenUpTo(lay: G.Layout, st: Settings, s: State, infos: seq<G.DataBaseInfo>,
                        find: (string, string) -> G.Columns, r: State, k: nat)
    requires k <= |infos|
  {
    && |r.trace| == |s.trace| + 2 * k && r.trace[..|s.trace|] == s.trace
    && r.next == s.next + k
    && (forall i :: 0 <= i < k ==>
          && r.trace[|s.trace| + 2 * i] == OpenedFor(lay, st, s, infos, i)
          && r.trace[|s.trace| + 2 * i + 1] == WroteFor(st, s, infos, find, i))
    && (k > 0 ==> r.file == Some(Target(lay, st, s.file, infos, k - 1)))
    && (k == 0 ==> r.file == s.file)
  }

  lemma WrittenStep(lay: G.Layout, st: Settings, s: State, infos: seq<G.DataBaseInfo>,
                    find: (string, string) -> G.Columns, r: State, k: nat)
    requires k < |infos|
    requires WrittenUpTo(lay, st, s, infos, find, r, k)
    ensures WrittenUpTo(lay, st, s, infos, find, Write(lay, st, r, G.Filled(infos[k], find)), k + 1)
  {
    var r' := Write(lay, st, r, G.Filled(infos[k], find));
    var n := |s.trace|;
    assert r'.file == Some(Target(lay, st, s.file, infos, k));
    assert G.Opened(r.next, r'.file.value, st.sameFile) == OpenedFor(lay, st, s, infos, k);
    assert r'.trace == r.trace + [OpenedFor(lay, st, s, infos, k), WroteFor(st, s, infos, find, k)];
    assert r'.trace[..n] == r.trace[..n];
    WrittenPositions(lay, st, s, infos, find, r, r', k);
  }

  lemma WrittenPositions(lay: G.Layout, st: Settings, s: State, infos: seq<G.DataBaseInfo>,
                         find: (string, string) -> G.Columns, r: State, r': State, k: nat)
    requires k < |infos|
    requires |r.trace| == |s.trace| + 2 * k && r.next == s.next + k
    requires forall i :: 0 <= i < k ==>
               && r.trace[|s.trace| + 2 * i] == OpenedFor(lay, st, s, infos, i)
               && r.trace[|s.trace| + 2 * i + 1] == WroteFor(st, s, infos, find, i)
    requires r'.trace == r.trace + [OpenedFor(lay, st, s, infos, k), WroteFor(st, s, infos, find, k)]
    ensures forall i :: 0 <= i < k + 1 ==>
              && r'.trace[|s.trace| + 2 * i] == OpenedFor(lay, st, s, infos, i)
              && r'.trace[|s.trace| + 2 * i + 1] == WroteFor(st, s, infos, find, i)
  {
    var n := |s.trace|;
    var m := |r.trace|;
    assert forall x :: 0 <= x < m ==> r'.trace[x] == r.trace[x];
    assert r'.trace[m] == OpenedFor(lay, st, s, infos, k) && r'.trace[m + 1] == WroteFor(st, s, infos, find, k);
  }

  /** One table of the loop of `generate` keeps its invariant. */
  lemma GenerateStep(lay: G.Layout, st: Settings, s: State, infos: seq<G.DataBaseInfo>,
                     find: (string, string) -> G.Columns, r: State, k: nat)
    requires k < |infos|
    requires WrittenUpTo(lay, st, s, infos, find, r, k)
    requires G.ValidTrace(r.trace)
    requires G.Writes(r.trace) == G.Writes(s.trace) + G.Pairs(st.template, G.FillAll(infos[..k], find))
    ensures var r' := Write(lay, st, r, G.Filled(infos[k], find));
            && WrittenUpTo(lay, st, s, infos, find, r', k + 1)
            && G.ValidTrace(r'.trace)
            && G.Writes(r'.trace) == G.Writes(s.trace) + G.Pairs(st.template, G.FillAll(infos[..k + 1], find))
  {
    var info := G.Filled(infos[k], find);
    var r' := Write(lay, st, r, info);
    WrittenStep(lay, st, s, infos, find, r, k);
    WriteValid(r, r', r.next, r'.file.value, st.sameFile, G.Wrote(r.next, st.template, info));
    G.PairsFillSnoc(st.template, infos, k, find);
  }

  /** `generate` on the corrected selection (`SelectTables` in place of the
      as-written `HandleDataBaseInfo`): every selected table, in order, has its table infos filled and
      is written through its own writer, opened just before on the table's
      target file with append mode equal to `sameFile`. The trace stays valid
      and the writes are exactly the filled tables in order. */
  method Generate(lay: G.Layout, st: Settings, s: State, cfg: G.Configurable, queried: set<string>,
                  found: seq<G.DataBaseInfo>, find: (string, string) -> G.Columns)
    returns (r: State)
    requires G.ValidTrace(s.trace)
    ensures WrittenUpTo(lay, st, s, SelectTables(cfg, queried, found), find, r, |SelectTables(cfg, queried, found)|)
    ensures G.ValidTrace(r.trace)
    ensures G.Writes(r.trace) == G.Writes(s.trace) + G.Pairs(st.template, G.FillAll(SelectTables(cfg, queried, found), find))
  {
    var infos := SelectTables(cfg, queried, found);
    r := s;
    assert r.trace[..|s.trace|] == s.trace;
    for k := 0 to |infos|
      invariant WrittenUpTo(lay, st, s, infos, find, r, k)
      invariant G.ValidTrace(r.trace)
      invariant G.Writes(r.trace) == G.Writes(s.trace) + G.Pairs(st.template, G.FillAll(infos[..k], find))
    {
      GenerateStep(lay, st, s, infos, find, r, k);
      r := Write(lay, st, r, G.Filled(infos[k], find));
    }
    assert infos[..|infos|] == infos;
  }
}

=== FILE: on_bean_condition.dfy ===
/** `@ConditionalOnBean`: a definition is admitted only when the named beans and
    beans of the listed types are already registered. */
module OnBeanCondition {
  import opened Common
  import opened Beans

  /** The attributes of one `@ConditionalOnBean` annotation. */
  datatype ConditionalOnBean = ConditionalOnBean(value: seq<TypeId>, name: seq<string>)

  /** The names that must be registered: the `name()` attribute. */
  function ConditionNames(a: ConditionalOnBean): seq<string> {
    a.name
  }

  /** The types that must have a definition: the `value()` attribute, or, when it
      is empty, the types derived from the annotated element (`derived`, computed
      by code outside this model). */
  function ConditionTypes(a: ConditionalOnBean, derived: seq<TypeId>): seq<TypeId> {
    if |a.value| > 0 then a.value else derived
  }

  /** The admission rule stated over the annotation's attributes. */
  predicate Admits(reg: Registry, a: ConditionalOnBean, derived: seq<TypeId>, assignable: Assignability) {
    && (forall n :: n in a.name ==> n in reg)
    && (|a.value| > 0 ==> forall t :: t in a.value ==> NamesOfType(reg, t, assignable) != {})
    && (|a.value| == 0 ==> forall t :: t in derived ==> NamesOfType(reg, t, assignable) != {})
  }

  /** `isMatch`: scans the names, then the types, and stops at the first one
      that is missing. The registry is passed by value and is only read. */
  method IsMatch(reg: Registry, a: ConditionalOnBean, derived: seq<TypeId>, assignable: Assignability)
    returns (ok: bool)
    ensures ok <==> Admits(reg, a, derived, assignable)
    ensures (exists n :: n in a.name && n !in reg) ==> !ok
    ensures |a.name| == 0 && |a.value| == 0 && |derived| == 0 ==> ok
  {
    var names := ConditionNames(a);
    for i := 0 to |names|
      invariant forall j :: 0 <= j < i ==> names[j] in reg
    {
      if names[i] !in reg {
        return false;
      }
    }
    var types := ConditionTypes(a, derived);
    for i := 0 to |types|
      invariant forall j :: 0 <= j < i ==> NamesOfType(reg, types[j], assignable) != {}
    {
      if NamesOfType(reg, types[i], assignable) == {} {
        return false;
      }
    }
    return true;
  }

  /** Registering more definitions never withdraws an admission: a condition met
      against a registry is met against every registry that extends it. This is
      why admission depends on the order in which siblings are registered only
      in one direction. */
  lemma {:induction false} AdmitsMonotone(reg: Registry, reg': Registry, a: ConditionalOnBean,
                                          derived: seq<TypeId>, assignable: Assignability)
    requires forall n :: n in reg ==> n in reg' && reg'[n] == reg[n]
    requires Admits(reg, a, derived, assignable)
    ensures Admits(reg', a, derived, assignable)
  {
    var types := ConditionTypes(a, derived);
    forall t | t in types
      ensures NamesOfType(reg', t, assignable) != {}
    {
      var n :| n in NamesOfType(reg, t, assignable);
      assert n in NamesOfType(reg', t, assignable);
    }
  }

  /** A condition naming a sibling observes it once the sibling is registered,
      and never before: there is no lookahead. */
  lemma SiblingVisibility(reg: Registry, sibling: BeanDefinition, assignable: Assignability)
    requires sibling.beanName !in reg
    ensures !Admits(reg, ConditionalOnBean([], [sibling.beanName]), [], assignable)
    ensures Admits(reg[sibling.beanName := sibling], ConditionalOnBean([], [sibling.beanName]), [], assignable)
  {
  }

  /** A condition on a type is met by registering any definition whose type is
      assignable to it. */
  lemma {:induction false} TypeVisibility(reg: Registry, d: BeanDefinition, t: TypeId, assignable: Assignability)
    requires assignable(t, d.beanType)
    ensures Admits(reg[d.beanName := d], ConditionalOnBean([t], []), [], assignable)
  {
    assert d.beanName in NamesOfType(reg[d.beanName := d], t, assignable);
  }
}

=== FILE: post_construct.dfy ===
/** `PostConstructProcessor`: before initialization, the first `@PostConstruct`
    method of the bean's target class is invoked, once; the bean itself is never
    replaced. */
module PostConstruct {
  import opened Common
  import opened Beans

  /** A bean instance as the processor sees it: its runtime class, whether it is
      a JDK proxy, and the object `AopUtil.getTarget` unwraps it to. */
  datatype BeanRef = BeanRef(id: nat, runtimeClass: TypeId, jdkProxy: bool, target: nat)

  /** A reflective invocation of `invoked` on the object `receiver`. */
  datatype Call = Call(receiver: nat, invoked: MethodMeta)

  /** What the processor does with one bean: the invocation it performs, if
      any, and the replacement it returns (`None` is `null`). */
  datatype Effect = Effect(call: Option<Call>, replacement: Option<nat>)

  /** The method at index `i` is the first `@PostConstruct` method of `ms`. */
  predicate FirstAnnotated(ms: seq<MethodMeta>, i: int) {
    && 0 <= i < |ms|
    && PostConstruct in ms[i].annotations
    && forall j :: 0 <= j < i ==> PostConstruct !in ms[j].annotations
  }

  /** The object the method is invoked on: the unwrapped target when the
      method is declared elsewhere than the bean's runtime class and the bean is
      a JDK proxy, the bean itself otherwise. */
  function Receiver(bean: BeanRef, m: MethodMeta): (r: nat)
    ensures r == bean.id || r == bean.target
  {
    if m.declaringClass != bean.runtimeClass && bean.jdkProxy then bean.target else bean.id
  }

  /** `postProcessBeforeInitialization`. `targetClass` is the class
      `AopUtil.getTargetClass` gives for the bean, whose methods are scanned in
      order. */
  method PostProcessBeforeInitialization(bean: BeanRef, targetClass: ClassMeta) returns (e: Effect)
    ensures e.replacement.None?
    ensures e.call.None? <==> forall i :: 0 <= i < |targetClass.methods| ==> PostConstruct !in targetClass.methods[i].annotations
    ensures e.call.Some? ==>
              exists i :: FirstAnnotated(targetClass.methods, i) && e.call.value.invoked == targetClass.methods[i]
    ensures e.call.Some? ==> e.call.value.receiver == Receiver(bean, e.call.value.invoked)
  {
    var ms := targetClass.methods;
    for i := 0 to |ms|
      invariant forall j :: 0 <= j < i ==> PostConstruct !in ms[j].annotations
    {
      if PostConstruct in ms[i].annotations {
        var receiver := bean.id;
        if ms[i].declaringClass != bean.runtimeClass && bean.jdkProxy {
          receiver := bean.target;
        }
        assert FirstAnnotated(ms, i);
        return Effect(Some(Call(receiver, ms[i])), None);
      }
    }
    return Effect(None, None);
  }
}

=== FILE: properties.dfy ===
/** `DefaultGenericPropertiesContext`: reading a property into a map, a
    collection or an array. The property source is an association list whose
    order is the iteration order of the underlying map; values are kept
    symbolic (a converted raw string, or an instance bound to a key prefix). */
module Properties {
  import opened Common

  /** A property source: key to raw value, each key once. */
  type Props = Assoc<string>

  const OBJECT: TypeId := "java.lang.Object"
  const COLLECTION: TypeId := "java.util.Collection"
  const MAP: TypeId := "java.util.Map"

  /** A bound value: `convert(raw, target)`, or a fresh `target` instance on which
      `bindConfigurationProperties(instance, key)` was run. */
  datatype Value =
    | Converted(raw: string, target: TypeId)
    | Bound(target: TypeId, key: string)

  // ---------------------------------------------------------------------------
  // Searching by prefix

  /** `searchMapProperties`: the entries whose key starts with `prefix`, values
      unchanged. */
  function SearchMapProperties(props: Props, prefix: string): (r: Props)
    ensures forall e :: e in r <==> e in props && StartsWith(e.0, prefix)
    ensures |r| <= |props|
    ensures DistinctKeys(props) ==> DistinctKeys(r)
  {
    if |props| == 0 then []
    else
      var rest := SearchMapProperties(props[1..], prefix);
      assert forall e :: e in props <==> e == props[0] || e in props[1..];
      if StartsWith(props[0].0, prefix) then
        assert DistinctKeys(props) ==> forall e :: e in rest ==> e.0 != props[0].0 by {
          if DistinctKeys(props) {
            forall e | e in rest ensures e.0 != props[0].0 {
              var j :| 0 <= j < |props[1..]| && props[1..][j] == e;
              assert props[j + 1] == e;
            }
          }
        }
        [props[0]] + rest
      else rest
  }

  predicate IsDigit(c: char) {
    '0' <= c <= '9'
  }

  /** The characters `.` does not match in a Java regular expression. */
  predicate LineTerminator(c: char) {
    c == '\n' || c == '\r' || c == '\U{85}' || c == '\U{2028}' || c == '\U{2029}'
  }

  /** `k` is `prefix`, `[`, one or more digits, the `]` at position `j`, and a
      remainder without line terminators. */
  predicate IndexedAt(k: string, prefix: string, j: int) {
    && StartsWith(k, prefix)
    && |prefix| + 1 < j < |k|
    && k[|prefix|] == '['
    && k[j] == ']'
    && (forall i :: |prefix| < i < j ==> IsDigit(k[i]))
    && (forall i :: j < i < |k| ==> !LineTerminator(k[i]))
  }

  /** `k.matches(prefix + "\\[[0-9]+].*")` with the prefix taken literally. */
  predicate Matches(k: string, prefix: string) {
    exists j :: |prefix| + 1 < j < |k| && IndexedAt(k, prefix, j)
  }

  /** The loop body of `searchCollectionProperties` for one key: `None` when the
      key does not match, otherwise the index text `[n]` (brackets included)
      and the key it is stored under within its group, which is the whole key
      when it ends at `]` and what follows the character after `]` otherwise. */
  function ParseIndexed(k: string, prefix: string): (r: Option<(string, string)>)
    ensures r.Some? <==> Matches(k, prefix)
    ensures r.Some? ==>
              exists j :: IndexedAt(k, prefix, j)
                && r.value.0 == k[|prefix|..j + 1]
                && r.value.1 == (if j == |k| - 1 then k else k[j + 2..])
  {
    if !Matches(k, prefix) then None
    else
      var left := IndexOf(k, '[', |prefix|);
      assert left == |prefix| by {
        var j :| |prefix| + 1 < j < |k| && IndexedAt(k, prefix, j);
        assert k[|prefix|] == '[';
      }
      var right := IndexOf(k, ']', left);
      assert IndexedAt(k, prefix, right) by {
        var j :| |prefix| + 1 < j < |k| && IndexedAt(k, prefix, j);
        assert k[j] == ']';
      }
      Some((k[left..right + 1], if right == |k| - 1 then k else k[right + 2..]))
  }

  /** Matching keys in source order, each with its index text and stored key. */
  function Kept(props: Props, prefix: string): (r: seq<(string, (string, string))>)
    ensures forall e :: e in r <==>
              exists k, v :: (k, v) in props && ParseIndexed(k, prefix) == Some((e.0, e.1.0)) && e.1.1 == v
  {
    if |props| == 0 then []
    else
      var (k, v) := props[0];
      var p := ParseIndexed(k, prefix);
      assert forall e :: e in props <==> e == props[0] || e in props[1..];
      (if p.Some? then [(p.value.0, (p.value.1, v))] else []) + Kept(props[1..], prefix)
  }

  // ---------------------------------------------------------------------------
  // Groups: a `TreeMap` from index text to the entries of that index

  type Groups = seq<(string, Assoc<string>)>

  /** Group keys strictly increase in `String.compareTo` order. */
  predicate Sorted(gs: Groups) {
    forall i, j :: 0 <= i < j < |gs| ==> LexLess(gs[i].0, gs[j].0)
  }

  lemma SortedDistinct(gs: Groups)
    requires Sorted(gs)
    ensures DistinctKeys(gs)
  {
    forall i, j | 0 <= i < j < |gs| ensures gs[i].0 != gs[j].0 {
      if gs[i].0 == gs[j].0 {
        LexLessIrreflexive(gs[i].0);
      }
    }
  }

  /** The group under `g`, empty when there is none yet. */
  function GroupOf(gs: Groups, g: string): Assoc<string> {
    var found := Lookup(gs, g);
    if found.Some? then found.value else []
  }

  /** The four facts `InsertGroup` promises, about a candidate result `r`. */
  ghost predicate Inserted(gs: Groups, g: string, k: string, v: string, r: Groups) {
    && Sorted(r)
    && KeySet(r) == KeySet(gs) + {g}
    && Lookup(r, g) == Some(Put(GroupOf(gs, g), k, v))
    && forall g' :: g' != g ==> Lookup(r, g') == Lookup(gs, g')
  }

  /** `computeIfAbsent(g, ...)` followed by `put(k, v)` on that group. */
  function InsertGroup(gs: Groups, g: string, k: string, v: string): (r: Groups)
    requires Sorted(gs)
    ensures Sorted(r)
    ensures KeySet(r) == KeySet(gs) + {g}
    ensures Lookup(r, g) == Some(Put(GroupOf(gs, g), k, v))
    ensures forall g' :: g' != g ==> Lookup(r, g') == Lookup(gs, g')
    decreases |gs|
  {
    if |gs| == 0 then
      var r := [(g, [(k, v)])];
      assert KeySet(r) == {g} by { assert r[0].0 == g; }
      r
    else if gs[0].0 == g then
      var r := [(g, Put(gs[0].1, k, v))] + gs[1..];
      InsertAtHead(gs, g, k, v);
      assert Inserted(gs, g, k, v, r);
      r
    else if LexLess(g, gs[0].0) then
      var r := [(g, [(k, v)])] + gs;
      InsertBeforeHead(gs, g, k, v);
      assert Inserted(gs, g, k, v, r);
      r
    else
      LexLessTotal(g, gs[0].0);
      var rest := InsertGroup(gs[1..], g, k, v);
      var r := [gs[0]] + rest;
      InsertAfterHead(gs, g, k, v, rest);
      assert Inserted(gs, g, k, v, r);
      r
  }

  lemma InsertAtHead(gs: Groups, g: string, k: string, v: string)
    requires Sorted(gs) && |gs| > 0 && gs[0].0 == g
    ensures Inserted(gs, g, k, v, [(g, Put(gs[0].1, k, v))] + gs[1..])
  {
    var r := [(g, Put(gs[0].1, k, v))] + gs[1..];
    assert r[1..] == gs[1..];
    KeySetCons(gs);
    KeySetCons(r);
  }

  lemma InsertBeforeHead(gs: Groups, g: string, k: string, v: string)
    requires Sorted(gs) && |gs| > 0 && LexLess(g, gs[0].0)
    ensures Inserted(gs, g, k, v, [(g, [(k, v)])] + gs)
  {
    var r := [(g, [(k, v)])] + gs;
    assert r[1..] == gs;
    KeySetCons(r);
    assert g !in KeySet(gs) by {
      forall i | 0 <= i < |gs| ensures gs[i].0 != g {
        if gs[i].0 == g {
          if i > 0 {
            LexLessTransitive(g, gs[0].0, g);
          }
          LexLessIrreflexive(g);
        }
      }
    }
    LookupSomeInKeys(gs, g);
    forall i | 0 < i < |r| ensures LexLess(g, r[i].0) {
      if i > 1 {
        LexLessTransitive(g, gs[0].0, r[i].0);
      }
    }
  }

  lemma InsertAfterHead(gs: Groups, g: string, k: string, v: string, rest: Groups)
    requires Sorted(gs) && |gs| > 0 && LexLess(gs[0].0, g)
    requires Inserted(gs[1..], g, k, v, rest)
    ensures Inserted(gs, g, k, v, [gs[0]] + rest)
  {
    var r := [gs[0]] + rest;
    assert r[1..] == rest;
    KeySetCons(gs);
    KeySetCons(r);
    SortedCons(gs, g, rest);
    assert gs[0].0 != g by { LexLessIrreflexive(g); }
    assert Lookup(r, g) == Lookup(rest, g);
    assert GroupOf(gs, g) == GroupOf(gs[1..], g);
  }

  /** A sorted list with a smaller head in front stays sorted. */
  lemma SortedCons(gs: Groups, g: string, rest: Groups)
    requires Sorted(gs) && |gs| > 0 && LexLess(gs[0].0, g)
    requires Sorted(rest) && KeySet(rest) == KeySet(gs[1..]) + {g}
    ensures Sorted([gs[0]] + rest)
  {
    var r := [gs[0]] + rest;
    forall i | 0 < i < |r| ensures LexLess(gs[0].0, r[i].0) {
      var x := r[i].0;
      assert x in KeySet(rest) by { assert rest[i - 1].0 == x; }
      if x != g {
        assert x in KeySet(gs[1..]);
        var j :| 0 <= j < |gs[1..]| && gs[1..][j].0 == x;
        assert gs[j + 1].0 == x;
      }
    }
    forall i, j | 0 <= i < j < |r| ensures LexLess(r[i].0, r[j].0) {
      if i > 0 {
        assert r[i] == rest[i - 1] && r[j] == rest[j - 1];
      }
    }
  }

  /** The stored entries of the kept keys with index text `g`, in order. */
  function Members(kept: seq<(string, (string, string))>, g: string): (r: Assoc<string>)
    ensures |r| <= |kept|
  {
    if |kept| == 0 then []
    else
      var n := |kept| - 1;
      Members(kept[..n], g) + (if kept[n].0 == g then [kept[n].1] else [])
  }

  /** Inserting the kept entries in order. */
  function GroupAll(kept: seq<(string, (string, string))>): Groups
    decreases |kept|
  {
    if |kept| == 0 then []
    else
      var n := |kept| - 1;
      InsertGroup(GroupAll(kept[..n]), kept[n].0, kept[n].1.0, kept[n].1.1)
  }

  /** The index texts of `kept`. */
  function IndexTexts(kept: seq<(string, (string, string))>): set<string> {
    set i | 0 <= i < |kept| :: kept[i].0
  }

  lemma IndexTextsSnoc(kept: seq<(string, (string, string))>)
    requires |kept| > 0
    ensures IndexTexts(kept) == IndexTexts(kept[..|kept| - 1]) + {kept[|kept| - 1].0}
  {
    var n := |kept| - 1;
    forall x | x in IndexTexts(kept) ensures x in IndexTexts(kept[..n]) + {kept[n].0} {
      var i :| 0 <= i < |kept| && kept[i].0 == x;
      if i < n { assert kept[..n][i].0 == x; }
    }
  }

  /** Inserting the last kept entry keeps every group equal to what putting
      its members in order gives. */
  lemma GroupAllStep(kept: seq<(string, (string, string))>, prev: Groups, g: string)
    requires |kept| > 0
    requires Sorted(prev)
    requires KeySet(prev) == IndexTexts(kept[..|kept| - 1])
    requires forall g :: g in KeySet(prev) ==> Lookup(prev, g) == Some(PutAll([], Members(kept[..|kept| - 1], g)))
    requires g in KeySet(InsertGroup(prev, kept[|kept| - 1].0, kept[|kept| - 1].1.0, kept[|kept| - 1].1.1))
    ensures Lookup(InsertGroup(prev, kept[|kept| - 1].0, kept[|kept| - 1].1.0, kept[|kept| - 1].1.1), g)
         == Some(PutAll([], Members(kept, g)))
  {
    var n := |kept| - 1;
    var e := kept[n];
    var pre := kept[..n];
    assert Members(kept, g) == Members(pre, g) + (if e.0 == g then [e.1] else []);
    if g == e.0 {
      PutAllSnoc([], Members(pre, g), e.1);
      LookupSomeInKeys(prev, g);
      if g !in KeySet(prev) {
        MembersAbsent(pre, g);
      }
      assert GroupOf(prev, g) == PutAll([], Members(pre, g));
    } else {
      assert Members(kept, g) == Members(pre, g);
      assert g in KeySet(prev);
    }
  }

  /** An index text that is not kept has no members. */
  lemma {:induction false} MembersAbsent(kept: seq<(string, (string, string))>, g: string)
    requires g !in IndexTexts(kept)
    ensures Members(kept, g) == []
    decreases |kept|
  {
    if |kept| > 0 {
      IndexTextsSnoc(kept);
      MembersAbsent(kept[..|kept| - 1], g);
    }
  }

  /** The groups of `GroupAll` come out sorted, there is one for every index
      text kept, and each is what putting its members in order into an empty
      map gives. */
  lemma {:induction false} GroupAllFacts(kept: seq<(string, (string, string))>)
    ensures Sorted(GroupAll(kept))
    ensures KeySet(GroupAll(kept)) == IndexTexts(kept)
    ensures forall g :: g in KeySet(GroupAll(kept)) ==> Lookup(GroupAll(kept), g) == Some(PutAll([], Members(kept, g)))
    decreases |kept|
  {
    if |kept| > 0 {
      var n := |kept| - 1;
      GroupAllFacts(kept[..n]);
      IndexTextsSnoc(kept);
      var prev := GroupAll(kept[..n]);
      assert GroupAll(kept) == InsertGroup(prev, kept[n].0, kept[n].1.0, kept[n].1.1);
      forall g | g in KeySet(GroupAll(kept)) ensures Lookup(GroupAll(kept), g) == Some(PutAll([], Members(kept, g))) {
        GroupAllStep(kept, prev, g);
      }
    }
  }

  /** The index texts kept are those of the matching keys. */
  lemma KeptIndexTexts(props: Props, prefix: string)
    ensures forall g :: g in IndexTexts(Kept(props, prefix)) <==>
              exists k, v, sk :: (k, v) in props && ParseIndexed(k, prefix) == Some((g, sk))
  {
    var kept := Kept(props, prefix);
    forall g | g in IndexTexts(kept)
      ensures exists k, v, sk :: (k, v) in props && ParseIndexed(k, prefix) == Some((g, sk))
    {
      var i :| 0 <= i < |kept| && kept[i].0 == g;
      assert kept[i] in kept;
    }
    forall g, k, v, sk | (k, v) in props && ParseIndexed(k, prefix) == Some((g, sk))
      ensures g in IndexTexts(kept)
    {
      assert (g, (sk, v)) in kept;
      var i :| 0 <= i < |kept| && kept[i] == (g, (sk, v));
    }
  }

  /** `searchCollectionProperties`: the matching keys grouped by index text.
      Groups are ordered by string comparison of the index text; within a group
      a stored key maps to the value of the last entry stored under it. */
  function SearchCollectionProperties(props: Props, prefix: string): (r: Groups)
    ensures Sorted(r) && DistinctKeys(r)
    ensures forall g :: g in KeySet(r) <==>
              exists k, v, sk :: (k, v) in props && ParseIndexed(k, prefix) == Some((g, sk))
    ensures forall g, sk :: g in KeySet(r) ==>
              Lookup(GroupOf(r, g), sk) == LastFor(Members(Kept(props, prefix), g), sk)
  {
    var kept := Kept(props, prefix);
    var r := GroupAll(kept);
    GroupAllFacts(kept);
    SortedDistinct(r);
    KeptIndexTexts(props, prefix);
    forall g, sk | g in KeySet(r)
      ensures Lookup(GroupOf(r, g), sk) == LastFor(Members(kept, g), sk)
    {
      PutAllLookup([], Members(kept, g), sk);
    }
    r
  }

  // ---------------------------------------------------------------------------
  // Binding

  /** `isBaseType`: `Object`, or a type `ReflectUtil.isBaseDataType` accepts. */
  predicate IsBaseType(t: TypeId, baseDataType: TypeId -> bool) {
    t == OBJECT || baseDataType(t)
  }

  /** The number of entries over all groups. */
  function TotalSize(gs: Groups): nat {
    if |gs| == 0 then 0 else |gs[0].1| + TotalSize(gs[1..])
  }

  /** Where the values of group `i` start once all groups are laid end to end. */
  function Offset(gs: Groups, i: nat): (r: nat)
    requires i < |gs|
    ensures r + |gs[i].1| <= TotalSize(gs)
  {
    if i == 0 then 0 else |gs[0].1| + Offset(gs[1..], i - 1)
  }

  /** The values of one group, converted to `t`, in order. */
  function ConvertAll(group: Assoc<string>, t: TypeId): (r: seq<Value>)
    ensures |r| == |group|
    ensures forall j :: 0 <= j < |group| ==> r[j] == Converted(group[j].1, t)
  {
    if |group| == 0 then [] else [Converted(group[0].1, t)] + ConvertAll(group[1..], t)
  }

  /** `convertAndBind(prefix, elementType, properties)`. A base element type
      yields every value of every group, converted, group after group; any
      other element type yields one instance per group, bound under the prefix
      followed by the group's index text. */
  function ConvertAndBindCollection(prefix: string, elementType: TypeId, isBase: bool, groups: Groups): (r: seq<Value>)
    ensures !isBase ==> |r| == |groups| && forall i :: 0 <= i < |groups| ==> r[i] == Bound(elementType, prefix + groups[i].0)
    ensures isBase ==> |r| == TotalSize(groups) && LaidOut(groups, elementType, r) && Gathers(groups, elementType, r)
  {
    if isBase then ConvertGroups(groups, elementType) else BindGroups(prefix, elementType, groups)
  }

  /** One bound instance per group, in group order. */
  function BindGroups(prefix: string, elementType: TypeId, groups: Groups): (r: seq<Value>)
    ensures |r| == |groups| && forall i :: 0 <= i < |groups| ==> r[i] == Bound(elementType, prefix + groups[i].0)
  {
    if |groups| == 0 then []
    else [Bound(elementType, prefix + groups[0].0)] + BindGroups(prefix, elementType, groups[1..])
  }

  /** Value `j` of group `i`, converted to `t`, sits at the group's offset
      plus `j` in `r`. */
  predicate LaidOut(groups: Groups, t: TypeId, r: seq<Value>) {
    forall i, j :: 0 <= i < |groups| && 0 <= j < |groups[i].1| ==> LaidOutAt(groups, t, r, i, j)
  }

  /** Value `j` of group `i`, converted to `t`, sits at the group's offset
      plus `j` in `r`. */
  predicate LaidOutAt(groups: Groups, t: TypeId, r: seq<Value>, i: nat, j: nat)
    requires i < |groups| && j < |groups[i].1|
  {
    Offset(groups, i) + j < |r| && r[Offset(groups, i) + j] == Converted(groups[i].1[j].1, t)
  }

  /** `r` holds every value of every group converted to `t`, and nothing else. */
  ghost predicate Gathers(groups: Groups, t: TypeId, r: seq<Value>) {
    && (forall i, j :: 0 <= i < |groups| && 0 <= j < |groups[i].1| ==> Converted(groups[i].1[j].1, t) in r)
    && (forall x :: x in r ==>
          exists i, j :: 0 <= i < |groups| && 0 <= j < |groups[i].1| && x == Converted(groups[i].1[j].1, t))
  }

  /** The values of every group, converted, group after group. */
  function ConvertGroups(groups: Groups, t: TypeId): (r: seq<Value>)
    ensures |r| == TotalSize(groups) && LaidOut(groups, t, r) && Gathers(groups, t, r)
  {
    if |groups| == 0 then []
    else
      var rest := ConvertGroups(groups[1..], t);
      PositionsCons(groups, rest, t);
      MembersCons(groups, rest, t);
      ConvertAll(groups[0].1, t) + rest
  }

  /** The values of all groups are those of the first and those of the rest. */
  lemma MembersCons(groups: Groups, rest: seq<Value>, t: TypeId)
    requires |groups| > 0 && Gathers(groups[1..], t, rest)
    ensures Gathers(groups, t, ConvertAll(groups[0].1, t) + rest)
  {
    var here := ConvertAll(groups[0].1, t);
    forall i, j | 0 <= i < |groups| && 0 <= j < |groups[i].1|
      ensures Converted(groups[i].1[j].1, t) in here + rest
    {
      if i > 0 {
        assert groups[1..][i - 1] == groups[i];
      } else {
        assert here[j] == Converted(groups[0].1[j].1, t);
      }
    }
    forall x | x in here + rest
      ensures exists i, j :: 0 <= i < |groups| && 0 <= j < |groups[i].1| && x == Converted(groups[i].1[j].1, t)
    {
      if x in here {
        var j :| 0 <= j < |here| && here[j] == x;
        assert x == Converted(groups[0].1[j].1, t);
      } else {
        var i, j :| 0 <= i < |groups[1..]| && 0 <= j < |groups[1..][i].1| && x == Converted(groups[1..][i].1[j].1, t);
        assert groups[1..][i] == groups[i + 1];
      }
    }
  }

  /** Laying the first group's values in front of the rest's keeps every
      value at its group's offset. */
  lemma PositionsCons(groups: Groups, rest: seq<Value>, t: TypeId)
    requires |groups| > 0 && |rest| == TotalSize(groups[1..]) && LaidOut(groups[1..], t, rest)
    ensures LaidOut(groups, t, ConvertAll(groups[0].1, t) + rest)
  {
    var here := ConvertAll(groups[0].1, t);
    forall i, j | 0 <= i < |groups| && 0 <= j < |groups[i].1|
      ensures LaidOutAt(groups, t, here + rest, i, j)
    {
      if i > 0 {
        assert LaidOutAt(groups[1..], t, rest, i - 1, j);
        assert groups[1..][i - 1] == groups[i];
        var k := Offset(groups[1..], i - 1) + j;
        assert k < |rest| && rest[k] == Converted(groups[1..][i - 1].1[j].1, t);
        assert Offset(groups, i) + j == |here| + k;
      } else {
        assert here[j] == Converted(groups[0].1[j].1, t);
      }
    }
    assert LaidOut(groups, t, here + rest);
  }

  /** The entries of `entries` with `replace` removed from their keys and their
      values converted to `t`. */
  function Stripped(entries: Props, replace: string, t: TypeId): (r: Assoc<Value>)
    requires |replace| > 0
    ensures |r| == |entries|
    ensures forall i :: 0 <= i < |entries| ==>
              r[i] == (ReplaceAll(entries[i].0, replace, ""), Converted(entries[i].1, t))
  {
    if |entries| == 0 then []
    else [(ReplaceAll(entries[0].0, replace, ""), Converted(entries[0].1, t))] + Stripped(entries[1..], replace, t)
  }

  /** The keys of the stripped entries are the stripped keys. */
  lemma StrippedKeys(entries: Props, replace: string, t: TypeId)
    requires |replace| > 0
    ensures (set i | 0 <= i < |Stripped(entries, replace, t)| :: Stripped(entries, replace, t)[i].0)
            == set i | 0 <= i < |entries| :: ReplaceAll(entries[i].0, replace, "")
  {
    var xs := Stripped(entries, replace, t);
    assert forall i :: 0 <= i < |entries| ==> xs[i].0 == ReplaceAll(entries[i].0, replace, "");
  }

  /** The base-type branch of `convertAndBind(prefix, target, valueType)`:
      every prefixed entry is put with each occurrence of `prefix + "."`
      removed from its key. A key that collides with an earlier one takes the
      later value. */
  function BindBaseValues(entries: Props, prefix: string, valueType: TypeId): (r: Assoc<Value>)
    ensures DistinctKeys(r)
    ensures forall s :: s in KeySet(r) <==>
              exists i :: 0 <= i < |entries| && ReplaceAll(entries[i].0, prefix + ".", "") == s
    ensures forall s :: Lookup(r, s) == LastFor(Stripped(entries, prefix + ".", valueType), s)
  {
    BaseValuesFacts(entries, prefix, valueType);
    PutAll([], Stripped(entries, prefix + ".", valueType))
  }

  /** Putting the stripped entries keeps the stripped keys, each once, with
      the value of the last entry stored under each. */
  lemma BaseValuesFacts(entries: Props, prefix: string, valueType: TypeId)
    ensures var r := PutAll([], Stripped(entries, prefix + ".", valueType));
            && DistinctKeys(r)
            && (forall s :: s in KeySet(r) <==> exists i :: 0 <= i < |entries| && ReplaceAll(entries[i].0, prefix + ".", "") == s)
            && forall s :: Lookup(r, s) == LastFor(Stripped(entries, prefix + ".", valueType), s)
  {
    var xs := Stripped(entries, prefix + ".", valueType);
    PutAllKeys([], xs);
    StrippedKeys(entries, prefix + ".", valueType);
    forall s ensures Lookup(PutAll([], xs), s) == LastFor(xs, s) {
      PutAllLookup([], xs, s);
    }
  }

  /** A key `prefix + "." + rest` whose remainder does not repeat
      `prefix + "."` is stored under `rest`. */
  lemma StripPrefix(prefix: string, rest: string)
    requires !Contains(rest, prefix + ".")
    ensures ReplaceAll(prefix + "." + rest, prefix + ".", "") == rest
  {
    ReplaceAllLeading(prefix + ".", rest, "");
    ReplaceAllAbsent(rest, prefix + ".", "");
  }

  /** The map key an object-valued entry is bound under: what lies between
      `replace` and the next `.`; `None` where `substring` would throw. */
  function Segment(k: string, replace: string): (r: Option<string>)
    ensures r.Some? ==> |replace| + |r.value| < |k| && k[|replace| + |r.value|] == '.'
    ensures r.Some? ==> r.value == k[|replace|..|replace| + |r.value|]
    ensures r.Some? ==> forall i :: |replace| <= i < |replace| + |r.value| ==> k[i] != '.'
    ensures r.None? <==> forall i :: |replace| <= i < |k| ==> k[i] != '.'
  {
    var end := IndexOf(k, '.', |replace|);
    if end == -1 then None else Some(k[|replace|..end])
  }

  datatype PropertyError =
    | ComplexGeneric        // "complex generic are not supported"
    | UnsupportedBind       // "unsupported bind operate"
    | IndexOutOfBounds      // `substring` with an end before its start
    | ClassCast             // a resolved type that is not a class, cast to one

  /** Every entry has a segment. */
  predicate AllSegmented(es: Props, replace: string) {
    forall j :: 0 <= j < |es| ==> Segment(es[j].0, replace).Some?
  }

  /** The segments of the entries that have one. */
  function Segments(es: Props, replace: string): set<string> {
    set i | 0 <= i < |es| && Segment(es[i].0, replace).Some? :: Segment(es[i].0, replace).value
  }

  lemma SegmentsSnoc(es: Props, e: (string, string), replace: string)
    ensures Segments(es + [e], replace)
         == Segments(es, replace) + (if Segment(e.0, replace).Some? then {Segment(e.0, replace).value} else {})
  {
    var all := es + [e];
    forall x | x in Segments(all, replace)
      ensures x in Segments(es, replace) + (if Segment(e.0, replace).Some? then {Segment(e.0, replace).value} else {})
    {
      var i :| 0 <= i < |all| && Segment(all[i].0, replace).Some? && Segment(all[i].0, replace).value == x;
      if i < |es| { assert all[i] == es[i]; }
    }
    forall x | x in Segments(es, replace) ensures x in Segments(all, replace) {
      var i :| 0 <= i < |es| && Segment(es[i].0, replace).Some? && Segment(es[i].0, replace).value == x;
      assert all[i] == es[i];
    }
    if Segment(e.0, replace).Some? {
      assert all[|es|] == e;
    }
  }

  lemma PrefixInjective(p: string, s: string, t: string)
    ensures p + s == p + t ==> s == t
  {
    if p + s == p + t {
      assert s == (p + s)[|p|..];
    }
  }

  /** Putting a new segment's instance keeps the target's keys distinct and
      every instance bound under its own segment. */
  lemma BindOneFacts(target: Assoc<Value>, replace: string, key: string, valueType: TypeId)
    requires DistinctKeys(target) && key !in KeySet(target)
    requires forall j :: 0 <= j < |target| ==> target[j].1 == Bound(valueType, replace + target[j].0)
    ensures var t' := Put(target, key, Bound(valueType, replace + key));
            && DistinctKeys(t')
            && KeySet(t') == KeySet(target) + {key}
            && forall j :: 0 <= j < |t'| ==> t'[j].1 == Bound(valueType, replace + t'[j].0)
  {
    var t' := Put(target, key, Bound(valueType, replace + key));
    assert t' == target + [(key, Bound(valueType, replace + key))];
  }

  /** The object-type branch of `convertAndBind(prefix, target, valueType)`:
      one instance per distinct segment after `prefix + "."`, created and bound
      the first time its segment is seen. An entry with no `.` after
      `prefix + "."` makes `substring` throw. */
  method BindObjectValues(entries: Props, prefix: string, valueType: TypeId)
    returns (r: Result<Assoc<Value>, PropertyError>)
    ensures r.Err? <==> exists i :: 0 <= i < |entries| && Segment(entries[i].0, prefix + ".").None?
    ensures r.Err? ==> r.error == IndexOutOfBounds
    ensures r.Ok? ==> DistinctKeys(r.value)
    ensures r.Ok? ==> forall s :: s in KeySet(r.value) <==>
              exists i :: 0 <= i < |entries| && Segment(entries[i].0, prefix + ".") == Some(s)
    ensures r.Ok? ==> forall j :: 0 <= j < |r.value| ==>
              r.value[j].1 == Bound(valueType, prefix + "." + r.value[j].0)
  {
    var replace := prefix + ".";
    var target: Assoc<Value> := [];
    var bind: set<string> := {};
    for i := 0 to |entries|
      invariant forall s :: replace + s in bind <==> s in KeySet(target)
      invariant DistinctKeys(target)
      invariant AllSegmented(entries[..i], replace)
      invariant KeySet(target) == Segments(entries[..i], replace)
      invariant forall j :: 0 <= j < |target| ==> target[j].1 == Bound(valueType, replace + target[j].0)
    {
      var seg := Segment(entries[i].0, replace);
      if seg.None? {
        return Err(IndexOutOfBounds);
      }
      var key := seg.value;
      SegmentsSnoc(entries[..i], entries[i], replace);
      TakeSnoc(entries, i);
      assert AllSegmented(entries[..i + 1], replace) by {
        assert forall j :: 0 <= j < i ==> entries[..i + 1][j] == entries[..i][j];
      }
      var bindKey := replace + key;
      if bindKey !in bind {
        BindOneFacts(target, replace, key, valueType);
        forall s ensures replace + s in bind + {bindKey} <==> s in KeySet(target) + {key} {
          PrefixInjective(replace, s, key);
        }
        target := Put(target, key, Bound(valueType, bindKey));
        bind := bind + {bindKey};
      }
    }
    assert entries[..|entries|] == entries;
    forall s | s in Segments(entries, replace)
      ensures exists i :: 0 <= i < |entries| && Segment(entries[i].0, prefix + ".") == Some(s)
    {
      var i :| 0 <= i < |entries| && Segment(entries[i].0, replace).Some? && Segment(entries[i].0, replace).value == s;
    }
    return Ok(target);
  }

  // ---------------------------------------------------------------------------
  // getProperty

  /** The resolved target type of a `getProperty` call (a `SimpleGeneric`):
      the resolved type when it is a plain class, its raw type, and the generic
      shape. */
  datatype Generic = Generic(
    resolvedClass: Option<TypeId>,
    rawType: TypeId,
    rawIsArray: bool,
    mapGeneric: bool,
    simpleGeneric: bool,
    size: nat,
    mapValueType: TypeId,
    simpleActualType: TypeId)

  /** What `getProperty` returns; `None` stands for `null`. */
  datatype Property =
    | Scalar(value: Option<Value>)
    | MapOf(entries: Assoc<Value>)
    | Elements(values: Option<seq<Value>>)
    | ArrayOf(items: seq<Value>)

  /** The context the lookups run in: the property source, the subtype
      relation, `ReflectUtil.isBaseDataType`, and `CommonUtil.split` with the
      configured delimiter. */
  datatype Env = Env(
    props: Props,
    assignable: Assignability,
    baseDataType: TypeId -> bool,
    delimiter: string,
    split: (string, string) -> seq<string>)

  /** `getProperty(key, Class, null)` of the parent context: the raw value
      under `key`, converted. */
  function SimpleLookup(props: Props, key: string, cls: TypeId): (r: Option<Value>)
    ensures r.Some? <==> key in KeySet(props)
    ensures r.Some? ==> Lookup(props, key).Some? && r.value == Converted(Lookup(props, key).value, cls)
  {
    LookupSomeInKeys(props, key);
    var raw := Lookup(props, key);
    if raw.Some? then Some(Converted(raw.value, cls)) else None
  }

  /** Some key of `props` has the form `key[n]...`. */
  predicate HasIndexedKeys(props: Props, key: string) {
    exists i :: 0 <= i < |props| && Matches(props[i].0, key)
  }

  lemma IndexedKeysGroups(props: Props, key: string)
    ensures |SearchCollectionProperties(props, key)| > 0 <==> HasIndexedKeys(props, key)
  {
    var r := SearchCollectionProperties(props, key);
    if |r| > 0 {
      assert r[0].0 in KeySet(r);
      var k, v, sk :| (k, v) in props && ParseIndexed(k, key) == Some((r[0].0, sk));
      var i :| 0 <= i < |props| && props[i] == (k, v);
    }
    if HasIndexedKeys(props, key) {
      var i :| 0 <= i < |props| && Matches(props[i].0, key);
      var p := ParseIndexed(props[i].0, key).value;
      assert props[i] in props;
      assert p.0 in KeySet(r);
    }
  }

  /** The elements `bindCollectionProperties` collects before looking at the
      raw type: the split and converted value when `key` itself is set, else
      the bound groups of `key[n]...` keys, else `null`. */
  function CollectedElements(env: Env, key: string, g: Generic): (r: Option<seq<Value>>)
    ensures r.None? <==> key !in KeySet(env.props) && !HasIndexedKeys(env.props, key)
    ensures Lookup(env.props, key).Some? ==>
              var pieces := env.split(Lookup(env.props, key).value, env.delimiter);
              && r.Some? && |r.value| == |pieces|
              && forall i :: 0 <= i < |pieces| ==> r.value[i] == Converted(pieces[i], g.simpleActualType)
    ensures key !in KeySet(env.props) && r.Some? ==>
              r.value == ConvertAndBindCollection(key, g.simpleActualType,
                                                  IsBaseType(g.simpleActualType, env.baseDataType),
                                                  SearchCollectionProperties(env.props, key))
  {
    var property := SimpleLookup(env.props, key, "java.lang.String");
    if property.Some? then
      var pieces := env.split(property.value.raw, env.delimiter);
      Some(seq(|pieces|, i requires 0 <= i < |pieces| => Converted(pieces[i], g.simpleActualType)))
    else
      var groups := SearchCollectionProperties(env.props, key);
      IndexedKeysGroups(env.props, key);
      if |groups| > 0 then
        Some(ConvertAndBindCollection(key, g.simpleActualType, IsBaseType(g.simpleActualType, env.baseDataType), groups))
      else None
  }

  /** `bindCollectionProperties`: `null` when nothing was found; the elements
      as they are for a `Collection` raw type; an array copy for an array raw
      type; and an error for any other raw type. */
  function BindCollectionProperties(env: Env, key: string, g: Generic): (r: Result<Property, PropertyError>)
    ensures r == Ok(Elements(None)) <==> key !in KeySet(env.props) && !HasIndexedKeys(env.props, key)
    ensures r.Err? <==>
              (key in KeySet(env.props) || HasIndexedKeys(env.props, key))
              && !env.assignable(COLLECTION, g.rawType) && !g.rawIsArray
    ensures r.Err? ==> r.error == UnsupportedBind
    ensures r.Ok? ==> r.value.Elements? || (r.value.ArrayOf? && g.rawIsArray)
    ensures r.Ok? && r.value.Elements? && r.value.values.Some? ==>
              r.value.values == CollectedElements(env, key, g) && env.assignable(COLLECTION, g.rawType)
    ensures r.Ok? && r.value.ArrayOf? ==> Some(r.value.items) == CollectedElements(env, key, g)
  {
    var ret := CollectedElements(env, key, g);
    if ret.None? || env.assignable(COLLECTION, g.rawType) then Ok(Elements(ret))
    else if g.rawIsArray then Ok(ArrayOf(ret.value))
    else Err(UnsupportedBind)
  }

  /** What `convertAndBind(prefix, target, valueType)` yields on a fresh, empty
      target. For a base value type, the prefixed entries with `prefix + "."`
      stripped from their keys. Otherwise an `IndexOutOfBounds` failure exactly
      when some prefixed key has no `.` after `prefix + "."`; else one bound
      instance per distinct segment of the prefixed keys, each bound under
      `prefix + "." + segment`. */
  ghost predicate MapBinding(env: Env, prefix: string, valueType: TypeId, r: Result<Assoc<Value>, PropertyError>) {
    var entries := SearchMapProperties(env.props, prefix);
    && (IsBaseType(valueType, env.baseDataType) ==> r == Ok(BindBaseValues(entries, prefix, valueType)))
    && (r.Err? <==>
          && !IsBaseType(valueType, env.baseDataType)
          && exists i :: 0 <= i < |env.props| && StartsWith(env.props[i].0, prefix)
                           && Segment(env.props[i].0, prefix + ".").None?)
    && (r.Err? ==> r.error == IndexOutOfBounds)
    && (r.Ok? && !IsBaseType(valueType, env.baseDataType) ==>
          && DistinctKeys(r.value)
          && (forall s :: s in KeySet(r.value) <==>
                exists i :: 0 <= i < |entries| && Segment(entries[i].0, prefix + ".") == Some(s))
          && forall j :: 0 <= j < |r.value| ==> r.value[j].1 == Bound(valueType, prefix + "." + r.value[j].0))
  }

  /** `convertAndBind(prefix, target, valueType)` on a fresh, empty target. */
  method ConvertAndBindMap(env: Env, prefix: string, valueType: TypeId)
    returns (r: Result<Assoc<Value>, PropertyError>)
    ensures MapBinding(env, prefix, valueType, r)
  {
    var entries := SearchMapProperties(env.props, prefix);
    if IsBaseType(valueType, env.baseDataType) {
      return Ok(BindBaseValues(entries, prefix, valueType));
    }
    r := BindObjectValues(entries, prefix, valueType);
    UnsegmentedSearched(env.props, prefix);
  }

  /** A prefixed key without a segment is a searched key without one. */
  lemma UnsegmentedSearched(props: Props, prefix: string)
    ensures !AllSegmented(SearchMapProperties(props, prefix), prefix + ".") <==>
              exists i :: 0 <= i < |props| && StartsWith(props[i].0, prefix) && Segment(props[i].0, prefix + ".").None?
  {
    var entries := SearchMapProperties(props, prefix);
    if !AllSegmented(entries, prefix + ".") {
      var i :| 0 <= i < |entries| && Segment(entries[i].0, prefix + ".").None?;
      assert entries[i] in entries;
      var j :| 0 <= j < |props| && props[j] == entries[i];
      assert StartsWith(props[j].0, prefix) && Segment(props[j].0, prefix + ".").None?;
    }
    forall i | 0 <= i < |props| && StartsWith(props[i].0, prefix)
      ensures Segment(props[i].0, prefix + ".").None? ==> !AllSegmented(entries, prefix + ".")
    {
      assert props[i] in entries;
      var j :| 0 <= j < |entries| && entries[j] == props[i];
    }
  }

  /** The value type `bindMapProperties` binds to: the map's value type when
      the generic has one, else the resolved type itself, which must be a
      class. */
  function MapValueType(g: Generic): (r: Result<TypeId, PropertyError>)
    ensures g.size > 1 ==> r == Ok(g.mapValueType)
    ensures r.Err? <==> g.size <= 1 && g.resolvedClass.None?
    ensures r.Err? ==> r.error == ClassCast
  {
    if g.size > 1 then Ok(g.mapValueType)
    else if g.resolvedClass.Some? then Ok(g.resolvedClass.value)
    else Err(ClassCast)
  }

  /** `getProperty(key, targetType, null)`. A resolved class that is not a
      `Map` is looked up directly; otherwise a map generic is bound as a map, a
      simple generic as a collection or array, and anything else is refused. */
  method GetProperty(env: Env, key: string, g: Generic) returns (r: Result<Property, PropertyError>)
    ensures g.resolvedClass.Some? && !env.assignable(MAP, g.resolvedClass.value) ==>
              r == Ok(Scalar(SimpleLookup(env.props, key, g.resolvedClass.value)))
    ensures !(g.resolvedClass.Some? && !env.assignable(MAP, g.resolvedClass.value)) && g.mapGeneric ==>
              (r.Ok? ==> r.value.MapOf?) && (r.Err? ==> r.error == ClassCast || r.error == IndexOutOfBounds)
    ensures !(g.resolvedClass.Some? && !env.assignable(MAP, g.resolvedClass.value)) && !g.mapGeneric && g.simpleGeneric ==>
              r == BindCollectionProperties(env, key, g)
    ensures !(g.resolvedClass.Some? && !env.assignable(MAP, g.resolvedClass.value)) && !g.mapGeneric && !g.simpleGeneric ==>
              r == Err(ComplexGeneric)
    ensures r.Ok? && r.value.Scalar? ==> g.resolvedClass.Some? && !env.assignable(MAP, g.resolvedClass.value)
    ensures !(g.resolvedClass.Some? && !env.assignable(MAP, g.resolvedClass.value)) && g.mapGeneric ==>
              && (MapValueType(g).Err? ==> r == Err(ClassCast))
              && (MapValueType(g).Ok? && r.Ok? ==>
                    r.value.MapOf? && MapBinding(env, key, MapValueType(g).value, Ok(r.value.entries)))
              && (MapValueType(g).Ok? && r.Err? ==> MapBinding(env, key, MapValueType(g).value, Err(r.error)))
  {
    if g.resolvedClass.Some? && !env.assignable(MAP, g.resolvedClass.value) {
      return Ok(Scalar(SimpleLookup(env.props, key, g.resolvedClass.value)));
    }
    if g.mapGeneric {
      var vt := MapValueType(g);
      if vt.Err? {
        return Err(vt.error);
      }
      var bound := ConvertAndBindMap(env, key, vt.value);
      if bound.Err? {
        return Err(bound.error);
      }
      return Ok(MapOf(bound.value));
    }
    if g.simpleGeneric {
      return BindCollectionProperties(env, key, g);
    }
    return Err(ComplexGeneric);
  }

  // ---------------------------------------------------------------------------
  // An example

  const ExampleProps: Props := [("items[2]", "b"), ("items[10]", "a")]

  lemma ExampleParses()
    ensures ParseIndexed("items[2]", "items") == Some(("[2]", "items[2]"))
    ensures ParseIndexed("items[10]", "items") == Some(("[10]", "items[10]"))
  {
    var k2, k10 := "items[2]", "items[10]";
    assert StartsWith(k2, "items") && StartsWith(k10, "items");
    assert IndexedAt(k2, "items", 7);
    assert IndexedAt(k10, "items", 8);
    assert IndexOf(k2, '[', 5) == 5;
    assert IndexOf(k2, ']', 5) == 7 by {
      assert IndexOf(k2, ']', 7) == 7;
    }
    assert IndexOf(k10, '[', 5) == 5;
    assert IndexOf(k10, ']', 5) == 8 by {
      assert IndexOf(k10, ']', 8) == 8;
      assert IndexOf(k10, ']', 7) == 8;
    }
    assert k2[5..8] == "[2]";
    assert k10[5..9] == "[10]";
  }

  const ExampleKept: seq<(string, (string, string))> :=
    [("[2]", ("items[2]", "b")), ("[10]", ("items[10]", "a"))]

  lemma ExampleKeptKeys(props: Props)
    requires props == ExampleProps
    ensures Kept(props, "items") == ExampleKept
  {
    ExampleParses();
    assert props[1..] == [("items[10]", "a")];
    assert props[1..][1..] == [];
  }

  lemma ExampleGrouping(kept: seq<(string, (string, string))>)
    requires kept == ExampleKept
    ensures GroupAll(kept) == [("[10]", [("items[10]", "a")]), ("[2]", [("items[2]", "b")])]
  {
    var first := kept[..1];
    var g1 := [("[2]", [("items[2]", "b")])];
    assert GroupAll(first) == g1 by {
      assert first[..0] == [] && first[0] == kept[0];
    }
    assert GroupAll(kept) == InsertGroup(g1, "[10]", "items[10]", "a");
    assert LexLess("[10]", "[2]");
  }

  /** Groups follow string order, not numeric order: with keys `items[2]` and
      `items[10]`, index `[10]` comes before index `[2]`. */
  lemma IndexTenBeforeTwo(props: Props)
    requires props == ExampleProps
    ensures SearchCollectionProperties(props, "items")
         == [("[10]", [("items[10]", "a")]), ("[2]", [("items[2]", "b")])]
  {
    ExampleKeptKeys(props);
    ExampleGrouping(Kept(props, "items"));
  }
}
